=== FILE: README.md ===
# investHelperBE in Dafny

investHelperBE is a stock price notification service and a Telegram bot in
front of it. A user asks, through a bot wizard, to be told when a ticker
reaches a target price. The server then resolves the ticker to a quote
symbol and polls its price at an interval until the target is reached, the
deadline passes or the user deletes the record. Each of these ends is
announced to the user. The bot also pages through a daily list of bonds,
best effective yield first.

This project models the deterministic core of both halves as pure Dafny
functions over immutable datatypes, and proves properties about them. The
clock, HTTP answers, the record store, the Telegram user and the rendering
of floats and dates are all parameters. The modules are:

- `Lifecycle` (app/services/notification.py): the notification state machine with its six states (new,
  checking_exchange, price_scheduling, expired, done, canceled) and its transition table. It also holds the
  `done_check`, `expired_check` and `cancel_check` jobs, the exchange check that picks the quote URL, the
  per-state message, the flattened record (`dict_repr`) and the interval scheduling.
- `Polling` (app/notification.py): the earlier polling path. It finds the exchange, fetches a price, and runs
  the `price_checker` loop over a trace of (clock, price) observations.
- `ServerModels` and `BotModels` (the two `models.py` files): the request models' field constraints as
  predicates, validation with its error sets, `Stock.__repr__`, and `Bond` validation.
- `RequestParams` (`_prepare_request_params`, which is identical in bot/api and bot/services, and
  `create_notification`): the conversion of a wizard conversation into a request. This covers the price
  conversion, the deadline and delay suffixes, and the 201 status rule.
- `Bonds` and `BondPager` (bot/api/bonds.py, bot/telegram/handlers/bonds.py): the validating listing,
  `pop_better` as argmax-and-remove, and the "N из N." paging.
- `Markdown` (bot/telegram/utils.py): the formatter wrappers and the per-state notification message.
- `NotifyWizard` (bot/telegram/handlers/notify.py) and `LegacyWizard` (bot/main.py): the two `/notify`
  conversations as state machines over updates. They share the option tables and input filters of `Options`.
- `Common` and `Quotes` are shared helpers: options and results, digits, decimal parsing, ASCII case, and
  the quote URL.

The server keeps one store of records keyed by id, and each notification runs through exactly the six
states above.

Some behaviour of the code as written is kept as-is:

- `time_is_over` has the source `'*'` in the transition table (`Lifecycle.Fire`). As written, though,
  `expired_check` never fires it: the call creates a coroutine that nobody awaits. As written, no notification
  ever expires (see Findings). The interval model uses the intended check.
- The seven-step wizard's step headers read 1, 2, 3, 3, 3, 4, 5, 6 "из 7".
- That wizard never sets a chat id, so the request model's default chat id is used.
- The earlier wizard never finishes its conversation. Each later text message submits again.
- The polling loop compares prices with the record's `price` field. A record may lack that field; a record
  built from the server's create model has `targetPrice` and no `price`. So the target is optional in the
  model. A Buy or Sell watch without it dies at its first comparison, and one with no action is never reached.

## Model

| member | source | states |
|---|---|---|
| Common.ParseAction | app/models/models.py:10-13 | Only "Buy" and "Sell" are actions, and each reads back to the name it was read from |
| Common.NatToString | bot/telegram/handlers/bonds.py:26-27 | A number is rendered as decimal digits whose value is the number; one digit exactly below ten |
| Common.ParseIntOfNat | bot/services/notification.py:58-72 | `int` reads a rendered natural number back to itself |
| Options.Flatten | bot/telegram/handlers/notify.py:204-210 | A callback passes an option filter exactly when some entry of the table lists it |
| Options.Lookup | bot/telegram/handlers/notify.py:135-137 | `dict.get` finds a list exactly when some entry has the key, and gives that entry's list |
| Options.EveryEndOptionOffersDelays | bot/telegram/handlers/notify.py:20-26 | Every deadline option ends in a key of the delay table; it offers three delays, each accepted by the delay filter |
| Options.UnsignedPriceParses | bot/telegram/handlers/notify.py:201-203 | An unsigned text matching the price regex converts with `float` |
| Options.PricePatternParses | bot/telegram/handlers/notify.py:201-203 | Every text that matches the price regex as a whole converts with `float` to its decimal value; that value is non-negative without a minus and non-positive with one |
| Options.NegativePricePasses | bot/telegram/handlers/notify.py:201-203 | "-5" passes the price filter and converts to -5 |
| Options.FilterOnOneLine | bot/telegram/handlers/notify.py:191-203 | On a text without a line break, each filter passes exactly when the whole text matches its regex |
| Options.TickerFilterSearchesLines | bot/telegram/handlers/notify.py:191-193 | The ticker filter searches line by line: "hi\nthere" passes although the whole text is no ticker |
| Options.PriceFilterSearchesLines | bot/telegram/handlers/notify.py:201-203 | "5\nabc" passes the price filter although the whole text is no price, and `float` refuses it; lower-casing keeps it as typed |
| Options.PricePatternLowerCase | bot/telegram/handlers/notify.py:119 | Lower-casing a text that matches the price regex leaves it unchanged |
| Options.PriceFilterLowerCase | bot/telegram/handlers/notify.py:119 | The price as stored, lower-cased, still passes the price filter and is not empty; a one-line price is stored as typed |
| ServerModels.StockReprForms | app/models/models.py:91-96 | The representation quotes the price exactly when price and currency symbol are both truthy; otherwise it is the "not defined" text, and the two forms cannot be confused |
| ServerModels.ValidateCreate | app/models/models.py:26-54 | A create request is rejected iff some field is refused, with exactly the refused fields; a null delay or chat id is refused; when accepted it meets every bound, keeps the values, fills in the delay 60, the default chat id and the default deadline for fields left out, and keeps a null deadline as none |
| ServerModels.ExplicitNullRefused | app/models/models.py:44-54 | Sending the delay or chat id as null is not the same as leaving it out: an accepted request with that field left out is refused, on that field alone, once it is null |
| ServerModels.ValidateRead | app/models/models.py:65-70 | A read request is accepted iff its create part is and its id has 1 to 50 characters; errors of both parts are reported together |
| ServerModels.ValidateDelete | app/models/models.py:57-62 | A delete request is accepted iff its id has 1 to 50 characters |
| BotModels.DurationPatternShape | bot/models/models.py:122-130 | The duration regex accepts exactly 2 to 4 word characters that start with a digit, whose second is a digit when there are four |
| BotModels.WizardOptionsMatchDuration | bot/models/models.py:122-130 | Every deadline and delay option the wizards offer passes the duration regex |
| BotModels.CreateRqAcceptedByServer | bot/models/models.py:86-109 | Any create request the bot's model accepts, the server's model accepts with the same values |
| BotModels.ValidateBond | bot/models/models.py:139-175 | A raw item is a bond iff it has a 12-character A-Z/0-9 ISIN, a positive coupon and price, and every required field; the bond, written back out as an item, is exactly the item, and it meets the constraints |
| BotModels.ValidateBondRoundTrip | bot/models/models.py:139-175 | A bond written out as an item validates iff it meets the model's constraints, and then validates to itself |
| Quotes.SymbolOfUrl | app/services/notification.py:140-148 | A symbol recovered from a URL rebuilds that URL |
| Quotes.QuoteUrlRoundTrip | app/services/notification.py:140-148 | The quote URL of a symbol gives back the symbol, so distinct symbols give distinct URLs |
| Lifecycle.Fire | app/services/notification.py:97-103 | A trigger raises exactly outside its source states; `time_is_over` moves to expired exactly when `now >= end` and otherwise leaves the state; every other trigger moves to its destination |
| Lifecycle.TerminalStaysTerminal | app/services/notification.py:97-103 | From done, expired or canceled, any sequence of triggers ends in the same state or in expired |
| Lifecycle.Pull | app/services/notification.py:97-103 | Pulling a trigger never changes the notification or URL; it raises and changes nothing exactly outside the trigger's sources |
| Lifecycle.DoneJob | app/services/notification.py:249-260 | With a known price, the service becomes done exactly when the target is reached: equal, at or below for Buy, at or above for Sell. With no price, an action makes the comparison raise |
| Lifecycle.GetNotification | app/services/notification.py:105-118 | A record is found exactly when stored under the id; it comes back with `_id` replaced by `id` and every other field unchanged |
| Lifecycle.CancelJob | app/services/notification.py:262-275 | A stored record leaves the service alone; a vanished one cancels it, or raises from done, expired or canceled |
| Lifecycle.ExpiredJob | app/services/notification.py:240-247 | As intended, the expired check never raises and moves to expired exactly when the deadline is reached, from any state |
| Lifecycle.PriceJobs | app/services/notification.py:196-212 | The set-price, done and cancel jobs of an interval keep the id and the deadline, and move the service only to done or canceled |
| Lifecycle.RunTicksStopsAtDeadline | app/services/notification.py:212-247 | With the intended expired check, once an interval fires at or after the deadline, the scheduling has ended in done, expired or canceled |
| Lifecycle.AsWrittenNeverExpires | app/services/notification.py:240-247 | As written, no sequence of intervals ever moves a service to expired |
| Lifecycle.DeadlinePassesUnnoticed | app/services/notification.py:240-247 | A stored Buy watch at 100, polled at 105 after its deadline: as written it keeps waiting, while the intended check expires it |
| Lifecycle.SuffixLookups | app/services/notification.py:140-142 | One lookup per exchange suffix, in order, for the ticker followed by the suffix |
| Lifecycle.Hits | app/services/notification.py:143 | The answers kept are exactly the lookups that returned a body |
| Lifecycle.SetSelfAttr | app/services/notification.py:168-184 | The stock takes price, currency, symbol and name from the answer in that order, and stops at the first missing key |
| Lifecycle.SetSelfAttrIdempotent | app/services/notification.py:168-184 | Applying the same answer twice changes nothing more |
| Lifecycle.CheckExchange | app/services/notification.py:132-166 | The check succeeds iff no lookup timed out and exactly one answered. Then the URL names the answer's symbol, the stock takes its fields, the record is saved and the state is price_scheduling. Otherwise the state stays checking_exchange and the store is unchanged; a timeout is re-raised |
| Lifecycle.CheckedIsNotCanceled | app/services/notification.py:152-156 | After a successful check the record is stored, so the first cancel check does nothing |
| Lifecycle.DoneWithoutActionRaises | app/services/notification.py:293-299 | As written, announcing a done notification without an action raises |
| Lifecycle.SendText | app/services/notification.py:286-315 | The message is non-empty exactly in done, expired, canceled and price_scheduling; the cancel message names the id; otherwise it agrees with the code as written |
| Lifecycle.DictRepr | app/services/notification.py:59-73 | The record has the notification's fields without `stock`, the deadline as text, and the stock's fields |
| Lifecycle.DictReprRoundTrip | app/services/notification.py:59-73 | Reading the record back gives the notification, given that the deadline text reads back |
| Lifecycle.Schedule | app/services/notification.py:186-220 | A timed-out first fetch raises before any job; otherwise interval after interval runs the set-price, done, cancel and expired jobs while the state is price_scheduling |
| Lifecycle.RunTicksKeepsId | app/services/notification.py:186-220 | Intervals never change the id, and scheduling ends in price_scheduling, done, expired or canceled |
| Lifecycle.BoundPriceFrozen | app/services/notification.py:196-202 | As written, the stock's price after any number of intervals is the price fetched at the start |
| Lifecycle.FrozenPriceMissesTarget | app/services/notification.py:196-202 | A Buy watch at 100 with quotes 105 then 98: as written it keeps waiting, while with fresh quotes it is done |
| Polling.FindExchange | app/notification.py:93-114 | An HTTP error gives no exchange; an error in the Moscow answer gives the empty exchange; otherwise the Moscow exchange |
| Polling.CheckPriceFindsExchange | app/notification.py:117-122 | Without an exchange, the price check asks with the exchange the lookup finds, and fails exactly when it finds none |
| Polling.CheckPrice | app/notification.py:117-137 | No exchange is found exactly when none is given and the lookup fails; a price comes from the URL of the ticker followed by the exchange suffix |
| Polling.HitIsTargetReached | app/notification.py:152-156 | With a target, the loop's test is the lifecycle's target condition for the stored action; without one it never hits, and it raises exactly for a Buy or Sell watch |
| Polling.PriceChecker | app/notification.py:140-168 | A null deadline makes the first comparison raise: no poll, nothing sent. Otherwise the loop polls only while `now <= end` and stops at the first hit. A hit sends the reached message, then the time-over message and the delete; a timeout sends the last two; a missing price, or a Buy or Sell watch without a target, ends the coroutine with nothing sent. Without a target nothing is ever reached, and a Buy or Sell watch dies at its first poll inside the deadline |
| RequestParams.ConvertPrice | bot/services/notification.py:56-57 | A truthy `price` is replaced by `targetPrice`, its float value, or fails as a prepare error; anything else is untouched |
| RequestParams.ConvertEnd | bot/services/notification.py:58-66 | A deadline option ending in m, h or d becomes `now` plus that many minutes, hours or days, and its key is removed. Other suffixes are kept; a bad number is a prepare error; a missing key escapes |
| RequestParams.ConvertDelay | bot/services/notification.py:67-72 | A delay ending in s, m or h becomes that many seconds, minutes or hours in seconds. Other suffixes are kept; a bad number is a prepare error; a missing key escapes |
| RequestParams.Prepare | bot/services/notification.py:53-76 | Keys other than price, deadline and delay pass through unchanged; a missing deadline escapes as an uncaught error |
| RequestParams.EndOptionSeconds | bot/api/notification.py:63-71 | Every deadline option converts to 5 minutes to 7 days |
| RequestParams.DelayOptionSeconds | bot/api/notification.py:72-77 | Every delay option converts to 10 to 21600 seconds |
| RequestParams.WizardConversationPrepares | bot/api/notification.py:58-81 | A wizard conversation converts iff it has no price or `float` takes the stored price; a failure is a prepare error; a one-line price always converts. The deadline is 5 minutes to a week ahead, and the delay is 10 s to 6 h, inside the server's bound |
| RequestParams.CreateNotification | bot/api/notification.py:26-56 | A transport error gives nothing, status 201 gives the body, any other status raises, and a conversion error comes first |
| RequestParams.WizardCreateFailures | bot/api/notification.py:26-81 | For a conversation a wizard collected, the conversion fails, as a prepare error, exactly when `float` refuses the stored price; with no price or a one-line price, creating fails only as a refused request, exactly when the server answers with a status other than 201 |
| Markdown.Enclose | bot/telegram/utils.py:4-27 | A wrapped value starts with the opening mark, ends with the closing one, and holds the value between them |
| Markdown.EncloseRoundTrip | bot/telegram/utils.py:4-27 | Unwrapping a wrapped value gives the value back |
| Markdown.WrappersShape | bot/telegram/utils.py:4-27 | bold, italic, code, pre, underline and strikethrough give `*v*`, `_v_\r`, `` `v` ``, ```` ```v``` ````, `__v__` and `~v~`, each unwrapping back to v |
| Markdown.SplitJoin | bot/telegram/utils.py:44-55 | Lines without newlines, joined with newlines, split back into the same lines |
| Markdown.Build | bot/telegram/utils.py:35-56 | The message is empty exactly for a non-notification or an unreported state; otherwise it is the state's lines joined with newlines |
| Markdown.BuildLines | bot/telegram/utils.py:44-56 | The message reads back as the state's lines; a done message has no id line, and a canceled message no target line |
| Bonds.ListBonds | bot/api/bonds.py:32-44 | Exactly the items that validate are listed |
| Bonds.ListBondsAppend | bot/api/bonds.py:36-42 | The listing works item by item, so it keeps the items' order |
| Bonds.ListBondsLength | bot/api/bonds.py:36-42 | Nothing is dropped iff every item validates |
| Bonds.ArgMaxFirst | bot/api/bonds.py:48-51 | The index of the greatest yield, with every earlier yield strictly smaller |
| Bonds.PopBetter | bot/api/bonds.py:46-53 | An empty list fails; two or more bonds with a missing yield fail; otherwise one bond comes out |
| Bonds.PopBetterTakesFirstBest | bot/api/bonds.py:48-51 | The bond taken is the first with the greatest yield; the rest is the list without that index, in order, so the two together are a permutation of the list |
| BondPager.MessageHeaderInjective | bot/telegram/handlers/bonds.py:26-27 | Different positions or counts give different headers |
| BondPager.Introduce | bot/telegram/handlers/bonds.py:45-58 | Shows the best bond as number N of N and stores the other N - 1 with the count N |
| BondPager.NextItem | bot/telegram/handlers/bonds.py:61-77 | With bonds left, shows the best under the number left and keeps the count; with none left, sends the closing text and finishes |
| BondPager.DrainFollowsNextItem | bot/telegram/handlers/bonds.py:61-77 | Pressing "next" repeatedly lists what the handler shows, one call at a time |
| BondPager.DrainCountsDown | bot/telegram/handlers/bonds.py:61-77 | Over a list with yields, one bond per entry is shown, numbered from its length down to 1 |
| BondPager.DrainPermutes | bot/telegram/handlers/bonds.py:61-77 | The bonds shown are a permutation of the list |
| BondPager.DrainNonIncreasing | bot/telegram/handlers/bonds.py:61-77 | The bonds shown come from the list, in non-increasing yield |
| BondPager.SessionShowsAllOnce | bot/telegram/handlers/bonds.py:45-77 | A whole conversation shows every bond exactly once, numbered N down to 1, in non-increasing yield |
| BondPager.IntroduceFailures | bot/telegram/handlers/bonds.py:45-52 | An empty list fails, as does a list of two or more bonds with a missing yield |
| NotifyWizard.NextStep | bot/telegram/handlers/notify.py:39-46 | Each step moves to the next in declared order |
| NotifyWizard.Request | bot/telegram/handlers/notify.py:160-165 | A built request passes the model's constraints and carries the candidate's ticker and exchange, the converted price, the options, the event and the default chat id |
| NotifyWizard.Handle | bot/telegram/handlers/notify.py:182-212 | `/notify` restarts from any state and keeps the data; other updates stay or move one step forward; nothing is taken while idle; the event step always finishes |
| NotifyWizard.TickerStepSpec | bot/telegram/handlers/notify.py:56-77 | A text is taken iff one of its lines is 1 to 5 letters, and the whole text is stored upper-cased; on a hit the last stock is shown and the rest kept; with no hit the wizard stays |
| NotifyWizard.RejectingWalksBack | bot/telegram/handlers/notify.py:80-94 | After k answers "Нет", the candidates shown are the kept stocks from last to first, and the step stays |
| NotifyWizard.ApproveAnswers | bot/telegram/handlers/notify.py:80-101 | "Нет" with nothing kept only says so; "Да" moves to the action step; other presses are ignored |
| NotifyWizard.EndStepOffersDelays | bot/telegram/handlers/notify.py:130-141 | Every deadline stores the choice and offers three delays the filter accepts, so building the keyboard never fails |
| NotifyWizard.DelayFilterIgnoresOffer | bot/telegram/handlers/notify.py:208-210 | The delay filter takes a delay that was not offered for the chosen deadline |
| NotifyWizard.HandleKeepsInv | bot/telegram/handlers/notify.py:104-151 | Every step keeps the stored answers well formed for the steps behind it: the stored price passes the price filter and the options are ones the wizard offers |
| NotifyWizard.EventRequestBuilt | bot/telegram/handlers/notify.py:154-179 | At the event step the request is built iff the ticker meets its bound, `float` takes the stored price and the result meets its bound, and the event meets its bound; the options always pass |
| NotifyWizard.NegativePriceFails | bot/telegram/handlers/notify.py:154-179 | A negative price passes the filter but the conversation ends in the failure message |
| NotifyWizard.EventStepFinishes | bot/telegram/handlers/notify.py:154-179 | The event step finishes and clears the data; it sends the failure text iff building or creating raised, and the notification's message iff one was created |
| LegacyWizard.Handle | bot/main.py:45-132 | `/notify` restarts from any state; other updates stay or move one step forward; nothing is taken while idle; the event step stays |
| LegacyWizard.StoredAsTyped | bot/main.py:52-87 | A ticker is taken iff one of its lines is 1 to 5 letters, and the whole text is stored as typed; a price is taken iff one of its lines matches the price regex, the stored text passes the filter too, and a one-line price is stored under `price` unchanged |
| LegacyWizard.UnconvertiblePriceRefused | bot/main.py:79-87 | A price that passes the filter but that `float` refuses is stored all the same, and the request conversion of the conversation fails with a prepare error |
| LegacyWizard.EndStepOffersDelays | bot/main.py:96-109 | The deadline is stored under `end_notification` and offers three delays the filter accepts |
| LegacyWizard.DelayFilterIgnoresOffer | bot/main.py:112-116 | The delay filter takes a delay that was not offered |
| LegacyWizard.HandleKeepsInv | bot/main.py:52-122 | Every step keeps the stored price, deadline and delay to values the filters let through |
| LegacyWizard.SubmittedConverts | bot/main.py:125-131 | What the event step submits carries the event and the sender's chat id. The request conversion accepts it iff there is no price or `float` takes it, and fails otherwise with a prepare error; when it accepts, it keeps the chat id and gives a deadline 5 minutes to a week ahead and a delay the server accepts |

## Left out

- The apscheduler jobs, `create_task`, the draining of cancelled tasks and the scheduler shutdown are not modelled. Each job is one atomic step, and the jobs of an interval run in the order they were added.
- The wall clock is a parameter in integer seconds. So is the import-time default deadline.
- Prices and yields are reals. Float rounding, `inf` and `nan` are not modelled.
- The rendering of floats and dates (`str(...)`) is a function parameter. The seven-step wizard's stock and notification message bodies are parameters too.
- `float()` and `int()` are modelled for optionally signed digit strings with at most one dot. `float()` strips surrounding ASCII white space; Unicode white space, underscores, exponents, `inf` and `nan` are not accepted.
- The ticker and price filters are modelled as aiogram compiles them, case-insensitive and multi-line: a text passes when one of its lines matches. The duration regex is modelled over ASCII; Unicode `\d` and `\w` are not.
- NotifyWizard.Handle, NotifyWizard.TickerStepSpec, LegacyWizard.Handle, LegacyWizard.StoredAsTyped: `str.upper()` and `str.lower()` change only the ASCII letters. Python also maps other letters, such as 'ı' to 'I' and 'ſ' to 'S', and the ticker filter lets those through.
- A quote answer without a `symbol` would produce a URL ending in "None". This is not modelled: a quote always has a symbol.
- `requests` timeouts in the polling path are not HTTP errors in the source. The model treats every failed Moscow lookup as the logged HTTP error.
- app/services/bonds.py (MOEX client, DataFrames, thresholds), app/services/stock.py, bot/api/stock.py and bot/api/base.py are HTTP clients and are not part of this model.
- The Mongo and Redis wrappers are not part of this model; the store is a map from id to record. Neither are the FastAPI routers, app/teleBot/bot.py, the middleware, or configuration and logging.
- `create` in bot/services/notification.py is not modelled; only its request conversion is. The earlier wizard's submission ends at the dictionary it hands over.
- `Notification.__repr__` and `StockPrice.__repr__` are log texts and are not modelled.
- `bot.answer_callback_query` and the keyboards' layout widths are not modelled; the keyboards are modelled as their option lists.
- The ticker handlers' `if not message.text.lower()` branch is not modelled: the filter already rules out an empty text.
- NotifyWizard.TickerStep, NotifyWizard.ApproveStep, NotifyWizard.EventStep: `MarkdownMessageBuilder` in bot/telegram/utils.py defines no `build_stock_find_message` and no `build_notification_message`, which bot/telegram/handlers/notify.py calls at lines 68, 87 and 170. `NotificationService` in bot/api/notification.py has no constructor, so `NotificationService(notification_user_data=...)` at line 166 raises TypeError. Its `create_notification` also requires a `tg_notification` argument that the call does not pass. As written, a ticker hit and a "Нет" with stocks kept raise before answering, and every event step ends in the failure text. The model assumes these callees render and submit as their names say; the renderings and the submission are parameters.
- Markdown.Build, BondPager, NotifyWizard, LegacyWizard: bot/telegram/utils.py line 1 imports `NotificationMessage` from bot/models/models.py, which defines no such class. As written, importing bot/telegram/utils.py raises ImportError, and so does importing every module that imports it: bot/telegram/handlers/notify.py (line 13), bot/telegram/handlers/bonds.py (line 12), and bot/core/middlewares.py (line 6), and through it bot/main.py (line 13). None of the code behind these four modules can load. They model that code as if the import resolved, with `NotificationMessage` taken as a tag on the payload.
- Polling.PriceChecker: the sleep between polls is not modelled; each entry of the trace is one turn of the loop.

## Findings

| source | as written | input that shows it | evidently intended | confidence | as-written member | corrected member |
|---|---|---|---|---|---|---|
| app/services/notification.py:293-299 | In state done, `msg2` is assigned only when the notification has an action, but is always used | A done notification with no action: building the message raises `UnboundLocalError`, and the user is never told the target was reached | Leave out the action line when there is no action | not executed; high | Lifecycle.DoneWithoutActionRaises | Lifecycle.SendText |
| app/services/notification.py:240-247 | `expired_check` is a plain function that calls the asynchronous trigger `time_is_over()` without awaiting or scheduling it, unlike `done_check` and `cancel_check`. The coroutine is dropped and the state never changes | A stored Buy watch at 100 whose price stays at 105 past its deadline: it stays in price_scheduling, and its jobs keep running | Schedule the trigger on the loop, as the other checks do, so the watch expires at the deadline | not executed; high | Lifecycle.DeadlinePassesUnnoticed | Lifecycle.ExpiredJob |
| bot/main.py:79-87 | aiogram compiles the price regex with `re.MULTILINE` and uses `search`, so `^` and `$` match at line breaks and a text passes when any one line is a price. The handler stores the whole text | "5\nabc": it passes the filter and is stored; `float` refuses it, so the earlier wizard's conversion fails with a prepare error, and the seven-step wizard ends in its failure text (bot/telegram/handlers/notify.py:201-203) | Accept only a text that is a price as a whole, so every accepted price converts | not executed; high | LegacyWizard.UnconvertiblePriceRefused | Options.PricePatternParses |
| app/services/notification.py:196-202 | The price is fetched once, and that response is bound into the set-price job with `partial`, so every interval re-applies the first price | A Buy watch at 100 whose quote is 105 at scheduling and 98 later: the price stays 105 and the notification never completes | Fetch a fresh quote on every interval | not executed; high | Lifecycle.FrozenPriceMissesTarget | Lifecycle.Schedule |

=== FILE: bond_pager.dfy ===
/** The bot's bond pager: `/bonds` shows the best bond of the list under the
    header "N из N.", and each "next" press shows the best of the rest under
    the number of bonds still left, until none is left and the closing text
    ends the conversation. The conversation's stored data is `Pager`. */
module BondPager {
  import opened Common
  import opened BotModels
  import opened Bonds
  import Markdown

  /** `message_header`: "cur из count." in italics, then a blank line. */
  function MessageHeader(count: nat, cur: nat): string
  {
    Markdown.Italic(NatToString(cur) + " из " + NatToString(count) + ".") + "\n\n"
  }

  /** Two digit strings, each followed by a space, agree up to the space
      only if they are the same. */
  lemma DigitsBeforeSpace(a: string, x: string, b: string, y: string)
    requires IsDigits(a) && IsDigits(b)
    requires a + x == b + y && |x| > 0 && |y| > 0 && x[0] == ' ' && y[0] == ' '
    ensures a == b && x == y
  {
    assert forall i :: 0 <= i < |a| ==> (a + x)[i] == a[i] && IsDigit(a[i]);
    assert forall i :: 0 <= i < |b| ==> (b + y)[i] == b[i] && IsDigit(b[i]);
    assert (a + x)[|a|] == ' ' && (b + y)[|b|] == ' ';
    assert |a| == |b|;
    assert a == (a + x)[..|a|] && b == (b + y)[..|b|];
    assert x == (a + x)[|a|..] && y == (b + y)[|b|..];
  }

  /** Rendering a number is one-to-one. */
  lemma NatToStringInjective(m: nat, n: nat)
    requires NatToString(m) == NatToString(n)
    ensures m == n
  {
    assert DigitsValue(NatToString(m)) == m && DigitsValue(NatToString(n)) == n;
  }

  /** Texts in italics followed by the same text are equal only if the
      texts are. */
  lemma ItalicPrefixInjective(v1: string, v2: string, t: string)
    requires Markdown.Italic(v1) + t == Markdown.Italic(v2) + t
    ensures v1 == v2
  {
    var r1 := Markdown.Italic(v1);
    var r2 := Markdown.Italic(v2);
    assert |r1| == |r2|;
    assert r1 == (r1 + t)[..|r1|];
    assert r2 == (r2 + t)[..|r2|];
    assert v1 == r1[1..1 + |v1|];
    assert v2 == r2[1..1 + |v2|];
  }

  /** The header names the position and the count: different headers for
      different pairs. */
  lemma MessageHeaderInjective(count1: nat, cur1: nat, count2: nat, cur2: nat)
    requires MessageHeader(count1, cur1) == MessageHeader(count2, cur2)
    ensures count1 == count2 && cur1 == cur2
  {
    var a1 := NatToString(cur1);
    var a2 := NatToString(cur2);
    var c1 := NatToString(count1);
    var c2 := NatToString(count2);
    var x1 := " из " + c1 + ".";
    var x2 := " из " + c2 + ".";
    assert a1 + " из " + c1 + "." == a1 + x1;
    assert a2 + " из " + c2 + "." == a2 + x2;
    ItalicPrefixInjective(a1 + x1, a2 + x2, "\n\n");
    DigitsBeforeSpace(a1, x1, a2, x2);
    NatToStringInjective(cur1, cur2);
    assert c1 == x1[4..|x1| - 1] && c2 == x2[4..|x2| - 1];
    NatToStringInjective(count1, count2);
  }

  /** `full_message`: the header, then the bond's description (`body`). */
  function FullMessage(count: nat, cur: nat, item: Bond, body: Bond -> string): string
  {
    MessageHeader(count, cur) + body(item)
  }

  const ClosingText: string :=
    Markdown.Bold("На сегодня это весь список подобранных облигаций!") + "\n" + "Список обновляется каждый день."

  /** The conversation's stored data: the bonds not shown yet, and the count. */
  datatype Pager = Pager(bondsList: seq<Bond>, countItems: nat)

  /** What one handler call does: the data it leaves (`None` when the
      conversation is finished), the bond it shows with its number, and the
      text it sends. */
  datatype Step = Step(next: Option<Pager>, shown: Option<(nat, Bond)>, text: string)

  /** `bonds_introduce`: shows the best bond as number N of N and stores the
      other N - 1 with the count N. */
  function Introduce(items: seq<Bond>, body: Bond -> string): (r: Result<Step, PopError>)
    ensures r.Err? <==> PopBetter(items).Err?
    ensures r.Ok? ==> && r.value.next.Some?
                      && r.value.next.value.countItems == |items|
                      && |r.value.next.value.bondsList| == |items| - 1
                      && r.value.shown == Some((|items|, PopBetter(items).value.better))
                      && r.value.text == FullMessage(|items|, |items|, PopBetter(items).value.better, body)
  {
    match PopBetter(items)
    case Err(e) => Err(e)
    case Ok(p) =>
      var count := |items|;
      Ok(Step(Some(Pager(p.others, count)), Some((count, p.better)), FullMessage(count, count, p.better, body)))
  }

  /** `bonds_next_item`: with bonds left, shows the best of them under the
      number of bonds left, and stores the rest; with none left, sends the
      closing text and finishes. The count is never changed. */
  function NextItem(p: Pager, body: Bond -> string): (r: Result<Step, PopError>)
    ensures |p.bondsList| == 0 ==> r == Ok(Step(None, None, ClosingText))
    ensures |p.bondsList| > 0 ==> (r.Err? <==> PopBetter(p.bondsList).Err?)
    ensures |p.bondsList| > 0 && r.Ok? ==>
            && r.value.next == Some(Pager(PopBetter(p.bondsList).value.others, p.countItems))
            && |r.value.next.value.bondsList| == |p.bondsList| - 1
            && r.value.shown == Some((|p.bondsList|, PopBetter(p.bondsList).value.better))
            && r.value.text == FullMessage(p.countItems, |p.bondsList|, PopBetter(p.bondsList).value.better, body)
  {
    var current := |p.bondsList|;
    if current > 0 then
      match PopBetter(p.bondsList)
      case Err(e) => Err(e)
      case Ok(popped) =>
        Ok(Step(Some(Pager(popped.others, p.countItems)), Some((current, popped.better)),
                FullMessage(p.countItems, current, popped.better, body)))
    else Ok(Step(None, None, ClosingText))
  }

  /** Pressing "next" until the conversation finishes: the numbered bonds
      shown on the way. */
  function Drain(p: Pager): Result<seq<(nat, Bond)>, PopError>
    decreases |p.bondsList|
  {
    if |p.bondsList| == 0 then Ok([])
    else
      match PopBetter(p.bondsList)
      case Err(e) => Err(e)
      case Ok(popped) =>
        match Drain(Pager(popped.others, p.countItems))
        case Err(e) => Err(e)
        case Ok(rest) => Ok([(|p.bondsList|, popped.better)] + rest)
  }

  /** `Drain` is what the handler does: an empty list ends the conversation
      with the closing text; otherwise the first bond listed is the one
      `NextItem` shows, and the rest is the drain of the data it leaves. */
  lemma DrainFollowsNextItem(p: Pager, body: Bond -> string)
    ensures NextItem(p, body).Ok? && NextItem(p, body).value.next.None?
            <==> |p.bondsList| == 0
    ensures NextItem(p, body).Err? ==> Drain(p).Err?
    ensures NextItem(p, body).Ok? && NextItem(p, body).value.next.Some? ==>
            && NextItem(p, body).value.shown.Some?
            && Drain(p) == (match Drain(NextItem(p, body).value.next.value)
                            case Err(e) => Err(e)
                            case Ok(rest) => Ok([NextItem(p, body).value.shown.value] + rest))
  {
  }

  /** What taking the best bond out of a non-empty list with yields leaves. */
  lemma PopFacts(bonds: seq<Bond>)
    requires |bonds| > 0 && AllYields(bonds)
    ensures PopBetter(bonds).Ok?
    ensures AllYields(PopBetter(bonds).value.others)
    ensures PopBetter(bonds).value.better in bonds
    ensures forall b :: b in PopBetter(bonds).value.others ==> b in bonds
  {
    PopBetterTakesFirstBest(bonds);
    var popped := PopBetter(bonds).value;
    forall b | b in popped.others ensures b in bonds {
      assert b in multiset(popped.others);
    }
    assert popped.better in multiset(bonds);
  }

  /** Draining a list whose bonds all have yields shows one entry per bond,
      numbered from the list's length down to 1 ... */
  lemma {:induction false} DrainCountsDown(p: Pager)
    requires AllYields(p.bondsList)
    ensures Drain(p).Ok?
    ensures |Drain(p).value| == |p.bondsList|
    ensures forall i :: 0 <= i < |p.bondsList| ==> Drain(p).value[i].0 == |p.bondsList| - i
    decreases |p.bondsList|
  {
    if |p.bondsList| > 0 {
      PopFacts(p.bondsList);
      var popped := PopBetter(p.bondsList).value;
      var next := Pager(popped.others, p.countItems);
      DrainCountsDown(next);
      var rest := Drain(next).value;
      assert Drain(p).value == [(|p.bondsList|, popped.better)] + rest;
    }
  }

  /** ... and every bond exactly once: the bonds shown are a permutation
      of the list. */
  lemma {:induction false} DrainPermutes(p: Pager)
    requires AllYields(p.bondsList)
    ensures Drain(p).Ok?
    ensures multiset(Values(Drain(p).value)) == multiset(p.bondsList)
    decreases |p.bondsList|
  {
    DrainCountsDown(p);
    if |p.bondsList| > 0 {
      PopFacts(p.bondsList);
      var popped := PopBetter(p.bondsList).value;
      var next := Pager(popped.others, p.countItems);
      DrainPermutes(next);
      var rest := Drain(next).value;
      var shown := [(|p.bondsList|, popped.better)] + rest;
      assert Drain(p).value == shown;
      assert Values(shown) == [popped.better] + Values(rest);
      PopBetterTakesFirstBest(p.bondsList);
    }
  }

  /** ... best yield first: every bond shown is from the list, and the
      yields shown never increase. */
  lemma {:induction false} DrainNonIncreasing(p: Pager)
    requires AllYields(p.bondsList)
    ensures Drain(p).Ok?
    ensures forall i :: 0 <= i < |Drain(p).value| ==> Drain(p).value[i].1 in p.bondsList
    ensures forall i, j :: 0 <= i < j < |Drain(p).value| ==>
              Yield(Drain(p).value[i].1) >= Yield(Drain(p).value[j].1)
    decreases |p.bondsList|
  {
    DrainCountsDown(p);
    if |p.bondsList| > 0 {
      PopFacts(p.bondsList);
      var popped := PopBetter(p.bondsList).value;
      var next := Pager(popped.others, p.countItems);
      DrainNonIncreasing(next);
      var rest := Drain(next).value;
      var shown := [(|p.bondsList|, popped.better)] + rest;
      assert Drain(p).value == shown;
      forall i | 0 <= i < |shown| ensures shown[i].1 in p.bondsList {
        if i > 0 {
          assert shown[i] == rest[i - 1];
        }
      }
      forall i, j | 0 <= i < j < |shown| ensures Yield(shown[i].1) >= Yield(shown[j].1) {
        assert shown[j] == rest[j - 1];
        if i > 0 {
          assert shown[i] == rest[i - 1];
        }
      }
    }
  }

  /** A whole `/bonds` conversation: the introduction, then "next" until
      the conversation finishes; the numbered bonds shown. */
  function Session(items: seq<Bond>, body: Bond -> string): Result<seq<(nat, Bond)>, PopError>
  {
    match Introduce(items, body)
    case Err(e) => Err(e)
    case Ok(step) =>
      if step.next.None? || step.shown.None? then Ok([])
      else
        match Drain(step.next.value)
        case Err(e) => Err(e)
        case Ok(rest) => Ok([step.shown.value] + rest)
  }

  /** Over a non-empty list whose bonds all have yields, a conversation
      shows every bond exactly once, numbered N, N - 1, ..., 1, in
      non-increasing yield. */
  lemma SessionShowsAllOnce(items: seq<Bond>, body: Bond -> string)
    requires |items| > 0 && AllYields(items)
    ensures Session(items, body).Ok?
    ensures |Session(items, body).value| == |items|
    ensures forall i :: 0 <= i < |items| ==> Session(items, body).value[i].0 == |items| - i
    ensures multiset(Values(Session(items, body).value)) == multiset(items)
    ensures forall i :: 0 <= i < |items| ==> Session(items, body).value[i].1 in items
    ensures forall i, j :: 0 <= i < j < |items| ==>
              Yield(Session(items, body).value[i].1) >= Yield(Session(items, body).value[j].1)
  {
    var whole := Pager(items, |items|);
    DrainCountsDown(whole);
    DrainPermutes(whole);
    DrainNonIncreasing(whole);
    assert Session(items, body) == Drain(whole);
  }

  /** Introducing an empty list fails, as does any list of two or more bonds
      in which one has no yield. */
  lemma IntroduceFailures(items: seq<Bond>, body: Bond -> string)
    ensures Introduce(items, body) == Err(EmptyList) <==> |items| == 0
    ensures Introduce(items, body) == Err(Incomparable) <==> |items| >= 2 && !AllYields(items)
  {
  }
}

=== FILE: bonds.dfy ===
/** The bot's bond listing: validating the raw items (`list`) and taking
    the best bond out of a list (`pop_better`). */
module Bonds {
  import opened Common
  import opened BotModels

  /** `list`: the items that validate as bonds, in their order; the others
      are logged and skipped. */
  function ListBonds(items: seq<RawBond>): (r: seq<Bond>)
    ensures |r| <= |items|
    ensures forall b :: b in r ==> exists i :: 0 <= i < |items| && ValidateBond(items[i]) == Some(b)
    ensures forall i :: 0 <= i < |items| && ValidateBond(items[i]).Some? ==> ValidateBond(items[i]).value in r
    decreases |items|
  {
    if |items| == 0 then []
    else
      assert forall i :: 1 <= i < |items| ==> items[i] == items[1..][i - 1];
      Listed(items[0]) + ListBonds(items[1..])
  }

  /** The bond an item lists as, if it validates. */
  function Listed(item: RawBond): (r: seq<Bond>)
    ensures |r| <= 1
    ensures forall b :: b in r <==> ValidateBond(item) == Some(b)
  {
    match ValidateBond(item)
    case Some(b) => [b]
    case None => []
  }

  /** The listing works item by item, so it keeps the items' order: listing
      two runs of items one after the other is listing their concatenation. */
  lemma {:induction false} ListBondsAppend(a: seq<RawBond>, b: seq<RawBond>)
    ensures ListBonds(a + b) == ListBonds(a) + ListBonds(b)
    decreases |a|
  {
    if |a| == 0 {
      assert a + b == b;
    } else {
      assert (a + b)[0] == a[0];
      assert (a + b)[1..] == a[1..] + b;
      ListBondsAppend(a[1..], b);
    }
  }

  /** The listing drops exactly the items that fail validation. */
  lemma {:induction false} ListBondsLength(items: seq<RawBond>)
    ensures (forall i :: 0 <= i < |items| ==> ValidateBond(items[i]).Some?) <==> |ListBonds(items)| == |items|
    decreases |items|
  {
    if |items| > 0 {
      ListBondsLength(items[1..]);
      assert forall i :: 1 <= i < |items| ==> items[i] == items[1..][i - 1];
      if ValidateBond(items[0]).None? {
        assert |ListBonds(items)| <= |items| - 1;
      }
    }
  }

  // ---------------------------------------------------------------------------
  // The best bond

  /** Every bond of the list has an effective yield. */
  predicate AllYields(s: seq<Bond>)
  {
    forall b :: b in s ==> b.effectiveYield.Some?
  }

  function Yield(b: Bond): real
    requires b.effectiveYield.Some?
  {
    b.effectiveYield.value
  }

  /** The index of the first bond with the greatest yield. */
  function ArgMaxFirst(s: seq<Bond>): (i: nat)
    requires |s| > 0 && AllYields(s)
    ensures i < |s|
    ensures forall j :: 0 <= j < |s| ==> Yield(s[j]) <= Yield(s[i])
    ensures forall j :: 0 <= j < i ==> Yield(s[j]) < Yield(s[i])
    decreases |s|
  {
    if |s| == 1 then 0
    else
      var init := s[..|s| - 1];
      assert forall j :: 0 <= j < |init| ==> init[j] == s[j];
      var k := ArgMaxFirst(init);
      if Yield(s[|s| - 1]) > Yield(s[k]) then |s| - 1 else k
  }

  /** Why `pop_better` can fail: `max` of an empty list, or a missing yield
      compared with another one. */
  datatype PopError = EmptyList | Incomparable

  /** `better_choice` and `other_list`. */
  datatype Popped = Popped(better: Bond, others: seq<Bond>)

  /** `pop_better`: the first bond with the greatest effective yield, and
      the list without it. A single bond is taken whatever its yield. */
  function PopBetter(bonds: seq<Bond>): (r: Result<Popped, PopError>)
    ensures r == Err(EmptyList) <==> |bonds| == 0
    ensures r == Err(Incomparable) <==> |bonds| >= 2 && !AllYields(bonds)
    ensures r.Ok? ==> |r.value.others| == |bonds| - 1
  {
    if |bonds| == 0 then Err(EmptyList)
    else if |bonds| == 1 then Ok(Popped(bonds[0], []))
    else if !AllYields(bonds) then Err(Incomparable)
    else
      var i := ArgMaxFirst(bonds);
      Ok(Popped(bonds[i], bonds[..i] + bonds[i + 1..]))
  }

  /** What `pop_better` takes: one of the list's bonds, the first with the
      greatest yield, and the others are the list without it, in order. */
  lemma PopBetterTakesFirstBest(bonds: seq<Bond>)
    requires PopBetter(bonds).Ok?
    ensures var r := PopBetter(bonds).value;
            exists i :: 0 <= i < |bonds| && bonds[i] == r.better
                        && r.others == bonds[..i] + bonds[i + 1..]
                        && (AllYields(bonds) ==> forall j :: 0 <= j < i ==> Yield(bonds[j]) < Yield(bonds[i]))
    ensures var r := PopBetter(bonds).value;
            multiset(bonds) == multiset{r.better} + multiset(r.others)
    ensures AllYields(bonds) ==> forall b :: b in bonds ==> Yield(b) <= Yield(PopBetter(bonds).value.better)
  {
    var i := if |bonds| == 1 then 0 else ArgMaxFirst(bonds);
    assert bonds == bonds[..i] + [bonds[i]] + bonds[i + 1..];
  }
}

=== FILE: bot_models.dfy ===
/** The bot's data classes: the request and response shapes it exchanges
    with the server, the request it builds from a wizard conversation, and
    the `Bond` record of the bond listing. The bounds on tickers, prices,
    delays, chat ids and ids are the server's (`ServerModels`). */
module BotModels {
  import opened Common
  import opened ServerModels
  import Options

  /** The chat id the bot's request models fill in when none is given: the
      string form, unlike the server's integer default. */
  const BotChatId: string := "411442889"

  /** A quoted price: value, currency code and currency symbol. */
  datatype Amount = Amount(value: real, currency: string, currencySymbol: string)

  /** `ExchangeRs`: where a ticker trades; every field may be missing. */
  datatype ExchangeRs = ExchangeRs(code: Option<string>, name: Option<string>, searchSymbol: Option<string>)

  /** `StockRs`: one stock the lookup service found for a ticker. */
  datatype StockRs = StockRs(ticker: string, exchange: ExchangeRs, shortName: Option<string>, price: Amount)

  /** `StockPriceNotificationCreateRq`. */
  datatype CreateRq = CreateRq(
    ticker: string,
    exchange: ExchangeRs,
    targetPrice: real,
    action: Option<Action>,
    event: Option<string>,
    endNotification: int,
    delay: int,
    chatId: string)

  /** `StockPriceNotificationReadRs`: a create request echoed back with its
      id, the current price and, optionally, the lifecycle state. */
  datatype ReadRs = ReadRs(request: CreateRq, id: string, currentPrice: Amount, state: Option<string>)

  /** `StockPriceNotificationRqBot`: what the wizard submits; deadline and
      delay are still the option texts the user picked. */
  datatype RqBot = RqBot(
    ticker: string,
    targetPrice: real,
    action: Option<Action>,
    event: Option<string>,
    endNotification: string,
    delay: string,
    chatId: string,
    exchange: ExchangeRs)

  predicate ValidCreateRq(r: CreateRq)
  {
    TickerOk(r.ticker) && TargetPriceOk(r.targetPrice) && EventOk(r.event)
    && DelayOk(r.delay) && ChatIdOk(r.chatId)
  }

  predicate ValidReadRs(r: ReadRs)
  {
    ValidCreateRq(r.request) && IdOk(r.id)
  }

  /** The duration filter `^\d{1,2}\w{1,2}$` on deadline and delay texts. */
  predicate DurationPattern(s: string)
  {
    exists k :: 1 <= k <= 2 && k < |s| && IsDigits(s[..k]) && |s| - k <= 2
                && forall i :: k <= i < |s| ==> IsWordChar(s[i])
  }

  predicate ValidRqBot(r: RqBot)
  {
    TickerOk(r.ticker) && TargetPriceOk(r.targetPrice) && EventOk(r.event)
    && DurationPattern(r.endNotification) && DurationPattern(r.delay) && ChatIdOk(r.chatId)
  }

  /** The duration regex accepts exactly the texts of two to four word
      characters that start with a digit, and whose second character is a
      digit too when there are four. */
  lemma DurationPatternShape(s: string)
    ensures DurationPattern(s) <==>
            && 2 <= |s| <= 4
            && IsDigit(s[0])
            && (forall i :: 0 <= i < |s| ==> IsWordChar(s[i]))
            && (|s| == 4 ==> IsDigit(s[1]))
  {
    if 2 <= |s| <= 4 && IsDigit(s[0]) && (forall i :: 0 <= i < |s| ==> IsWordChar(s[i]))
       && (|s| == 4 ==> IsDigit(s[1])) {
      var k := if |s| == 4 then 2 else 1;
      assert IsDigits(s[..k]) by {
        forall i | 0 <= i < k ensures IsDigit(s[..k][i]) {
          assert s[..k][i] == s[i];
        }
      }
      assert forall i :: k <= i < |s| ==> IsWordChar(s[i]);
    }
    if DurationPattern(s) {
      var k :| 1 <= k <= 2 && k < |s| && IsDigits(s[..k]) && |s| - k <= 2
               && forall i :: k <= i < |s| ==> IsWordChar(s[i]);
      assert s[..k][0] == s[0];
      forall i | 0 <= i < k ensures IsWordChar(s[i]) {
        assert s[..k][i] == s[i];
      }
      if |s| == 4 {
        assert s[..k][1] == s[1];
      }
    }
  }

  /** Every deadline and delay option the wizards offer passes the duration
      filter, so the request the wizard builds never fails on these fields. */
  lemma WizardOptionsMatchDuration(o: string)
    requires o in Options.AllEndOptions() || o in Options.AllDelayOptions()
    ensures DurationPattern(o)
  {
    if o in Options.AllEndOptions() {
      EndOptionsMatch(o);
    } else {
      DelayOptionsMatch(o);
    }
  }

  lemma EndOptionsMatch(o: string)
    requires o in Options.AllEndOptions()
    ensures DurationPattern(o)
  {
    assert o in ["5m", "10m", "30m", "1h", "3h", "6h", "12h", "1d", "3d", "5d", "7d"];
    DurationPatternShape(o);
  }

  lemma DelayOptionsMatch(o: string)
    requires o in Options.AllDelayOptions()
    ensures DurationPattern(o)
  {
    assert o in ["10s", "30s", "1m", "5m", "15m", "30m", "1h", "3h", "6h"];
    DurationPatternShape(o);
  }

  /** The request as the server sees it when the bot posts a `CreateRq`. */
  function ToServer(r: CreateRq): RawCreate
  {
    RawCreate(Some(r.ticker), Some(r.targetPrice),
              if r.action.Some? then Some(ActionName(r.action.value)) else None,
              r.event, Present(r.endNotification), Present(r.delay), Present(r.chatId))
  }

  /** The bot's create model declares the server's bounds: whatever it
      accepts, the server's create model accepts with the same values. */
  lemma CreateRqAcceptedByServer(r: CreateRq, defaultEnd: int)
    requires ValidCreateRq(r)
    ensures ValidateCreate(ToServer(r), defaultEnd).Ok?
    ensures ValidateCreate(ToServer(r), defaultEnd).value
            == ServerModels.CreateRequest(r.ticker, r.targetPrice, r.action, r.event,
                                          Some(r.endNotification), r.delay, r.chatId)
  {
    var raw := ToServer(r);
    forall f ensures !Rejects(raw, f) {
      if f == ActionField && r.action.Some? {
        assert ParseAction(ActionName(r.action.value)).Some?;
      }
    }
    var v := ValidateCreate(raw, defaultEnd);
    if r.action.Some? {
      assert ParseAction(ActionName(r.action.value)) == Some(r.action.value);
      assert v.value.action == r.action;
    }
  }

  // ---------------------------------------------------------------------------
  // Bonds

  /** The ISIN filter `^[A-Z0-9]{12}$`. */
  predicate IsinPattern(s: string)
  {
    |s| == 12 && forall i :: 0 <= i < |s| ==> ('A' <= s[i] <= 'Z' || IsDigit(s[i]))
  }

  /** A validated bond; dates are day numbers. */
  datatype Bond = Bond(
    isin: string,
    name: string,
    couponAmount: real,
    accumulatedCouponYield: Option<real>,
    couponPeriod: int,
    couponPercent: real,
    price: real,
    nextCouponDate: Option<int>,
    expiredDate: int,
    yieldToOffer: Option<real>,
    effectiveYield: Option<real>)

  /** One item of the bond listing before validation: any field may be missing. */
  datatype RawBond = RawBond(
    isin: Option<string>,
    name: Option<string>,
    couponAmount: Option<real>,
    accumulatedCouponYield: Option<real>,
    couponPeriod: Option<int>,
    couponPercent: Option<real>,
    price: Option<real>,
    nextCouponDate: Option<int>,
    expiredDate: Option<int>,
    yieldToOffer: Option<real>,
    effectiveYield: Option<real>)

  /** A bond as an item of the listing, every field present. */
  function ToRaw(b: Bond): RawBond
  {
    RawBond(Some(b.isin), Some(b.name), Some(b.couponAmount), b.accumulatedCouponYield,
            Some(b.couponPeriod), Some(b.couponPercent), Some(b.price), b.nextCouponDate,
            Some(b.expiredDate), b.yieldToOffer, b.effectiveYield)
  }

  /** The constraints of the `Bond` model on a bond's own values. */
  predicate BondOk(b: Bond)
  {
    IsinPattern(b.isin) && b.couponAmount > 0.0 && b.price > 0.0
  }

  /** Constructing `Bond(**item)`: `None` when validation fails. */
  function ValidateBond(raw: RawBond): (r: Option<Bond>)
    ensures r.Some? <==>
            && raw.isin.Some? && IsinPattern(raw.isin.value)
            && raw.name.Some? && raw.couponPeriod.Some? && raw.couponPercent.Some?
            && raw.expiredDate.Some?
            && raw.couponAmount.Some? && raw.couponAmount.value > 0.0
            && raw.price.Some? && raw.price.value > 0.0
    ensures r.Some? ==> ToRaw(r.value) == raw && BondOk(r.value)
  {
    if raw.isin.Some? && IsinPattern(raw.isin.value) && raw.name.Some?
       && raw.couponAmount.Some? && raw.couponAmount.value > 0.0
       && raw.couponPeriod.Some? && raw.couponPercent.Some?
       && raw.price.Some? && raw.price.value > 0.0 && raw.expiredDate.Some?
    then
      Some(Bond(raw.isin.value, raw.name.value, raw.couponAmount.value, raw.accumulatedCouponYield,
                raw.couponPeriod.value, raw.couponPercent.value, raw.price.value,
                raw.nextCouponDate, raw.expiredDate.value, raw.yieldToOffer, raw.effectiveYield))
    else None
  }

  /** Validation reads back exactly the bonds that meet the constraints:
      a bond written out as an item validates to itself iff it is valid. */
  lemma ValidateBondRoundTrip(b: Bond)
    ensures ValidateBond(ToRaw(b)).Some? <==> BondOk(b)
    ensures BondOk(b) ==> ValidateBond(ToRaw(b)) == Some(b)
  {
  }
}

=== FILE: common.dfy ===
/** Vocabulary shared by the server and the bot: optional values, results,
    the exchange action, and the small text routines (digits, case, decimal
    numbers) that the validators and the request preparation rely on. */
module Common {

  /** A value that may be absent; Python's `None`. */
  datatype Option<+T> = None | Some(value: T)

  /** The outcome of an operation that may raise. */
  datatype Result<+T, +E> = Ok(value: T) | Err(error: E)

  /** `ActionsOnExchange`: whether the user waits to buy (price falls to the
      target) or to sell (price rises to the target). */
  datatype Action = Buy | Sell

  /** The enum's string value, as stored in requests and records. */
  function ActionName(a: Action): string
  {
    match a
    case Buy => "Buy"
    case Sell => "Sell"
  }

  /** Reading an action back from its string value; anything else is not an action. */
  function ParseAction(s: string): (r: Option<Action>)
    ensures r.Some? ==> ActionName(r.value) == s
    ensures forall a :: ActionName(a) == s ==> r == Some(a)
  {
    if s == "Buy" then Some(Buy)
    else if s == "Sell" then Some(Sell)
    else None
  }

  // ---------------------------------------------------------------------------
  // Digits and integers

  predicate IsDigit(c: char)
  {
    '0' <= c <= '9'
  }

  /** Every character is an ASCII digit (the empty string included). */
  predicate AllDigits(s: string)
  {
    forall i :: 0 <= i < |s| ==> IsDigit(s[i])
  }

  /** A non-empty run of ASCII digits: the regex `[0-9]+`. */
  predicate IsDigits(s: string)
  {
    |s| > 0 && AllDigits(s)
  }

  function DigitValue(c: char): nat
    requires IsDigit(c)
  {
    (c as int) - ('0' as int)
  }

  function DigitChar(d: nat): (c: char)
    requires d < 10
    ensures IsDigit(c) && DigitValue(c) == d
  {
    (('0' as int) + d) as char
  }

  /** The value of a digit string read in base ten. */
  function DigitsValue(s: string): nat
    requires AllDigits(s)
  {
    if |s| == 0 then 0 else DigitsValue(s[..|s| - 1]) * 10 + DigitValue(s[|s| - 1])
  }

  function Pow10(k: nat): (p: nat)
    ensures p >= 1
  {
    if k == 0 then 1 else 10 * Pow10(k - 1)
  }

  /** Decimal rendering of a natural number, as Python's `str` of an `int`. */
  function NatToString(n: nat): (s: string)
    ensures IsDigits(s)
    ensures DigitsValue(s) == n
    ensures n < 10 <==> |s| == 1
  {
    if n < 10 then [DigitChar(n)]
    else
      var prefix := NatToString(n / 10);
      var s := prefix + [DigitChar(n % 10)];
      assert s[..|s| - 1] == prefix;
      s
  }

  /** Python's `int(s)` on ASCII text: an optional sign followed by digits;
      any other text raises `ValueError`, here `None`. */
  function ParseInt(s: string): (r: Option<int>)
  {
    if IsDigits(s) then Some(DigitsValue(s))
    else if |s| > 1 && s[0] == '-' && IsDigits(s[1..]) then Some(-(DigitsValue(s[1..]) as int))
    else if |s| > 1 && s[0] == '+' && IsDigits(s[1..]) then Some(DigitsValue(s[1..]))
    else None
  }

  /** Reading back a rendered natural number gives the number. */
  lemma ParseIntOfNat(n: nat)
    ensures ParseInt(NatToString(n)) == Some(n)
  {
  }

  /** `int` of digits followed by a letter fails: the unit must be cut off first. */
  lemma ParseIntRejectsLetters(s: string, i: nat)
    requires i < |s| && !IsDigit(s[i]) && s[i] != '-' && s[i] != '+'
    ensures ParseInt(s) == None
  {
    if i > 0 {
      assert s[1..][i - 1] == s[i];
    }
  }

  // ---------------------------------------------------------------------------
  // Decimal numbers: Python's `float(s)` on plain decimal text

  /** Value of `int.frac`, where either part may be empty but not both. */
  function UnsignedDecimal(intPart: string, fracPart: string): (r: real)
    requires AllDigits(intPart) && AllDigits(fracPart)
    ensures r >= 0.0
  {
    (DigitsValue(intPart) as real) + (DigitsValue(fracPart) as real) / (Pow10(|fracPart|) as real)
  }

  /** Position of the first '.' in `s`, if any. */
  function DotIndex(s: string): (r: Option<nat>)
    ensures r.Some? ==> r.value < |s| && s[r.value] == '.' && forall j :: 0 <= j < r.value ==> s[j] != '.'
    ensures r.None? ==> forall j :: 0 <= j < |s| ==> s[j] != '.'
  {
    if |s| == 0 then None
    else if s[0] == '.' then Some(0)
    else
      match DotIndex(s[1..])
      case None => None
      case Some(k) => Some(k + 1)
  }

  /** An unsigned decimal: digits, optionally a '.' and more digits, with at
      least one digit somewhere. */
  function ParseUnsigned(s: string): Option<real>
  {
    match DotIndex(s)
    case None =>
      if IsDigits(s) then Some(DigitsValue(s) as real) else None
    case Some(k) =>
      var intPart := s[..k];
      var fracPart := s[k + 1..];
      if AllDigits(intPart) && AllDigits(fracPart) && |intPart| + |fracPart| > 0
      then Some(UnsignedDecimal(intPart, fracPart))
      else None
  }

  /** Python's `float(s)` restricted to sign-and-decimal-point text; any
      other text raises `ValueError`, here `None`. */
  function ParseDecimal(s: string): (r: Option<real>)
    ensures r.Some? && (|s| == 0 || s[0] != '-') ==> r.value >= 0.0
    ensures r.Some? && |s| > 0 && s[0] == '-' ==> r.value <= 0.0
  {
    if |s| > 0 && s[0] == '-' then
      match ParseUnsigned(s[1..])
      case None => None
      case Some(v) => Some(-v)
    else if |s| > 0 && s[0] == '+' then ParseUnsigned(s[1..])
    else ParseUnsigned(s)
  }

  /** The characters below 128 that Python's `str.strip()` and `float()`
      take for white space. */
  predicate IsSpace(c: char)
  {
    c == ' ' || ('\t' <= c <= '\r') || ('\U{1C}' <= c <= '\U{1F}')
  }

  /** `s.lstrip()`: what is left after the leading white space. */
  function TrimStart(s: string): (r: string)
    ensures |r| <= |s| && r == s[|s| - |r|..]
    ensures forall i :: 0 <= i < |s| - |r| ==> IsSpace(s[i])
    ensures |r| > 0 ==> !IsSpace(r[0])
  {
    if |s| > 0 && IsSpace(s[0]) then TrimStart(s[1..]) else s
  }

  /** `s.rstrip()`: what is left before the trailing white space. */
  function TrimEnd(s: string): (r: string)
    ensures |r| <= |s| && r == s[..|r|]
    ensures forall i :: |r| <= i < |s| ==> IsSpace(s[i])
    ensures |r| > 0 ==> !IsSpace(r[|r| - 1])
  {
    if |s| > 0 && IsSpace(s[|s| - 1]) then TrimEnd(s[..|s| - 1]) else s
  }

  /** `s.strip()`. */
  function Strip(s: string): string
  {
    TrimEnd(TrimStart(s))
  }

  /** A text that neither starts nor ends with white space is its own strip. */
  lemma StripUnspaced(s: string)
    requires |s| > 0 && !IsSpace(s[0]) && !IsSpace(s[|s| - 1])
    ensures Strip(s) == s
  {
  }

  /** Python's `float(s)`: surrounding white space is ignored, and the rest
      must be sign-and-decimal-point text. */
  function ParseFloat(s: string): (r: Option<real>)
    ensures r.Some? ==> |Strip(s)| > 0 && ParseDecimal(Strip(s)) == r
    ensures r.Some? && |s| > 0 && s[0] == '-' ==> r.value <= 0.0
  {
    assert |s| > 0 && s[0] == '-' ==> TrimStart(s) == s;
    ParseDecimal(Strip(s))
  }

  /** Reading back a rendered whole number as a float gives the number. */
  lemma ParseDecimalOfNat(n: nat)
    ensures ParseDecimal(NatToString(n)) == Some(n as real)
  {
    var s := NatToString(n);
    assert DotIndex(s).None? by {
      forall j | 0 <= j < |s| ensures s[j] != '.' {
        assert IsDigit(s[j]);
      }
    }
  }

  // ---------------------------------------------------------------------------
  // Characters, case and suffixes

  predicate IsAsciiLetter(c: char)
  {
    ('a' <= c <= 'z') || ('A' <= c <= 'Z')
  }

  /** The regex class `\w` over ASCII: letters, digits and underscore. */
  predicate IsWordChar(c: char)
  {
    IsAsciiLetter(c) || IsDigit(c) || c == '_'
  }

  function UpperChar(c: char): char
  {
    if 'a' <= c <= 'z' then ((c as int) - 32) as char else c
  }

  function LowerChar(c: char): char
  {
    if 'A' <= c <= 'Z' then ((c as int) + 32) as char else c
  }

  /** `str.upper()` on ASCII letters; other characters are kept. */
  function AsciiUpper(s: string): (r: string)
    ensures |r| == |s|
    ensures forall i :: 0 <= i < |s| ==> r[i] == UpperChar(s[i])
  {
    seq(|s|, i requires 0 <= i < |s| => UpperChar(s[i]))
  }

  /** `str.lower()` on ASCII letters; other characters are kept. */
  function AsciiLower(s: string): (r: string)
    ensures |r| == |s|
    ensures forall i :: 0 <= i < |s| ==> r[i] == LowerChar(s[i])
  {
    seq(|s|, i requires 0 <= i < |s| => LowerChar(s[i]))
  }

  /** `s.endswith(c)` for a one-character suffix. */
  predicate EndsWith(s: string, c: char)
  {
    |s| > 0 && s[|s| - 1] == c
  }

  /** `s[:-1]`. */
  function DropLast(s: string): string
    requires |s| > 0
  {
    s[..|s| - 1]
  }

  /** The text Python prints for an optional string: the string, or `None`. */
  function ShowOptional(t: Option<string>): string
  {
    match t
    case Some(v) => v
    case None => "None"
  }

  /** The second components of a sequence of pairs, in order: the bonds of
      numbered entries, or the option lists of a keyboard table. */
  function Values<K, V>(pairs: seq<(K, V)>): (r: seq<V>)
    ensures |r| == |pairs|
    ensures forall i :: 0 <= i < |pairs| ==> r[i] == pairs[i].1
  {
    seq(|pairs|, i requires 0 <= i < |pairs| => pairs[i].1)
  }
}

=== FILE: legacy_wizard.dfy ===
/** The bot's earlier six-step notification wizard (`/notify` in the bot's
    entry module): ticker, action, target price, deadline, delay and event,
    with no approval step. It stores the answers in a dictionary under the
    keys the request conversion reads, and hands the collected dictionary,
    with the sender's chat id, to the notification service. */
module LegacyWizard {
  import opened Common
  import opened Options
  import opened RequestParams
  import ServerModels

  /** `OrderNotification`'s states in declared order; `Idle` is no state. */
  datatype Step = Idle | WaitTicker | WaitAction | WaitTarget | WaitEnd | WaitDelay | WaitEvent

  function Rank(s: Step): nat
  {
    match s
    case Idle => 0
    case WaitTicker => 1
    case WaitAction => 2
    case WaitTarget => 3
    case WaitEnd => 4
    case WaitDelay => 5
    case WaitEvent => 6
  }

  datatype Wizard = Wizard(step: Step, data: Params)

  /** What a handler sends, or the dictionary it hands to the service.
      `Crashed` is the type error of building the delay keyboard from a
      missing option list, raised after the step has moved on. */
  datatype Reply =
    | Ignored
    | AskTicker
    | AskAction(buttons: seq<string>)
    | AskPrice
    | AskEnd(rows: seq<seq<string>>)
    | AskDelay(buttons: seq<string>)
    | Crashed
    | AskEvent
    | Submitted(request: Params)

  /** The dispatcher and its handlers: `/notify` restarts from any state,
      keeping the data; each step's handler takes an update its filter lets
      through, stores the answer and moves on. The event step hands the
      data with the sender's chat id to the service and stays where it is:
      the conversation is never finished. */
  function Handle(w: Wizard, u: Update): (r: (Wizard, Reply))
    ensures u == NotifyCommand ==> r == (Wizard(WaitTicker, w.data), AskTicker)
    ensures u != NotifyCommand && w.step != WaitEvent ==>
            r.0.step == w.step || Rank(r.0.step) == Rank(w.step) + 1
    ensures w.step == WaitEvent && u.Message? ==> r.0.step == WaitEvent
    ensures r.1 == Ignored ==> r.0 == w
    ensures w.step == Idle && u != NotifyCommand ==> r == (w, Ignored)
    ensures forall k :: k in w.data ==> k in r.0.data
  {
    match u
    case NotifyCommand => (Wizard(WaitTicker, w.data), AskTicker)
    case Message(text, sender) =>
      if w.step == WaitTicker && TickerFilter(text) then
        (Wizard(WaitAction, w.data["ticker" := Text(text)]), AskAction(AvailableActions))
      else if w.step == WaitTarget && PriceFilter(text) then
        (Wizard(WaitEnd, w.data["price" := Text(AsciiLower(text))]), AskEnd(Values(AvailableEndNotification)))
      else if w.step == WaitEvent then
        var d := w.data["event" := Text(text)];
        (Wizard(WaitEvent, d), Submitted(d["chatId" := Whole(sender)]))
      else (w, Ignored)
    case Press(c) =>
      if w.step == WaitAction && c in AvailableActions then
        (Wizard(WaitTarget, w.data["action" := Text(c)]), AskPrice)
      else if w.step == WaitEnd && c in AllEndOptions() then
        var next := Wizard(WaitDelay, w.data["end_notification" := Text(c)]);
        (match OfferedDelays(c)
         case Some(options) => (next, AskDelay(options))
         case None => (next, Crashed))
      else if w.step == WaitDelay && c in AllDelayOptions() then
        (Wizard(WaitEvent, w.data["delay" := Text(c)]), AskEvent)
      else (w, Ignored)
  }

  /** The ticker is taken when one line of the text is one to five
      letters, and the whole text is stored exactly as typed. The target
      price is taken when one line is a price; the text is stored under
      `price` lower-cased, which keeps that line, and a one-line price is
      stored as typed. */
  lemma StoredAsTyped(w: Wizard, text: string, sender: nat)
    ensures w.step == WaitTicker ==>
            (Handle(w, Message(text, sender)).1 != Ignored <==> TickerFilter(text))
            && (TickerFilter(text) ==> Handle(w, Message(text, sender)).0.data["ticker"] == Text(text))
    ensures w.step == WaitTarget ==>
            (Handle(w, Message(text, sender)).1 != Ignored <==> PriceFilter(text))
            && (PriceFilter(text) ==>
                  && Handle(w, Message(text, sender)).0.data["price"].Text?
                  && PriceFilter(Handle(w, Message(text, sender)).0.data["price"].s))
            && (PriceFilter(text) && OneLine(text) ==> Handle(w, Message(text, sender)).0.data["price"] == Text(text))
  {
    if w.step == WaitTarget && PriceFilter(text) {
      PriceFilterLowerCase(text);
    }
  }

  /** A text the price filter passes but `float` refuses, such as a price
      typed above a line of letters, is taken and stored, and the
      conversion of the conversation holding it raises `PrepareRequestError`. */
  lemma UnconvertiblePriceRefused(w: Wizard, text: string, sender: nat, now: int)
    requires w.step == WaitTarget && PriceFilter(text) && ParseFloat(AsciiLower(text)).None?
    ensures var r := Handle(w, Message(text, sender));
            && r.0.step == WaitEnd
            && "price" in r.0.data && r.0.data["price"] == Text(AsciiLower(text))
            && Prepare(r.0.data, now) == Err(PrepareRequestError)
  {
    PriceStep(w, text, sender);
    PriceFilterLowerCase(text);
    PriceRefusedFirst(w.data["price" := Text(AsciiLower(text))], now);
  }

  /** The price step stores a filtered text lower-cased and moves on. */
  lemma PriceStep(w: Wizard, text: string, sender: nat)
    requires w.step == WaitTarget && PriceFilter(text)
    ensures Handle(w, Message(text, sender)).0 == Wizard(WaitEnd, w.data["price" := Text(AsciiLower(text))])
  {
  }

  /** A conversation whose price `float` refuses fails in the first step. */
  lemma PriceRefusedFirst(d: Params, now: int)
    requires "price" in d && d["price"].Text? && |d["price"].s| > 0 && ParseFloat(d["price"].s).None?
    ensures Prepare(d, now) == Err(PrepareRequestError)
  {
    assert ConvertPrice(d) == Err(PrepareRequestError);
  }

  /** Every deadline option leads to a keyboard of three delay options,
      each one the delay filter accepts; the choice is stored under
      `end_notification`. */
  lemma EndStepOffersDelays(w: Wizard, c: string)
    requires w.step == WaitEnd && c in AllEndOptions()
    ensures Handle(w, Press(c)).0 == Wizard(WaitDelay, w.data["end_notification" := Text(c)])
    ensures Handle(w, Press(c)).1 == AskDelay(OfferedDelays(c).value)
    ensures |OfferedDelays(c).value| == 3
    ensures forall d :: d in OfferedDelays(c).value ==> d in AllDelayOptions()
  {
    EveryEndOptionOffersDelays(c);
  }

  /** The delay filter takes any delay option, offered or not. */
  lemma DelayFilterIgnoresOffer(data: Params)
    ensures "10s" !in OfferedDelays("7d").value
    ensures Handle(Wizard(WaitDelay, data["end_notification" := Text("7d")]), Press("10s")).0.step == WaitEvent
  {
    assert OfferedDelays("7d") == Some(["1h", "3h", "6h"]);
    assert "10s" in AllDelayOptions();
  }

  // ---------------------------------------------------------------------------
  // What the stored data holds

  /** The values the request conversion reads are always ones the filters
      let through, and the deadline and delay are there once their steps
      are behind. */
  predicate Inv(w: Wizard)
  {
    var d := w.data;
    && ("price" in d ==> d["price"].Text? && PriceFilter(d["price"].s))
    && ("end_notification" in d ==> d["end_notification"].Text? && d["end_notification"].s in AllEndOptions())
    && ("delay" in d ==> d["delay"].Text? && d["delay"].s in AllDelayOptions())
    && (Rank(w.step) >= Rank(WaitDelay) ==> "end_notification" in d)
    && (Rank(w.step) >= Rank(WaitEvent) ==> "delay" in d)
  }

  lemma InvInitially()
    ensures Inv(Wizard(Idle, map[]))
  {
  }

  /** Every update keeps the invariant. */
  lemma HandleKeepsInv(w: Wizard, u: Update)
    requires Inv(w)
    ensures Inv(Handle(w, u).0)
  {
    match u
    case NotifyCommand =>
    case Message(text, sender) => MessageKeepsInv(w, text, sender);
    case Press(c) => PressKeepsInv(w, c);
  }

  lemma MessageKeepsInv(w: Wizard, text: string, sender: nat)
    requires Inv(w)
    ensures Inv(Handle(w, Message(text, sender)).0)
  {
    if w.step == WaitTarget {
      PriceMessageKeepsInv(w, text, sender);
    } else {
      OtherMessageKeepsInv(w, text, sender);
    }
  }

  lemma PriceMessageKeepsInv(w: Wizard, text: string, sender: nat)
    requires Inv(w) && w.step == WaitTarget
    ensures Inv(Handle(w, Message(text, sender)).0)
  {
    if PriceFilter(text) {
      PriceFilterLowerCase(text);
      PriceKeepsInv(w, AsciiLower(text));
    }
  }

  lemma PriceKeepsInv(w: Wizard, price: string)
    requires Inv(w) && w.step == WaitTarget && PriceFilter(price)
    ensures Inv(Wizard(WaitEnd, w.data["price" := Text(price)]))
  {
  }

  lemma OtherMessageKeepsInv(w: Wizard, text: string, sender: nat)
    requires Inv(w) && w.step != WaitTarget
    ensures Inv(Handle(w, Message(text, sender)).0)
  {
  }

  lemma PressKeepsInv(w: Wizard, c: string)
    requires Inv(w)
    ensures Inv(Handle(w, Press(c)).0)
  {
  }

  /** The event step submits the stored answers, the event and the
      sender's chat id. */
  lemma SubmittedRequest(w: Wizard, text: string, sender: nat)
    requires w.step == WaitEvent
    ensures Handle(w, Message(text, sender)).1
            == Submitted(w.data["event" := Text(text)]["chatId" := Whole(sender)])
  {
  }

  /** What the event step hands to the service is a conversation the
      request conversion reads: it carries the event and the sender's chat
      id, which the conversion passes through. The conversion fails only
      on a stored price `float` refuses, and then with
      `PrepareRequestError`; otherwise it gives a deadline five minutes to
      a week ahead and a delay the server accepts. */
  lemma SubmittedConverts(w: Wizard, text: string, sender: nat, now: int)
    requires Inv(w) && w.step == WaitEvent
    ensures Handle(w, Message(text, sender)).1.Submitted?
    ensures var rq := Handle(w, Message(text, sender)).1.request;
            && rq["event"] == Text(text) && rq["chatId"] == Whole(sender)
            && WizardConversation(rq)
            && (Prepare(rq, now).Ok? <==> "price" !in rq || ParseFloat(rq["price"].s).Some?)
            && (Prepare(rq, now).Err? ==> Prepare(rq, now).error == PrepareRequestError)
    ensures var rq := Handle(w, Message(text, sender)).1.request;
            Prepare(rq, now).Ok? ==>
            && "chatId" in Prepare(rq, now).value && Prepare(rq, now).value["chatId"] == Whole(sender)
            && "endNotification" in Prepare(rq, now).value && Prepare(rq, now).value["endNotification"].Stamp?
            && now + 300 <= Prepare(rq, now).value["endNotification"].t <= now + 7 * 86400
            && "delay" in Prepare(rq, now).value && Prepare(rq, now).value["delay"].Whole?
            && ServerModels.DelayOk(Prepare(rq, now).value["delay"].n)
  {
    var rq := w.data["event" := Text(text)]["chatId" := Whole(sender)];
    SubmittedRequest(w, text, sender);
    assert WizardConversation(rq);
    WizardConversationPrepares(rq, now);
    if Prepare(rq, now).Ok? {
      var p := Prepare(rq, now).value;
      assert "chatId" in rq && "chatId" !in {"price", "targetPrice", "end_notification", "endNotification", "delay"};
      assert "chatId" in p && p["chatId"] == Whole(sender);
    }
  }
}

=== FILE: lifecycle.dfy ===
/** The notification lifecycle of the server: a six-state machine
    (new, checking_exchange, price_scheduling, expired, done, canceled) with
    its transition table, the guards its interval jobs evaluate, the
    exchange check that resolves a ticker to a quote URL, the per-state
    message, and the flattening of a notification into a stored record.

    Every job is one atomic step here. The clock (`now`), the quote service
    (`fetch`, `Lookup` values) and the record store are parameters. */
module Lifecycle {
  import opened Common
  import opened ServerModels
  import opened Quotes

  // ---------------------------------------------------------------------------
  // The machine

  datatype State = New | CheckingExchange | PriceScheduling | Expired | Done | Canceled

  /** The machine's triggers: `checking_exchange`, `price_scheduling`,
      `time_is_over`, `work_is_done` and `cancel`. */
  datatype Trigger = StartChecking | StartScheduling | TimeIsOver | WorkIsDone | Cancel

  predicate Terminal(s: State)
  {
    s == Expired || s == Done || s == Canceled
  }

  /** The `source` lists of the transition table. */
  predicate IsSource(t: Trigger, s: State)
  {
    match t
    case StartChecking => s == New
    case StartScheduling => s == CheckingExchange
    case TimeIsOver => true
    case WorkIsDone => s == CheckingExchange || s == PriceScheduling
    case Cancel => s == New || s == CheckingExchange || s == PriceScheduling
  }

  /** The `dest` of each transition. */
  function Dest(t: Trigger): State
  {
    match t
    case StartChecking => CheckingExchange
    case StartScheduling => PriceScheduling
    case TimeIsOver => Expired
    case WorkIsDone => Done
    case Cancel => Canceled
  }

  /** What a lifecycle step can raise. */
  datatype Fault =
    | MachineError(trigger: Trigger, state: State)  // trigger fired outside its sources
    | TypeError                                     // a missing price compared with the target
    | AssertionError                                // not exactly one exchange answered
    | Timeout                                       // a guarded fetch ran out of time
    | UnboundLocalError                             // a message part was never assigned

  /** `expired_check`: the deadline has been reached (inclusive). */
  predicate ExpiredCheck(now: int, end: int)
  {
    now >= end
  }

  /** Pulling a trigger: outside its sources it raises and the state stays;
      `time_is_over` with a false `expired_check` condition leaves the state
      as it is; otherwise the machine moves to the trigger's destination. */
  function Fire(s: State, t: Trigger, now: int, end: int): (r: Result<State, Fault>)
    ensures r.Err? <==> !IsSource(t, s)
    ensures r.Err? ==> r.error == MachineError(t, s)
    ensures r.Ok? && t != TimeIsOver ==> r.value == Dest(t)
    ensures r.Ok? && t == TimeIsOver ==> r.value == (if now >= end then Expired else s)
  {
    if !IsSource(t, s) then Err(MachineError(t, s))
    else if t == TimeIsOver && !ExpiredCheck(now, end) then Ok(s)
    else Ok(Dest(t))
  }

  /** The state after a sequence of trigger pulls at the given times; a pull
      that raises leaves the state unchanged. */
  function Run(s: State, pulls: seq<(Trigger, int)>, end: int): State
    decreases |pulls|
  {
    if |pulls| == 0 then s
    else
      var next := match Fire(s, pulls[0].0, pulls[0].1, end)
                  case Ok(v) => v
                  case Err(_) => s;
      Run(next, pulls[1..], end)
  }

  /** No trigger leads out of done, expired or canceled, except that
      `time_is_over` (source '*') can still move done or canceled to expired. */
  lemma {:induction false} TerminalStaysTerminal(s: State, pulls: seq<(Trigger, int)>, end: int)
    requires Terminal(s)
    ensures Run(s, pulls, end) == s || Run(s, pulls, end) == Expired
    decreases |pulls|
  {
    if |pulls| > 0 {
      var next := match Fire(s, pulls[0].0, pulls[0].1, end)
                  case Ok(v) => v
                  case Err(_) => s;
      assert next == s || next == Expired;
      TerminalStaysTerminal(next, pulls[1..], end);
    }
  }

  // ---------------------------------------------------------------------------
  // The notification and its service

  /** `Notification`: what is watched, for whom, until when (seconds). */
  datatype Notification = Notification(
    stock: Stock,
    targetPrice: real,
    id: string,
    action: Option<Action>,
    delay: int,
    endNotification: int,
    chatId: string,
    event: Option<string>)

  /** `NotificationService`: the machine's state, the notification, and the
      quote URL found by the exchange check. */
  datatype Service = Service(state: State, n: Notification, url: Option<string>)

  /** The service after a step, and what the step raised, if anything. */
  datatype Outcome = Outcome(svc: Service, raised: Option<Fault>)

  /** Pulling a trigger on the service. */
  function Pull(svc: Service, t: Trigger, now: int): (o: Outcome)
    ensures o.svc.n == svc.n && o.svc.url == svc.url
    ensures o.raised.Some? <==> !IsSource(t, svc.state)
    ensures o.raised.Some? ==> o.svc == svc
  {
    match Fire(svc.state, t, now, svc.n.endNotification)
    case Ok(s) => Outcome(svc.(state := s), None)
    case Err(e) => Outcome(svc, Some(e))
  }

  // ---------------------------------------------------------------------------
  // Guards and interval jobs

  /** When a watch is satisfied, stated per action: a buyer waits for the
      price to fall to the target, a seller for it to rise to the target,
      and without an action only the exact target counts. */
  predicate TargetReached(p: real, target: real, action: Option<Action>)
  {
    match action
    case None => p == target
    case Some(Buy) => p <= target
    case Some(Sell) => p >= target
  }

  /** `done_check`'s condition. An unknown price equals nothing, and
      comparing it with the target raises. */
  function DoneCheck(price: Option<real>, target: real, action: Option<Action>): Result<bool, Fault>
  {
    match price
    case None => if action.None? then Ok(false) else Err(TypeError)
    case Some(p) =>
      Ok(p == target || (action == Some(Buy) && p <= target) || (action == Some(Sell) && p >= target))
  }

  /** The `done_check` job: pulls `work_is_done` when the watch is satisfied. */
  function DoneJob(svc: Service, now: int): (o: Outcome)
    ensures o.svc.n == svc.n
    ensures svc.n.stock.price.Some? && (svc.state == CheckingExchange || svc.state == PriceScheduling) ==>
            o.raised.None?
            && (o.svc.state == Done <==> TargetReached(svc.n.stock.price.value, svc.n.targetPrice, svc.n.action))
            && (o.svc.state != Done ==> o.svc == svc)
    ensures svc.n.stock.price.None? && svc.n.action.Some? ==> o == Outcome(svc, Some(TypeError))
    ensures svc.n.stock.price.None? && svc.n.action.None? ==> o == Outcome(svc, None)
  {
    match DoneCheck(svc.n.stock.price, svc.n.targetPrice, svc.n.action)
    case Err(e) => Outcome(svc, Some(e))
    case Ok(hit) => if hit then Pull(svc, WorkIsDone, now) else Outcome(svc, None)
  }

  /** A stored field value. */
  datatype Value = Str(s: string) | Num(x: real) | Int(i: int) | Null

  type Dict = map<string, Value>

  /** `get_notification`: the record stored under `id` (the store maps each
      record's `_id` to the record), with `_id` renamed to `id`. */
  function GetNotification(store: map<string, Dict>, id: string): (r: Option<Dict>)
    ensures r.Some? <==> id in store
    ensures r.Some? ==> r.value.Keys == store[id].Keys - {"_id"} + {"id"} && r.value["id"] == Str(id)
    ensures r.Some? ==> forall k :: k in store[id] && k != "_id" && k != "id" ==> r.value[k] == store[id][k]
  {
    if id in store then Some((store[id] - {"_id"})["id" := Str(id)]) else None
  }

  /** The `cancel_check` job: the record has vanished from the store, so the
      user cancelled; pulls `cancel`. */
  function CancelJob(svc: Service, store: map<string, Dict>, now: int): (o: Outcome)
    ensures o.svc.n == svc.n
    ensures svc.n.id in store ==> o == Outcome(svc, None)
    ensures svc.n.id !in store && !Terminal(svc.state) ==> o == Outcome(svc.(state := Canceled), None)
    ensures svc.n.id !in store && Terminal(svc.state) ==> o == Outcome(svc, Some(MachineError(Cancel, svc.state)))
  {
    if GetNotification(store, svc.n.id).None? then Pull(svc, Cancel, now) else Outcome(svc, None)
  }

  /** The `expired_check` job as intended: pulls `time_is_over`, which is
      enabled in every state, once the deadline is reached. */
  function ExpiredJob(svc: Service, now: int): (o: Outcome)
    ensures o.raised.None? && o.svc.n == svc.n
    ensures o.svc.state == (if now >= svc.n.endNotification then Expired else svc.state)
  {
    Pull(svc, TimeIsOver, now)
  }

  /** The `expired_check` job as written: it is a plain function that calls
      the asynchronous trigger without awaiting or scheduling it, so the
      coroutine is dropped and the trigger never runs. */
  function ExpiredJobAsWritten(svc: Service, now: int): Outcome
  {
    Outcome(svc, None)
  }

  // ---------------------------------------------------------------------------
  // The exchange check

  /** `ExchangeSuffix`: Moscow exchange, then the bare ticker. */
  const ExchangeSuffixes: seq<string> := [".ME", ""]

  /** One guarded fetch per exchange suffix. */
  function SuffixLookups(ticker: string, fetch: string -> Lookup): (ls: seq<Lookup>)
    ensures |ls| == |ExchangeSuffixes|
    ensures forall i :: 0 <= i < |ls| ==> ls[i] == fetch(QuoteUrl(ticker + ExchangeSuffixes[i]))
  {
    [fetch(QuoteUrl(ticker + ".ME")), fetch(QuoteUrl(ticker + ""))]
  }

  predicate AnyTimeout(ls: seq<Lookup>)
  {
    exists i :: 0 <= i < |ls| && ls[i] == TimedOut
  }

  /** The answers that carried a body, in order. */
  function Hits(ls: seq<Lookup>): (qs: seq<Quote>)
    ensures |qs| <= |ls|
    ensures forall q :: q in qs <==> Data(q) in ls
  {
    if |ls| == 0 then []
    else
      var rest := Hits(ls[1..]);
      assert forall q :: Data(q) in ls <==> Data(q) == ls[0] || Data(q) in ls[1..];
      match ls[0]
      case Data(q) => [q] + rest
      case _ => rest
  }

  /** `set_self_attr`: copies price, currency, currency symbol and short
      name from a quote, in that order, stopping at the first key the quote
      lacks. */
  function SetSelfAttr(s: Stock, q: Quote): (r: Stock)
    ensures r.ticker == s.ticker
    ensures q.price.None? ==> r == s
    ensures q.price.Some? ==> r.price == q.price
    ensures r.currency == (if q.price.Some? && q.currency.Some? then q.currency else s.currency)
    ensures r.shortName == (if q.price.Some? && q.currency.Some? && q.currencySymbol.Some? && q.shortName.Some?
                            then q.shortName else s.shortName)
  {
    if q.price.None? then s
    else
      var s1 := s.(price := q.price);
      if q.currency.None? then s1
      else
        var s2 := s1.(currency := q.currency);
        if q.currencySymbol.None? then s2
        else
          var s3 := s2.(currencySymbol := q.currencySymbol);
          if q.shortName.None? then s3 else s3.(shortName := q.shortName)
  }

  /** Applying the same quote twice changes nothing more. */
  lemma SetSelfAttrIdempotent(s: Stock, q: Quote)
    ensures SetSelfAttr(SetSelfAttr(s, q), q) == SetSelfAttr(s, q)
  {
  }

  /** Pulling `checking_exchange` and running `on_enter_checking_exchange`:
      the ticker is looked up under every exchange suffix; any timeout is
      re-raised; unless exactly one lookup answered, the assertion fails and
      the service stays in checking_exchange; otherwise the quote URL is
      built from the answer's symbol, the stock takes the answer's fields,
      the flattened notification is saved under its id, and the machine
      moves on to price_scheduling. The second component is the store. */
  function CheckExchange(svc: Service, fetch: string -> Lookup, store: map<string, Dict>,
                         showTime: int -> string): (r: (Outcome, map<string, Dict>))
    ensures r.0.raised.Some? ==> r.1 == store
    ensures svc.state != New ==> r.0 == Outcome(svc, Some(MachineError(StartChecking, svc.state)))
    ensures svc.state == New ==>
            var ls := SuffixLookups(svc.n.stock.ticker, fetch);
            && r.0.svc.n.id == svc.n.id
            && (r.0.raised.None? <==> !AnyTimeout(ls) && |Hits(ls)| == 1)
            && (r.0.raised.None? ==> r.0.svc.state == PriceScheduling
                                     && r.0.svc.url == Some(QuoteUrl(Hits(ls)[0].symbol))
                                     && r.0.svc.n.stock == SetSelfAttr(svc.n.stock, Hits(ls)[0])
                                     && r.1 == store[svc.n.id := DictRepr(r.0.svc.n, showTime)])
            && (r.0.raised.Some? ==> r.0.svc == svc.(state := CheckingExchange))
            && (r.0.raised == Some(Timeout) <==> AnyTimeout(ls))
  {
    if svc.state != New then (Outcome(svc, Some(MachineError(StartChecking, svc.state))), store)
    else
      var entered := svc.(state := CheckingExchange);
      var ls := SuffixLookups(svc.n.stock.ticker, fetch);
      if AnyTimeout(ls) then (Outcome(entered, Some(Timeout)), store)
      else
        var hits := Hits(ls);
        if |hits| != 1 then (Outcome(entered, Some(AssertionError)), store)
        else
          var q := hits[0];
          var n' := entered.n.(stock := SetSelfAttr(entered.n.stock, q));
          (Outcome(Service(PriceScheduling, n', Some(QuoteUrl(q.symbol))), None),
           store[n'.id := DictRepr(n', showTime)])
  }

  /** A notification that passed the exchange check is in the store, so the
      first cancel check leaves it alone. */
  lemma CheckedIsNotCanceled(svc: Service, fetch: string -> Lookup, store: map<string, Dict>,
                             showTime: int -> string, now: int)
    requires CheckExchange(svc, fetch, store, showTime).0.raised.None?
    ensures var r := CheckExchange(svc, fetch, store, showTime);
            && GetNotification(r.1, svc.n.id).Some?
            && CancelJob(r.0.svc, r.1, now) == Outcome(r.0.svc, None)
  {
  }

  // ---------------------------------------------------------------------------
  // Messages

  function ShowPrice(p: Option<real>, show: real -> string): string
  {
    match p
    case Some(v) => show(v)
    case None => "None"
  }

  /** `send_notification` as written: in state done, the action line is only
      assigned when there is an action, but always used. */
  function SendTextAsWritten(svc: Service, show: real -> string): Result<string, Fault>
  {
    var n := svc.n;
    match svc.state
    case Done =>
      if n.action.None? then Err(UnboundLocalError)
      else Ok("Target " + show(n.targetPrice) + " has reached!\n"
              + "Event: " + ShowOptional(n.event) + ".\n"
              + "Current price is " + ShowPrice(n.stock.price, show) + ".\n"
              + "You can " + ActionName(n.action.value) + "!")
    case Expired =>
      Ok("Notification life time is over!\n"
         + "Target " + show(n.targetPrice) + ".\n"
         + "Current price is " + ShowPrice(n.stock.price, show))
    case Canceled => Ok("Notification " + n.id + " is canceled!")
    case PriceScheduling =>
      Ok("Notification " + n.id + " created!\n"
         + "Target price: " + show(n.targetPrice) + ".\n"
         + "Current price is " + ShowPrice(n.stock.price, show))
    case _ => Ok("")
  }

  /** A done notification without an action cannot be announced: building
      its message raises, so the user never hears that the target was hit. */
  lemma DoneWithoutActionRaises(svc: Service, show: real -> string)
    requires svc.state == Done && svc.n.action.None?
    ensures SendTextAsWritten(svc, show) == Err(UnboundLocalError)
  {
  }

  const CanceledPrefix: string := "Notification "

  /** The message of `send_notification`, with the action line left out when
      there is no action. It is empty, and so not sent, exactly in the
      states new and checking_exchange; the cancel message names the id. */
  function SendText(svc: Service, show: real -> string): (r: string)
    ensures r != "" <==> svc.state in {Done, Expired, Canceled, PriceScheduling}
    ensures svc.state == Canceled ==>
            |r| >= |CanceledPrefix| + |svc.n.id| && r[|CanceledPrefix|..|CanceledPrefix| + |svc.n.id|] == svc.n.id
    ensures !(svc.state == Done && svc.n.action.None?) ==> SendTextAsWritten(svc, show) == Ok(r)
  {
    var n := svc.n;
    match svc.state
    case Done =>
      var head := "Target " + show(n.targetPrice) + " has reached!\n"
                  + "Event: " + ShowOptional(n.event) + ".\n"
                  + "Current price is " + ShowPrice(n.stock.price, show) + ".\n";
      if n.action.Some? then
        var tail := "You can " + ActionName(n.action.value) + "!";
        assert head + tail == head + "You can " + ActionName(n.action.value) + "!";
        head + tail
      else head
    case Expired =>
      "Notification life time is over!\n"
      + "Target " + show(n.targetPrice) + ".\n"
      + "Current price is " + ShowPrice(n.stock.price, show)
    case Canceled =>
      var r := CanceledPrefix + n.id + " is canceled!";
      assert r[|CanceledPrefix|..|CanceledPrefix| + |n.id|] == n.id;
      r
    case PriceScheduling =>
      "Notification " + n.id + " created!\n"
      + "Target price: " + show(n.targetPrice) + ".\n"
      + "Current price is " + ShowPrice(n.stock.price, show)
    case _ => ""
  }

  // ---------------------------------------------------------------------------
  // The stored record

  /** The keys of a flattened notification: its own fields without `stock`,
      then the stock's fields. */
  const RecordKeys: set<string> := {"targetPrice", "_id", "action", "delay", "chatId", "event",
                                    "endNotification", "ticker", "shortName", "price", "currency",
                                    "currency_symbol"}

  function TextValue(t: Option<string>): Value
  {
    match t
    case Some(v) => Str(v)
    case None => Null
  }

  function NumValue(p: Option<real>): Value
  {
    match p
    case Some(v) => Num(v)
    case None => Null
  }

  /** `dict_repr`: the notification's fields without `stock`, the deadline
      rendered as text by `showTime`, merged with the stock's fields. */
  function DictRepr(n: Notification, showTime: int -> string): (d: Dict)
    ensures d.Keys == RecordKeys && "stock" !in d
    ensures d["endNotification"] == Str(showTime(n.endNotification))
    ensures d["_id"] == Str(n.id) && d["ticker"] == Str(n.stock.ticker)
  {
    map["targetPrice" := Num(n.targetPrice), "_id" := Str(n.id),
        "action" := TextValue(if n.action.Some? then Some(ActionName(n.action.value)) else None),
        "delay" := Int(n.delay), "chatId" := Str(n.chatId), "event" := TextValue(n.event),
        "endNotification" := Str(showTime(n.endNotification)),
        "ticker" := Str(n.stock.ticker), "shortName" := TextValue(n.stock.shortName),
        "price" := NumValue(n.stock.price), "currency" := TextValue(n.stock.currency),
        "currency_symbol" := TextValue(n.stock.currencySymbol)]
  }

  /** Reading an optional text back: `Null` is absent, any other non-text fails. */
  function ReadText(v: Value): Option<Option<string>>
  {
    match v
    case Str(s) => Some(Some(s))
    case Null => Some(None)
    case _ => None
  }

  function ReadNum(v: Value): Option<Option<real>>
  {
    match v
    case Num(x) => Some(Some(x))
    case Null => Some(None)
    case _ => None
  }

  function ReadAction(v: Value): Option<Option<Action>>
  {
    match v
    case Null => Some(None)
    case Str(s) => if ParseAction(s).Some? then Some(ParseAction(s)) else None
    case _ => None
  }

  /** Rebuilding a notification from a flattened record; `readTime` parses
      the rendered deadline. */
  function ParseRecord(d: Dict, readTime: string -> Option<int>): Option<Notification>
  {
    if !(RecordKeys <= d.Keys) then None
    else
      match (d["targetPrice"], d["_id"], d["delay"], d["chatId"], d["endNotification"], d["ticker"])
      case (Num(target), Str(id), Int(delay), Str(chat), Str(end), Str(ticker)) =>
        var action := ReadAction(d["action"]);
        var event := ReadText(d["event"]);
        var shortName := ReadText(d["shortName"]);
        var price := ReadNum(d["price"]);
        var currency := ReadText(d["currency"]);
        var symbol := ReadText(d["currency_symbol"]);
        var deadline := readTime(end);
        if action.None? || event.None? || shortName.None? || price.None? || currency.None?
           || symbol.None? || deadline.None?
        then None
        else
          Some(Notification(Stock(ticker, shortName.value, price.value, currency.value, symbol.value),
                            target, id, action.value, delay, deadline.value, chat, event.value))
      case _ => None
  }

  /** The flattened record keeps every field: reading it back gives the
      notification, provided the deadline's text reads back to the deadline. */
  lemma DictReprRoundTrip(n: Notification, showTime: int -> string, readTime: string -> Option<int>)
    requires readTime(showTime(n.endNotification)) == Some(n.endNotification)
    ensures ParseRecord(DictRepr(n, showTime), readTime) == Some(n)
  {
    var d := DictRepr(n, showTime);
    if n.action.Some? {
      assert ParseAction(ActionName(n.action.value)) == n.action;
    }
    assert ReadAction(d["action"]) == Some(n.action);
    assert ReadText(d["event"]) == Some(n.event);
    assert ReadText(d["shortName"]) == Some(n.stock.shortName);
    assert ReadNum(d["price"]) == Some(n.stock.price);
    assert ReadText(d["currency"]) == Some(n.stock.currency);
    assert ReadText(d["currency_symbol"]) == Some(n.stock.currencySymbol);
  }

  // ---------------------------------------------------------------------------
  // Scheduling

  /** What the world looks like at one interval: the quote the set-price job
      applies (`None` when the fetch gave nothing), the store, and the clock. */
  datatype TickInput = TickInput(quote: Option<Quote>, store: map<string, Dict>, now: int)

  /** The first three jobs of an interval: set-price, done-check and
      cancel-check, in the order they were added; a job that raises changes
      nothing. None of them touches the deadline or leads to expired. */
  function PriceJobs(svc: Service, input: TickInput): (r: Service)
    ensures r.n.endNotification == svc.n.endNotification && r.n.id == svc.n.id
    ensures r.state == svc.state || r.state == Done || r.state == Canceled
  {
    var s1 := if input.quote.Some? then svc.(n := svc.n.(stock := SetSelfAttr(svc.n.stock, input.quote.value)))
              else svc;
    var s2 := DoneJob(s1, input.now).svc;
    CancelJob(s2, input.store, input.now).svc
  }

  /** One interval of the scheduler as intended: the three price jobs, then
      the expired check. */
  function Tick(svc: Service, input: TickInput): Service
  {
    ExpiredJob(PriceJobs(svc, input), input.now).svc
  }

  /** One interval as written: the expired check does nothing. */
  function TickAsWritten(svc: Service, input: TickInput): Service
  {
    ExpiredJobAsWritten(PriceJobs(svc, input), input.now).svc
  }

  /** Intervals keep firing while the service is in price_scheduling; entering
      any other state shuts the scheduler down. */
  function RunTicks(svc: Service, inputs: seq<TickInput>): Service
    decreases |inputs|
  {
    if |inputs| == 0 || svc.state != PriceScheduling then svc
    else RunTicks(Tick(svc, inputs[0]), inputs[1..])
  }

  /** The same intervals with the expired check as written. */
  function RunTicksAsWritten(svc: Service, inputs: seq<TickInput>): Service
    decreases |inputs|
  {
    if |inputs| == 0 || svc.state != PriceScheduling then svc
    else RunTicksAsWritten(TickAsWritten(svc, inputs[0]), inputs[1..])
  }

  /** With the intended expired check, the scheduler never outlives the
      deadline: once an interval fires at or after it, the service has left
      price_scheduling for done, expired or canceled. */
  lemma {:induction false} RunTicksStopsAtDeadline(svc: Service, inputs: seq<TickInput>, k: nat)
    requires svc.state == PriceScheduling
    requires k < |inputs| && inputs[k].now >= svc.n.endNotification
    ensures RunTicks(svc, inputs).state in {Done, Expired, Canceled}
    decreases |inputs|
  {
    var next := Tick(svc, inputs[0]);
    if k == 0 {
      assert next.state == Expired;
    } else if next.state == PriceScheduling {
      assert next.n.endNotification == svc.n.endNotification;
      RunTicksStopsAtDeadline(next, inputs[1..], k - 1);
    }
  }

  /** As written, no interval ever moves the service to expired. */
  lemma {:induction false} AsWrittenNeverExpires(svc: Service, inputs: seq<TickInput>)
    requires svc.state != Expired
    ensures RunTicksAsWritten(svc, inputs).state != Expired
    decreases |inputs|
  {
    if |inputs| > 0 && svc.state == PriceScheduling {
      AsWrittenNeverExpires(TickAsWritten(svc, inputs[0]), inputs[1..]);
    }
  }

  /** The same intervals, every one of them applying the response `bound`. */
  function Rebind(inputs: seq<TickInput>, bound: Option<Quote>): (r: seq<TickInput>)
    ensures |r| == |inputs|
    ensures forall i :: 0 <= i < |r| ==> r[i] == inputs[i].(quote := bound)
  {
    seq(|inputs|, i requires 0 <= i < |inputs| => inputs[i].(quote := bound))
  }

  function QuoteOf(l: Lookup): Option<Quote>
  {
    match l
    case Data(q) => Some(q)
    case _ => None
  }

  /** `on_enter_price_scheduling` as written: the price is fetched once and
      that one response is bound into the set-price job, so every interval
      re-applies it. A timed-out fetch raises before any job is added. */
  function ScheduleAsWritten(svc: Service, fetched: Lookup, inputs: seq<TickInput>): Outcome
  {
    if fetched == TimedOut then Outcome(svc, Some(Timeout))
    else Outcome(RunTicksAsWritten(svc, Rebind(inputs, QuoteOf(fetched))), None)
  }

  /** The scheduling as intended: every interval applies a freshly fetched quote. */
  function Schedule(svc: Service, fetched: Lookup, inputs: seq<TickInput>): (o: Outcome)
    ensures fetched == TimedOut ==> o == Outcome(svc, Some(Timeout))
    ensures fetched != TimedOut ==> o.raised.None? && o.svc.n.id == svc.n.id
    ensures fetched != TimedOut && svc.state == PriceScheduling && |inputs| > 0 ==>
            o.svc == RunTicks(Tick(svc, inputs[0]), inputs[1..])
  {
    if fetched == TimedOut then Outcome(svc, Some(Timeout))
    else
      RunTicksKeepsId(svc, inputs);
      Outcome(RunTicks(svc, inputs), None)
  }

  /** Ticks never touch the id; the final state is never new or checking_exchange. */
  lemma {:induction false} RunTicksKeepsId(svc: Service, inputs: seq<TickInput>)
    ensures RunTicks(svc, inputs).n.id == svc.n.id
    ensures svc.state == PriceScheduling ==>
            RunTicks(svc, inputs).state in {PriceScheduling, Done, Expired, Canceled}
    decreases |inputs|
  {
    if |inputs| > 0 && svc.state == PriceScheduling {
      var next := Tick(svc, inputs[0]);
      RunTicksKeepsId(next, inputs[1..]);
    }
  }

  /** As written, the stock's price never moves after scheduling: whatever the
      market does, every interval re-applies the price fetched at the start. */
  lemma {:induction false} BoundPriceFrozen(svc: Service, q: Quote, inputs: seq<TickInput>)
    requires q.price.Some? && svc.n.stock.price == q.price
    ensures RunTicksAsWritten(svc, Rebind(inputs, Some(q))).n.stock.price == q.price
    decreases |inputs|
  {
    var rb := Rebind(inputs, Some(q));
    if |inputs| > 0 && svc.state == PriceScheduling {
      var next := TickAsWritten(svc, rb[0]);
      assert next.n.stock.price == q.price;
      assert rb[1..] == Rebind(inputs[1..], Some(q));
      BoundPriceFrozen(next, q, inputs[1..]);
    }
  }

  function SampleQuote(p: real): Quote
  {
    Quote("MOEX.ME", Some(p), Some("RUB"), Some("RUB"), Some("MOEX"))
  }

  function SampleService(): Service
  {
    Service(PriceScheduling,
            Notification(Stock("MOEX", None, None, None, None), 100.0, "n1", Some(Buy), 10, 3600, "411442889", None),
            Some(QuoteUrl("MOEX.ME")))
  }

  /** The intervals of the frozen-price example, each seeing `store`. */
  function SampleInputs(store: map<string, Dict>): seq<TickInput>
  {
    [TickInput(Some(SampleQuote(105.0)), store, 10),
     TickInput(Some(SampleQuote(98.0)), store, 20)]
  }

  /** A buy watch at 100 whose quotes go 105, then 98, while its record
      stays stored (as `DictRepr` writes it, or in any other form): as
      written, the first quote is re-applied and the watch is still
      waiting; with fresh quotes it is done on the interval that sees 98. */
  lemma FrozenPriceMissesTarget(store: map<string, Dict>)
    requires SampleService().n.id in store
    ensures ScheduleAsWritten(SampleService(), Data(SampleQuote(105.0)), SampleInputs(store)).svc.state == PriceScheduling
    ensures Schedule(SampleService(), Data(SampleQuote(105.0)), SampleInputs(store)).svc.state == Done
  {
    var svc := SampleService();
    var ins := SampleInputs(store);
    var rb := Rebind(ins, Some(SampleQuote(105.0)));
    var a1 := TickAsWritten(svc, rb[0]);
    assert a1.state == PriceScheduling;
    var a2 := TickAsWritten(a1, rb[1]);
    assert a2.state == PriceScheduling;
    assert rb[1..][1..] == [];
    assert RunTicksAsWritten(svc, rb) == RunTicksAsWritten(a1, rb[1..]) == RunTicksAsWritten(a2, []);
    var f1 := Tick(svc, ins[0]);
    assert f1.state == PriceScheduling;
    var f2 := Tick(f1, ins[1]);
    assert f2.state == Done;
    assert ins[1..][1..] == [];
    assert RunTicks(f1, ins[1..]) == RunTicks(f2, []);
  }

  /** A buy watch at 100 whose record is still stored, polled at 105 an
      interval after its deadline: as written it keeps waiting, while the
      intended expired check ends it as expired. */
  lemma DeadlinePassesUnnoticed(store: map<string, Dict>)
    requires SampleService().n.id in store
    ensures RunTicksAsWritten(SampleService(), [TickInput(Some(SampleQuote(105.0)), store, 4000)]).state
            == PriceScheduling
    ensures RunTicks(SampleService(), [TickInput(Some(SampleQuote(105.0)), store, 4000)]).state
            == Expired
  {
    var svc := SampleService();
    var ins := [TickInput(Some(SampleQuote(105.0)), store, 4000)];
    var a := TickAsWritten(svc, ins[0]);
    assert a.state == PriceScheduling;
    var f := Tick(svc, ins[0]);
    assert f.state == Expired;
    assert ins[1..] == [];
  }
}

=== FILE: markdown.dfy ===
/** The bot's Markdown helpers: the six wrappers of `MarkdownFormatter` and
    the per-state notification message of `MarkdownMessageBuilder.build`. */
module Markdown {
  import opened Common

  // ---------------------------------------------------------------------------
  // Wrappers

  /** `value` between an opening and a closing mark. */
  function Enclose(open: string, value: string, close: string): (r: string)
    ensures |r| == |open| + |value| + |close|
    ensures r[..|open|] == open
    ensures r[|open|..|open| + |value|] == value
    ensures r[|open| + |value|..] == close
  {
    var r := open + value + close;
    assert r[..|open|] == open;
    assert r[|open|..|open| + |value|] == value;
    assert r[|open| + |value|..] == close;
    r
  }

  /** The text between the marks, if `s` starts and ends with them. */
  function Unenclose(s: string, open: string, close: string): (r: Option<string>)
    ensures r.Some? ==> Enclose(open, r.value, close) == s
  {
    if |s| >= |open| + |close| && s[..|open|] == open && s[|s| - |close|..] == close then
      var v := s[|open|..|s| - |close|];
      assert s == s[..|open|] + v + s[|s| - |close|..];
      Some(v)
    else None
  }

  /** Wrapping can be undone: the marks determine the value. */
  lemma EncloseRoundTrip(open: string, value: string, close: string)
    ensures Unenclose(Enclose(open, value, close), open, close) == Some(value)
  {
    var s := Enclose(open, value, close);
    assert s[|s| - |close|..] == close;
    assert s[|open|..|s| - |close|] == value;
  }

  const BoldMark: string := "*"
  const ItalicOpen: string := "_"
  const ItalicClose: string := "_\r"
  const CodeMark: string := "`"
  const PreMark: string := "```"
  const UnderlineMark: string := "__"
  const StrikeMark: string := "~"

  /** `bold`: `*value*`. */
  function Bold(value: string): (r: string)
  {
    Enclose(BoldMark, value, BoldMark)
  }

  /** `italic`: `_value_` followed by a carriage return. */
  function Italic(value: string): (r: string)
  {
    Enclose(ItalicOpen, value, ItalicClose)
  }

  /** `code`: the value between backticks. */
  function Code(value: string): (r: string)
  {
    Enclose(CodeMark, value, CodeMark)
  }

  /** `pre`: the value between triple backticks. */
  function Pre(value: string): (r: string)
  {
    Enclose(PreMark, value, PreMark)
  }

  /** `underline`: `__value__`. */
  function Underline(value: string): (r: string)
  {
    Enclose(UnderlineMark, value, UnderlineMark)
  }

  /** `strikethrough`: `~value~`. */
  function Strikethrough(value: string): (r: string)
  {
    Enclose(StrikeMark, value, StrikeMark)
  }

  /** Every wrapper puts its own marks around the value, unchanged: the
      value is one character in (three for `pre`, two for `underline`), and
      the closing mark follows it; so each wrapper is invertible. */
  lemma WrappersShape(v: string)
    ensures Bold(v) == "*" + v + "*"
    ensures Italic(v) == "_" + v + "_\r"
    ensures Code(v) == "`" + v + "`"
    ensures Pre(v) == "```" + v + "```"
    ensures Underline(v) == "__" + v + "__"
    ensures Strikethrough(v) == "~" + v + "~"
    ensures Unenclose(Bold(v), BoldMark, BoldMark) == Some(v)
    ensures Unenclose(Italic(v), ItalicOpen, ItalicClose) == Some(v)
    ensures Unenclose(Code(v), CodeMark, CodeMark) == Some(v)
    ensures Unenclose(Pre(v), PreMark, PreMark) == Some(v)
    ensures Unenclose(Underline(v), UnderlineMark, UnderlineMark) == Some(v)
    ensures Unenclose(Strikethrough(v), StrikeMark, StrikeMark) == Some(v)
  {
    EncloseRoundTrip(BoldMark, v, BoldMark);
    EncloseRoundTrip(ItalicOpen, v, ItalicClose);
    EncloseRoundTrip(CodeMark, v, CodeMark);
    EncloseRoundTrip(PreMark, v, PreMark);
    EncloseRoundTrip(UnderlineMark, v, UnderlineMark);
    EncloseRoundTrip(StrikeMark, v, StrikeMark);
  }

  // ---------------------------------------------------------------------------
  // Lines

  /** Lines joined with newlines. */
  function Join(lines: seq<string>): string
    decreases |lines|
  {
    if |lines| == 0 then ""
    else if |lines| == 1 then lines[0]
    else Join(lines[..|lines| - 1]) + "\n" + lines[|lines| - 1]
  }

  /** A text cut at every newline. */
  function Split(s: string): (r: seq<string>)
    ensures |r| > 0
    decreases |s|
  {
    if |s| == 0 then [""]
    else
      var init := Split(s[..|s| - 1]);
      if s[|s| - 1] == '\n' then init + [""]
      else init[..|init| - 1] + [init[|init| - 1] + [s[|s| - 1]]]
  }

  predicate NoNewline(s: string)
  {
    '\n' !in s
  }

  /** Text without a newline, appended, extends the last line. */
  lemma {:induction false} SplitSuffix(t: string, a: string)
    requires NoNewline(a)
    ensures var st := Split(t);
            Split(t + a) == st[..|st| - 1] + [st[|st| - 1] + a]
    decreases |a|
  {
    var st := Split(t);
    if |a| == 0 {
      assert t + a == t;
      assert st[|st| - 1] + a == st[|st| - 1];
      assert st[..|st| - 1] + [st[|st| - 1]] == st;
    } else {
      var a' := a[..|a| - 1];
      var c := a[|a| - 1];
      assert c in a;
      assert (t + a)[..|t + a| - 1] == t + a';
      assert (t + a)[|t + a| - 1] == c;
      SplitSuffix(t, a');
      var sa := Split(t + a');
      assert sa[..|sa| - 1] == st[..|st| - 1];
      assert sa[|sa| - 1] == st[|st| - 1] + a';
      assert st[|st| - 1] + a' + [c] == st[|st| - 1] + a by {
        assert a' + [c] == a;
      }
    }
  }

  /** A trailing newline starts an empty last line. */
  lemma SplitNewline(t: string)
    ensures Split(t + "\n") == Split(t) + [""]
  {
    assert (t + "\n")[..|t|] == t;
  }

  /** Splitting joined lines gives the lines back, when none holds a newline. */
  lemma {:induction false} SplitJoin(lines: seq<string>)
    requires |lines| > 0
    requires forall i :: 0 <= i < |lines| ==> NoNewline(lines[i])
    ensures Split(Join(lines)) == lines
    decreases |lines|
  {
    if |lines| == 1 {
      SplitSuffix("", lines[0]);
      assert "" + lines[0] == lines[0];
      assert Split("") == [""];
    } else {
      var init := lines[..|lines| - 1];
      var last := lines[|lines| - 1];
      assert forall i :: 0 <= i < |init| ==> init[i] == lines[i];
      SplitJoin(init);
      var t := Join(init) + "\n";
      SplitNewline(Join(init));
      assert Split(t) == init + [""];
      assert NoNewline(last);
      SplitSuffix(t, last);
      assert Join(lines) == t + last;
      assert Split(t + last) == (init + [""])[..|init|] + [(init + [""])[|init|] + last];
      assert (init + [""])[..|init|] == init;
      assert "" + last == last;
      assert lines == init + [last];
    }
  }

  // ---------------------------------------------------------------------------
  // Notification messages

  /** The payload of a notification message, each value already rendered. */
  datatype Payload = Payload(targetPrice: string, id: string, currentPrice: string, ticker: string,
                             action: string, state: string)

  /** What the builder is handed: a notification message or anything else. */
  datatype RowMessage = NotificationMessage(payload: Payload) | OtherMessage

  const TitleCreated: string := "Шедулер создан!"
  const TitleDone: string := "Шедулер успешно отработал!"
  const TitleExpired: string := "Время работы шедулера истекло!"
  const TitleCanceled: string := "Шедулер отменен!"

  function TargetLine(p: Payload): string { "Целевая цена: " + Bold(p.targetPrice) }
  function IdLine(p: Payload): string { "ID: " + Bold(p.id) }
  function CurrentLine(p: Payload): string { "Текущая цена: " + Bold(p.currentPrice) }
  function TickerLine(p: Payload): string { "Инструмент с тикером " + Bold(p.ticker) }
  function ActionLine(p: Payload): string { "Действие: " + Bold(p.action + "!") }

  /** The lines each lifecycle state reports, in order; other states report nothing. */
  function StateLines(p: Payload): seq<string>
  {
    if p.state == "price_scheduling" then
      [Bold(TitleCreated), TickerLine(p), IdLine(p), TargetLine(p), CurrentLine(p)]
    else if p.state == "done" then
      [Bold(TitleDone), TickerLine(p), CurrentLine(p), TargetLine(p), ActionLine(p)]
    else if p.state == "expired" then
      [Bold(TitleExpired), IdLine(p), TickerLine(p), CurrentLine(p), TargetLine(p)]
    else if p.state == "canceled" then
      [Bold(TitleCanceled), IdLine(p), TickerLine(p), CurrentLine(p)]
    else []
  }

  const ReportedStates: set<string> := {"price_scheduling", "done", "expired", "canceled"}

  /** Joining five lines, and four, unfolds to the concatenation with
      newlines between them. */
  lemma JoinFive(a: string, b: string, c: string, d: string, e: string)
    ensures Join([a, b, c, d, e]) == a + "\n" + b + "\n" + c + "\n" + d + "\n" + e
    ensures Join([a, b, c, d]) == a + "\n" + b + "\n" + c + "\n" + d
  {
    assert [a, b][..1] == [a];
    assert Join([a, b]) == a + "\n" + b;
    assert [a, b, c][..2] == [a, b];
    assert Join([a, b, c]) == a + "\n" + b + "\n" + c;
    assert [a, b, c, d][..3] == [a, b, c];
    assert Join([a, b, c, d]) == a + "\n" + b + "\n" + c + "\n" + d;
    assert [a, b, c, d, e][..4] == [a, b, c, d];
  }

  /** `MarkdownMessageBuilder.build`: the state's lines, one per line; the
      empty text for anything that is not a notification message or for a
      state that is not reported. */
  function Build(m: RowMessage): (r: string)
    ensures r == "" <==> !(m.NotificationMessage? && m.payload.state in ReportedStates)
    ensures m.NotificationMessage? ==> r == Join(StateLines(m.payload))
  {
    if !m.NotificationMessage? then ""
    else
      var p := m.payload;
      var target := TargetLine(p);
      var id := IdLine(p);
      var current := CurrentLine(p);
      var ticker := TickerLine(p);
      var action := ActionLine(p);
      if p.state == "price_scheduling" then
        var title := Bold(TitleCreated);
        JoinFive(title, ticker, id, target, current);
        title + "\n" + ticker + "\n" + id + "\n" + target + "\n" + current
      else if p.state == "done" then
        var title := Bold(TitleDone);
        JoinFive(title, ticker, current, target, action);
        title + "\n" + ticker + "\n" + current + "\n" + target + "\n" + action
      else if p.state == "expired" then
        var title := Bold(TitleExpired);
        JoinFive(title, id, ticker, current, target);
        title + "\n" + id + "\n" + ticker + "\n" + current + "\n" + target
      else if p.state == "canceled" then
        var title := Bold(TitleCanceled);
        JoinFive(title, id, ticker, current, target);
        title + "\n" + id + "\n" + ticker + "\n" + current
      else ""
  }

  predicate PlainPayload(p: Payload)
  {
    NoNewline(p.targetPrice) && NoNewline(p.id) && NoNewline(p.currentPrice) && NoNewline(p.ticker)
    && NoNewline(p.action)
  }

  predicate StartsWith(s: string, prefix: string)
  {
    |s| >= |prefix| && s[..|prefix|] == prefix
  }

  /** A line whose first character differs from a prefix's does not start with it. */
  lemma FirstCharDiffers(l: string, prefix: string)
    requires |l| > 0 && |prefix| > 0 && l[0] != prefix[0]
    ensures !StartsWith(l, prefix)
  {
    if |l| >= |prefix| {
      assert l[..|prefix|][0] == l[0];
    }
  }

  lemma BoldPlain(v: string)
    requires NoNewline(v)
    ensures NoNewline(Bold(v)) && Bold(v)[0] == '*'
  {
    WrappersShape(v);
  }

  /** A label followed by a bold value: no newline if neither has one, and
      it starts as the label does. */
  lemma LabelledPlain(tag: string, v: string)
    requires |tag| > 0 && NoNewline(tag) && NoNewline(v)
    ensures NoNewline(tag + Bold(v)) && (tag + Bold(v))[0] == tag[0]
  {
    BoldPlain(v);
  }

  /** The fixed titles hold no newline. */
  lemma TitlesPlain()
    ensures NoNewline(Bold(TitleCreated)) && NoNewline(Bold(TitleDone))
    ensures NoNewline(Bold(TitleExpired)) && NoNewline(Bold(TitleCanceled))
    ensures Bold(TitleCreated)[0] == '*' && Bold(TitleDone)[0] == '*'
    ensures Bold(TitleExpired)[0] == '*' && Bold(TitleCanceled)[0] == '*'
  {
    BoldPlain(TitleCreated);
    BoldPlain(TitleDone);
    BoldPlain(TitleExpired);
    BoldPlain(TitleCanceled);
  }

  /** No labelled line holds a newline; each starts with the first
      character of its label. */
  lemma LabelledLinesPlain(p: Payload)
    requires PlainPayload(p)
    ensures NoNewline(TargetLine(p)) && NoNewline(IdLine(p)) && NoNewline(CurrentLine(p))
    ensures NoNewline(TickerLine(p)) && NoNewline(ActionLine(p))
    ensures TargetLine(p)[0] == 'Ц' && IdLine(p)[0] == 'I' && CurrentLine(p)[0] == 'Т'
    ensures TickerLine(p)[0] == 'И' && ActionLine(p)[0] == 'Д'
  {
    LabelledPlain("Целевая цена: ", p.targetPrice);
    LabelledPlain("ID: ", p.id);
    LabelledPlain("Текущая цена: ", p.currentPrice);
    LabelledPlain("Инструмент с тикером ", p.ticker);
    LabelledPlain("Действие: ", p.action + "!");
  }

  /** The lines of a reported state are non-empty and newline-free. */
  lemma StateLinesPlain(p: Payload)
    requires PlainPayload(p) && p.state in ReportedStates
    ensures |StateLines(p)| > 0
    ensures forall i :: 0 <= i < |StateLines(p)| ==> NoNewline(StateLines(p)[i]) && |StateLines(p)[i]| > 0
  {
    TitlesPlain();
    LabelledLinesPlain(p);
  }

  /** No line of a done message starts like the id line. */
  lemma DoneLinesHaveNoId(p: Payload)
    requires PlainPayload(p) && p.state == "done"
    ensures forall l :: l in StateLines(p) ==> !StartsWith(l, "ID: ")
  {
    TitlesPlain();
    LabelledLinesPlain(p);
    forall l | l in StateLines(p) ensures !StartsWith(l, "ID: ") {
      FirstCharDiffers(l, "ID: ");
    }
  }

  /** No line of a canceled message starts like the target line. */
  lemma CanceledLinesHaveNoTarget(p: Payload)
    requires PlainPayload(p) && p.state == "canceled"
    ensures forall l :: l in StateLines(p) ==> !StartsWith(l, "Целевая цена: ")
  {
    TitlesPlain();
    LabelledLinesPlain(p);
    forall l | l in StateLines(p) ensures !StartsWith(l, "Целевая цена: ") {
      FirstCharDiffers(l, "Целевая цена: ");
    }
  }

  /** The message reads back as its lines: a done message has no line
      giving the id, and a canceled message no line giving the target. */
  lemma BuildLines(p: Payload)
    requires PlainPayload(p) && p.state in ReportedStates
    ensures Split(Build(NotificationMessage(p))) == StateLines(p)
    ensures p.state == "done" ==> forall l :: l in Split(Build(NotificationMessage(p))) ==> !StartsWith(l, "ID: ")
    ensures p.state == "canceled" ==>
            forall l :: l in Split(Build(NotificationMessage(p))) ==> !StartsWith(l, "Целевая цена: ")
  {
    StateLinesPlain(p);
    SplitJoin(StateLines(p));
    if p.state == "done" {
      DoneLinesHaveNoId(p);
    }
    if p.state == "canceled" {
      CanceledLinesHaveNoTarget(p);
    }
  }
}

=== FILE: notify_wizard.dfy ===
/** The bot's seven-step notification wizard (`/notify`): ticker, approval
    of a found stock, action, target price, deadline, delay and event. Each
    step is a handler guarded by the wizard's state and an input filter;
    an update that no handler takes is ignored. The stock lookup and the
    creation of the notification are parameters. */
module NotifyWizard {
  import opened Common
  import opened Options
  import opened BotModels
  import ServerModels
  import Markdown

  /** `OrderNotification`'s states in declared order; `Idle` is no state. */
  datatype Step = Idle | WaitTicker | WaitApprove | WaitAction | WaitTarget | WaitEnd | WaitDelay | WaitEvent

  /** The position of a step in the declared order. */
  function Rank(s: Step): nat
  {
    match s
    case Idle => 0
    case WaitTicker => 1
    case WaitApprove => 2
    case WaitAction => 3
    case WaitTarget => 4
    case WaitEnd => 5
    case WaitDelay => 6
    case WaitEvent => 7
  }

  /** `OrderNotification.next()`: the following step; after the last one,
      no state. */
  function NextStep(s: Step): (r: Step)
    ensures s != Idle && s != WaitEvent ==> Rank(r) == Rank(s) + 1
    ensures s == WaitEvent ==> r == Idle
  {
    match s
    case Idle => WaitTicker
    case WaitTicker => WaitApprove
    case WaitApprove => WaitAction
    case WaitAction => WaitTarget
    case WaitTarget => WaitEnd
    case WaitEnd => WaitDelay
    case WaitDelay => WaitEvent
    case WaitEvent => Idle
  }

  /** The conversation's stored data; a key never written is `None`. */
  datatype Data = Data(
    restStocks: Option<seq<StockRs>>,
    ticker: Option<string>,
    current: Option<StockRs>,
    action: Option<string>,
    targetPrice: Option<string>,
    endNotification: Option<string>,
    delay: Option<string>,
    event: Option<string>)

  const NoData: Data := Data(None, None, None, None, None, None, None, None)

  datatype Wizard = Wizard(step: Step, data: Data)

  /** What a handler sends. `header` is the number of the "Шаг k из 7."
      header the message starts with. `Crashed` is the type error of
      building the delay keyboard from a missing option list, raised after
      the step has moved on. */
  datatype Reply =
    | Ignored
    | AskTicker(header: nat)
    | ShowCandidate(header: nat, stock: StockRs, buttons: seq<string>)
    | NotFound(typed: string)
    | NothingMore(ticker: Option<string>)
    | AskAction(header: nat, buttons: seq<string>)
    | AskPrice(header: nat)
    | AskEnd(header: nat, rows: seq<seq<string>>)
    | AskDelay(header: nat, buttons: seq<string>)
    | Crashed
    | AskEvent(header: nat)
    | Announce(text: string)
    | Silent
    | Failure(text: string)

  /** What creating the notification gives: the message describing it, no
      notification (the request failed at the transport and was logged), or
      an exception. */
  datatype Submission = Created(text: string) | NothingCreated | Raised

  const FailureText: string :=
    Markdown.Bold("Не удалось создать шедулер.") + "\n" + "Пожалуйста, попробуйте позднее..."

  /** `StockPriceNotificationRqBot(**current_stock.dict(), ...)`: the request
      model built from the stored data, or `None` when the model rejects it
      (a missing field, a value that does not convert, or a constraint).
      The wizard never sets the chat id, so the model's default is used. */
  function Request(d: Data): (r: Option<RqBot>)
    ensures r.Some? ==> ValidRqBot(r.value)
    ensures r.Some? ==> && d.current.Some? && r.value.ticker == d.current.value.ticker
                        && r.value.exchange == d.current.value.exchange
                        && d.targetPrice.Some? && ParseFloat(d.targetPrice.value) == Some(r.value.targetPrice)
                        && Some(r.value.endNotification) == d.endNotification
                        && Some(r.value.delay) == d.delay
                        && r.value.event == d.event
                        && r.value.chatId == BotChatId
                        && (r.value.action.Some? <==> d.action.Some?)
                        && (d.action.Some? ==> ActionName(r.value.action.value) == d.action.value)
  {
    if d.current.None? || d.targetPrice.None? || d.endNotification.None? || d.delay.None? then None
    else if d.action.Some? && ParseAction(d.action.value).None? then None
    else if ParseFloat(d.targetPrice.value).None? then None
    else
      var action := if d.action.Some? then ParseAction(d.action.value) else None;
      var rq := RqBot(d.current.value.ticker, ParseFloat(d.targetPrice.value).value, action, d.event,
                      d.endNotification.value, d.delay.value, BotChatId, d.current.value.exchange);
      if ValidRqBot(rq) then Some(rq) else None
  }

  // ---------------------------------------------------------------------------
  // The handlers

  /** `notify_waiting_for_ticker`, after the filter: looks the upper-cased
      ticker up; the last stock found becomes the current candidate and the
      others are kept. */
  function TickerStep(w: Wizard, text: string, lookup: string -> seq<StockRs>): (Wizard, Reply)
  {
    var ticker := AsciiUpper(text);
    var stocks := lookup(ticker);
    if |stocks| > 0 then
      var current := stocks[|stocks| - 1];
      (Wizard(WaitApprove, w.data.(restStocks := Some(stocks[..|stocks| - 1]), ticker := Some(ticker),
                                   current := Some(current))),
       ShowCandidate(2, current, ApproveOptions))
    else (w, NotFound(text))
  }

  /** `notify_waiting_for_approve_stock`: "Нет" shows the next kept stock,
      or says nothing more was found; any other answer moves on. */
  function ApproveStep(w: Wizard, answer: string): (Wizard, Reply)
  {
    if answer == No then
      match w.data.restStocks
      case Some(rest) =>
        if |rest| > 0 then
          (Wizard(WaitApprove, w.data.(restStocks := Some(rest[..|rest| - 1]), current := Some(rest[|rest| - 1]))),
           ShowCandidate(3, rest[|rest| - 1], ApproveOptions))
        else (w, NothingMore(w.data.ticker))
      case None => (w, NothingMore(w.data.ticker))
    else (Wizard(WaitAction, w.data), AskAction(3, AvailableActions))
  }

  /** `notify_waiting_for_end_notification`: stores the deadline, moves on,
      then offers the delays keyed by the option's last character. */
  function EndStep(w: Wizard, choice: string): (Wizard, Reply)
  {
    var next := Wizard(WaitDelay, w.data.(endNotification := Some(choice)));
    match OfferedDelays(choice)
    case Some(options) => (next, AskDelay(5, options))
    case None => (next, Crashed)
  }

  /** `notify_waiting_for_event`: stores the event, builds and submits the
      request, and finishes the conversation whatever happened. */
  function EventStep(w: Wizard, text: string, submit: RqBot -> Submission): (Wizard, Reply)
  {
    var d := w.data.(event := Some(text));
    var reply :=
      match Request(d)
      case None => Failure(FailureText)
      case Some(rq) =>
        (match submit(rq)
         case Created(t) => Announce(t)
         case NothingCreated => Silent
         case Raised => Failure(FailureText));
    (Wizard(Idle, NoData), reply)
  }

  /** The dispatcher: `/notify` restarts the wizard from any state, keeping
      the stored data; otherwise the handler of the current step takes the
      update if its filter lets it through. */
  function Handle(w: Wizard, u: Update, lookup: string -> seq<StockRs>, submit: RqBot -> Submission): (r: (Wizard, Reply))
    ensures u == NotifyCommand ==> r == (Wizard(WaitTicker, w.data), AskTicker(1))
    ensures u != NotifyCommand ==> r.0.step == w.step || r.0.step == NextStep(w.step)
    ensures r.1 == Ignored ==> u != NotifyCommand && r.0 == w
    ensures w.step == Idle && u != NotifyCommand ==> r == (w, Ignored)
    ensures w.step == WaitEvent && u.Message? ==> r.0 == Wizard(Idle, NoData)
  {
    match u
    case NotifyCommand => (Wizard(WaitTicker, w.data), AskTicker(1))
    case Message(text, _) =>
      if w.step == WaitTicker && TickerFilter(text) then TickerStep(w, text, lookup)
      else if w.step == WaitTarget && PriceFilter(text) then
        (Wizard(WaitEnd, w.data.(targetPrice := Some(AsciiLower(text)))), AskEnd(4, Values(AvailableEndNotification)))
      else if w.step == WaitEvent then EventStep(w, text, submit)
      else (w, Ignored)
    case Press(c) =>
      if w.step == WaitApprove && c in ApproveOptions then ApproveStep(w, c)
      else if w.step == WaitAction && c in AvailableActions then
        (Wizard(WaitTarget, w.data.(action := Some(c))), AskPrice(3))
      else if w.step == WaitEnd && c in AllEndOptions() then EndStep(w, c)
      else if w.step == WaitDelay && c in AllDelayOptions() then
        (Wizard(WaitEvent, w.data.(delay := Some(c))), AskEvent(6))
      else (w, Ignored)
  }

  /** A sequence of updates, handled one after the other; the replies in order. */
  function Run(w: Wizard, us: seq<Update>, lookup: string -> seq<StockRs>, submit: RqBot -> Submission): (r: (Wizard, seq<Reply>))
    ensures |r.1| == |us|
    decreases |us|
  {
    if |us| == 0 then (w, [])
    else
      var before := Run(w, us[..|us| - 1], lookup, submit);
      var after := Handle(before.0, us[|us| - 1], lookup, submit);
      (after.0, before.1 + [after.1])
  }

  // ---------------------------------------------------------------------------
  // Properties of the steps

  /** At the ticker step a text is taken exactly when one of its lines is
      one to five letters. With stocks found, the stored ticker is the
      whole text in upper case, the last stock is the candidate shown and
      the others are kept in order; with none found the wizard says so and
      stays. */
  lemma TickerStepSpec(w: Wizard, text: string, sender: nat, lookup: string -> seq<StockRs>, submit: RqBot -> Submission)
    requires w.step == WaitTicker
    ensures var r := Handle(w, Message(text, sender), lookup, submit);
            r.1 != Ignored <==> TickerFilter(text)
    ensures var r := Handle(w, Message(text, sender), lookup, submit);
            var stocks := lookup(AsciiUpper(text));
            TickerFilter(text) ==>
            if |stocks| > 0 then
              && r.0.step == WaitApprove
              && r.0.data.ticker.Some?
              && (forall i :: 0 <= i < |r.0.data.ticker.value| ==> !('a' <= r.0.data.ticker.value[i] <= 'z'))
              && AsciiLower(r.0.data.ticker.value) == AsciiLower(text)
              && r.0.data.restStocks.Some?
              && r.0.data.restStocks.value + [r.0.data.current.value] == stocks
              && r.1 == ShowCandidate(2, stocks[|stocks| - 1], ApproveOptions)
            else r == (w, NotFound(text))
  {
    var stocks := lookup(AsciiUpper(text));
    if TickerFilter(text) {
      var t := AsciiUpper(text);
      forall i | 0 <= i < |t| ensures LowerChar(t[i]) == LowerChar(text[i]) {
        assert t[i] == UpperChar(text[i]);
      }
      assert AsciiLower(t) == AsciiLower(text);
      if |stocks| > 0 {
        assert stocks[..|stocks| - 1] + [stocks[|stocks| - 1]] == stocks;
      }
    }
  }

  /** `n` presses of the same button. */
  function Presses(data: string, n: nat): (r: seq<Update>)
    ensures |r| == n
    ensures forall i :: 0 <= i < n ==> r[i] == Press(data)
  {
    seq(n, i requires 0 <= i < n => Press(data))
  }

  /** Rejecting candidates walks back through the kept stocks: after `k`
      "Нет" answers, the `k` candidates shown are the kept stocks from the
      last backwards, the last of them is the current one, and the stocks
      before it are still kept. */
  lemma {:induction false} RejectingWalksBack(w: Wizard, rest: seq<StockRs>, k: nat,
                                               lookup: string -> seq<StockRs>, submit: RqBot -> Submission)
    requires w.step == WaitApprove && w.data.restStocks == Some(rest) && k <= |rest|
    ensures var r := Run(w, Presses(No, k), lookup, submit);
            && r.0.step == WaitApprove
            && r.0.data.restStocks == Some(rest[..|rest| - k])
            && (k > 0 ==> r.0.data.current == Some(rest[|rest| - k]))
            && r.0.data.ticker == w.data.ticker
            && forall j :: 0 <= j < k ==> r.1[j] == ShowCandidate(3, rest[|rest| - 1 - j], ApproveOptions)
  {
    if k > 0 {
      assert Presses(No, k)[..k - 1] == Presses(No, k - 1);
      RejectingWalksBack(w, rest, k - 1, lookup, submit);
      var before := Run(w, Presses(No, k - 1), lookup, submit);
      var left := rest[..|rest| - (k - 1)];
      assert left[..|left| - 1] == rest[..|rest| - k];
      assert left[|left| - 1] == rest[|rest| - k];
    } else {
      assert rest[..|rest|] == rest;
    }
  }

  /** With no stock left, "Нет" only says so: nothing is stored and the
      step stays. "Да" moves on to the action with the data unchanged. */
  lemma ApproveAnswers(w: Wizard, lookup: string -> seq<StockRs>, submit: RqBot -> Submission)
    requires w.step == WaitApprove
    ensures (w.data.restStocks.None? || w.data.restStocks.value == []) ==>
            Handle(w, Press(No), lookup, submit) == (w, NothingMore(w.data.ticker))
    ensures Handle(w, Press(Yes), lookup, submit) == (Wizard(WaitAction, w.data), AskAction(3, AvailableActions))
    ensures forall c :: c !in ApproveOptions ==> Handle(w, Press(c), lookup, submit) == (w, Ignored)
  {
  }

  /** Whatever deadline is picked, the delay keyboard is built from a real
      list: three options, each one the delay filter accepts. */
  lemma EndStepOffersDelays(w: Wizard, c: string, lookup: string -> seq<StockRs>, submit: RqBot -> Submission)
    requires w.step == WaitEnd && c in AllEndOptions()
    ensures var r := Handle(w, Press(c), lookup, submit);
            && r.0 == Wizard(WaitDelay, w.data.(endNotification := Some(c)))
            && r.1.AskDelay? && r.1.header == 5 && r.1.buttons == OfferedDelays(c).value
            && |r.1.buttons| == 3
            && forall d :: d in r.1.buttons ==> d in AllDelayOptions()
  {
    EveryEndOptionOffersDelays(c);
  }

  /** The delay filter accepts every delay option, not only the ones
      offered for the chosen deadline: after "7d", "10s" is taken. */
  lemma DelayFilterIgnoresOffer(data: Data, lookup: string -> seq<StockRs>, submit: RqBot -> Submission)
    ensures OfferedDelays("7d") == Some(["1h", "3h", "6h"])
    ensures Handle(Wizard(WaitDelay, data.(endNotification := Some("7d"))), Press("10s"), lookup, submit).0.step
            == WaitEvent
  {
    assert "10s" in AllDelayOptions();
  }

  // ---------------------------------------------------------------------------
  // What the stored data holds at each step

  /** From the approval on there is a candidate; from the target price on
      an action; then a filtered price, a deadline option and a delay
      option, each stored by the step before. */
  predicate Inv(w: Wizard)
  {
    var d := w.data;
    && (Rank(w.step) >= Rank(WaitApprove) ==> d.current.Some? && d.restStocks.Some? && d.ticker.Some?)
    && (Rank(w.step) >= Rank(WaitTarget) ==> d.action.Some? && d.action.value in AvailableActions)
    && (Rank(w.step) >= Rank(WaitEnd) ==> d.targetPrice.Some? && PriceFilter(d.targetPrice.value))
    && (Rank(w.step) >= Rank(WaitDelay) ==> d.endNotification.Some? && d.endNotification.value in AllEndOptions())
    && (Rank(w.step) >= Rank(WaitEvent) ==> d.delay.Some? && d.delay.value in AllDelayOptions())
  }

  lemma InvInitially()
    ensures Inv(Wizard(Idle, NoData))
  {
  }

  /** Every update keeps the invariant. */
  lemma HandleKeepsInv(w: Wizard, u: Update, lookup: string -> seq<StockRs>, submit: RqBot -> Submission)
    requires Inv(w)
    ensures Inv(Handle(w, u, lookup, submit).0)
  {
    match u
    case NotifyCommand =>
    case Message(text, sender) => MessageKeepsInv(w, text, sender, lookup, submit);
    case Press(c) => PressKeepsInv(w, c, lookup, submit);
  }

  lemma MessageKeepsInv(w: Wizard, text: string, sender: nat, lookup: string -> seq<StockRs>, submit: RqBot -> Submission)
    requires Inv(w)
    ensures Inv(Handle(w, Message(text, sender), lookup, submit).0)
  {
    if w.step == WaitTicker {
      TickerMessageKeepsInv(w, text, sender, lookup, submit);
    } else if w.step == WaitTarget {
      PriceMessageKeepsInv(w, text, sender, lookup, submit);
    } else if w.step == WaitEvent {
      EventMessageKeepsInv(w, text, sender, lookup, submit);
    } else {
      IgnoredMessageKeepsInv(w, text, sender, lookup, submit);
    }
  }

  lemma EventMessageKeepsInv(w: Wizard, text: string, sender: nat, lookup: string -> seq<StockRs>, submit: RqBot -> Submission)
    requires w.step == WaitEvent
    ensures Inv(Handle(w, Message(text, sender), lookup, submit).0)
  {
    EventMessageIdle(w, text, sender, lookup, submit);
    InvInitially();
  }

  lemma IgnoredMessageKeepsInv(w: Wizard, text: string, sender: nat, lookup: string -> seq<StockRs>, submit: RqBot -> Submission)
    requires Inv(w) && w.step != WaitTicker && w.step != WaitTarget && w.step != WaitEvent
    ensures Inv(Handle(w, Message(text, sender), lookup, submit).0)
  {
    IgnoredMessage(w, text, sender, lookup, submit);
  }

  lemma EventMessageIdle(w: Wizard, text: string, sender: nat, lookup: string -> seq<StockRs>, submit: RqBot -> Submission)
    requires w.step == WaitEvent
    ensures Handle(w, Message(text, sender), lookup, submit).0 == Wizard(Idle, NoData)
  {
  }

  lemma IgnoredMessage(w: Wizard, text: string, sender: nat, lookup: string -> seq<StockRs>, submit: RqBot -> Submission)
    requires w.step != WaitTicker && w.step != WaitTarget && w.step != WaitEvent
    ensures Handle(w, Message(text, sender), lookup, submit).0 == w
  {
  }

  lemma TickerMessageKeepsInv(w: Wizard, text: string, sender: nat, lookup: string -> seq<StockRs>, submit: RqBot -> Submission)
    requires Inv(w) && w.step == WaitTicker
    ensures Inv(Handle(w, Message(text, sender), lookup, submit).0)
  {
    if TickerFilter(text) {
      TickerKeepsInv(w, text, lookup);
    }
  }

  lemma PriceMessageKeepsInv(w: Wizard, text: string, sender: nat, lookup: string -> seq<StockRs>, submit: RqBot -> Submission)
    requires Inv(w) && w.step == WaitTarget
    ensures Inv(Handle(w, Message(text, sender), lookup, submit).0)
  {
    if PriceFilter(text) {
      PriceFilterLowerCase(text);
      PriceKeepsInv(w, AsciiLower(text));
    }
  }

  lemma TickerKeepsInv(w: Wizard, text: string, lookup: string -> seq<StockRs>)
    requires Inv(w) && w.step == WaitTicker
    ensures Inv(TickerStep(w, text, lookup).0)
  {
  }

  lemma PriceKeepsInv(w: Wizard, price: string)
    requires Inv(w) && w.step == WaitTarget && PriceFilter(price)
    ensures Inv(Wizard(WaitEnd, w.data.(targetPrice := Some(price))))
  {
  }

  lemma PressKeepsInv(w: Wizard, c: string, lookup: string -> seq<StockRs>, submit: RqBot -> Submission)
    requires Inv(w)
    ensures Inv(Handle(w, Press(c), lookup, submit).0)
  {
    var r := Handle(w, Press(c), lookup, submit).0;
    if w.step == WaitApprove && c in ApproveOptions {
      assert r == ApproveStep(w, c).0;
    } else if w.step == WaitAction && c in AvailableActions {
      assert r == Wizard(WaitTarget, w.data.(action := Some(c)));
    } else if w.step == WaitEnd && c in AllEndOptions() {
      assert r == Wizard(WaitDelay, w.data.(endNotification := Some(c)));
    } else if w.step == WaitDelay && c in AllDelayOptions() {
      assert r == Wizard(WaitEvent, w.data.(delay := Some(c)));
    } else {
      assert r == w;
    }
  }

  /** At the event step the request is built whenever the stock's ticker,
      the price and the event meet the model's bounds: the deadline and
      delay options always pass the duration filter. */
  lemma EventRequestBuilt(w: Wizard, text: string)
    requires Inv(w) && w.step == WaitEvent
    ensures var d := w.data.(event := Some(text));
            Request(d).Some? <==>
              && ServerModels.TickerOk(w.data.current.value.ticker)
              && ParseFloat(w.data.targetPrice.value).Some?
              && ServerModels.TargetPriceOk(ParseFloat(w.data.targetPrice.value).value)
              && ServerModels.EventOk(Some(text))
  {
    var d := w.data.(event := Some(text));
    WizardOptionsMatchDuration(d.endNotification.value);
    WizardOptionsMatchDuration(d.delay.value);
    assert ParseAction(d.action.value).Some?;
    assert ServerModels.ChatIdOk(BotChatId);
  }

  /** A negative price passes the price filter but not the request model:
      the conversation ends in the failure message. */
  lemma NegativePriceFails(w: Wizard, text: string, sender: nat, lookup: string -> seq<StockRs>, submit: RqBot -> Submission)
    requires Inv(w) && w.step == WaitEvent && w.data.targetPrice.value[0] == '-'
    ensures Handle(w, Message(text, sender), lookup, submit) == (Wizard(Idle, NoData), Failure(FailureText))
  {
    EventRequestBuilt(w, text);
  }

  /** The event step always finishes the conversation and clears the data;
      it answers with the failure message exactly when the request model or
      the creation raised, and with the notification's message when one
      was created. */
  lemma EventStepFinishes(w: Wizard, text: string, sender: nat, lookup: string -> seq<StockRs>, submit: RqBot -> Submission)
    requires w.step == WaitEvent
    ensures var r := Handle(w, Message(text, sender), lookup, submit);
            var rq := Request(w.data.(event := Some(text)));
            && r.0 == Wizard(Idle, NoData)
            && (r.1 == Failure(FailureText) <==> rq.None? || submit(rq.value) == Raised)
            && (r.1.Announce? <==> rq.Some? && submit(rq.value).Created?)
            && (r.1.Announce? ==> submit(rq.value) == Created(r.1.text))
            && (r.1 == Silent <==> rq.Some? && submit(rq.value) == NothingCreated)
  {
  }
}

=== FILE: options.dfy ===
/** The option tables and input filters of the bot's notification wizards.
    Both wizards (the earlier one in bot/main.py and the later one in
    bot/telegram/handlers/notify.py) declare the same tables and the same
    regular expressions; they are defined once here. */
module Options {
  import opened Common

  /** `available_actions`. */
  const AvailableActions: seq<string> := ["Buy", "Sell"]

  /** `approve_options`: yes / no. */
  const ApproveOptions: seq<string> := ["Да", "Нет"]

  const Yes: string := "Да"
  const No: string := "Нет"

  /** `available_delay`, in the dictionary's order: the polling intervals
      offered for a deadline, keyed by the deadline option's unit letter. */
  const AvailableDelay: seq<(char, seq<string>)> := [
    ('m', ["10s", "30s", "1m"]),
    ('h', ["5m", "15m", "30m"]),
    ('d', ["1h", "3h", "6h"])
  ]

  /** `available_end_notification`, in the dictionary's order. */
  const AvailableEndNotification: seq<(char, seq<string>)> := [
    ('m', ["5m", "10m", "30m"]),
    ('h', ["1h", "3h", "6h", "12h"]),
    ('d', ["1d", "3d", "5d", "7d"])
  ]

  /** `[j for _ in table.values() for j in _]`. */
  function Flatten(table: seq<(char, seq<string>)>): (r: seq<string>)
    ensures forall o :: o in r <==> exists i :: 0 <= i < |table| && o in table[i].1
  {
    if |table| == 0 then [] else table[0].1 + Flatten(table[1..])
  }

  /** `table.get(key)`. */
  function Lookup(table: seq<(char, seq<string>)>, key: char): (r: Option<seq<string>>)
    ensures r.Some? <==> exists i :: 0 <= i < |table| && table[i].0 == key
    ensures r.Some? ==> exists i :: 0 <= i < |table| && table[i].0 == key && table[i].1 == r.value
  {
    if |table| == 0 then None
    else if table[0].0 == key then Some(table[0].1)
    else Lookup(table[1..], key)
  }

  /** Every delay option, whatever deadline it is offered for. */
  function AllDelayOptions(): seq<string>
  {
    Flatten(AvailableDelay)
  }

  /** Every deadline option. */
  function AllEndOptions(): seq<string>
  {
    Flatten(AvailableEndNotification)
  }

  /** The delay buttons offered after a deadline was chosen:
      `available_delay.get(choice[-1])`. */
  function OfferedDelays(endChoice: string): Option<seq<string>>
  {
    if |endChoice| == 0 then None else Lookup(AvailableDelay, endChoice[|endChoice| - 1])
  }

  /** Every deadline option ends in a letter that keys the delay table, so
      the delay keyboard is always built from a real list of options, and
      every option it offers is one the delay filter accepts. */
  lemma EveryEndOptionOffersDelays(o: string)
    requires o in AllEndOptions()
    ensures OfferedDelays(o).Some?
    ensures |OfferedDelays(o).value| == 3
    ensures forall d :: d in OfferedDelays(o).value ==> d in AllDelayOptions()
  {
    var i :| 0 <= i < |AvailableEndNotification| && o in AvailableEndNotification[i].1;
    assert AvailableEndNotification[i].0 == AvailableDelay[i].0;
    assert o[|o| - 1] == AvailableEndNotification[i].0;
    var j :| 0 <= j < |AvailableDelay| && AvailableDelay[j].0 == o[|o| - 1] && AvailableDelay[j].1 == OfferedDelays(o).value;
  }

  /** What reaches a wizard: the `/notify` command, a text message with the
      id of its sender, or a button press with its callback data. A
      `Message`'s text is never the `/notify` command: the command handler is
      registered first and for every state, so it takes that text in any
      step of the conversation. */
  datatype Update = NotifyCommand | Message(text: string, sender: nat) | Press(data: string)

  // ---------------------------------------------------------------------------
  // Input filters

  /** A character of the class `[a-zA-Z]` under `re.IGNORECASE`: the 52
      ASCII letters and the four letters whose simple case mapping lands on
      one of them ('İ', 'ı', 'ſ' and the Kelvin sign). */
  predicate RegexLetter(c: char)
  {
    IsAsciiLetter(c) || c == '\U{130}' || c == '\U{131}' || c == '\U{17F}' || c == '\U{212A}'
  }

  /** A whole line matching the ticker regex `^[a-zA-Z]{1,5}$`. */
  predicate TickerPattern(s: string)
  {
    1 <= |s| <= 5 && forall i :: 0 <= i < |s| ==> RegexLetter(s[i])
  }

  /** The text after an optional leading minus sign. */
  function Unsigned(s: string): string
  {
    if |s| > 0 && s[0] == '-' then s[1..] else s
  }

  /** A whole line matching the price regex `^-?[0-9]+(?:\.[0-9]{1,6})?$`. */
  predicate PricePattern(s: string)
  {
    var body := Unsigned(s);
    || IsDigits(body)
    || exists k :: 0 < k < |body| && body[k] == '.' && IsDigits(body[..k])
                   && IsDigits(body[k + 1..]) && |body| - k - 1 <= 6
  }

  /** `s[i..j]` is one line of `s`: it starts at the start of the text or
      after a newline, ends at its end or before a newline, and holds no
      newline. */
  predicate LineAt(s: string, i: int, j: int)
  {
    && 0 <= i <= j <= |s|
    && (i == 0 || s[i - 1] == '\n')
    && (j == |s| || s[j] == '\n')
    && forall k :: i <= k < j ==> s[k] != '\n'
  }

  /** The wizards' `regexp=` filter on the ticker. The filter compiles the
      regex with `re.IGNORECASE | re.MULTILINE` and searches the text, so
      `^` and `$` match at every line break: a text passes when one of its
      lines is a ticker. */
  predicate TickerFilter(s: string)
  {
    exists i, j :: 0 <= i <= j <= |s| && LineAt(s, i, j) && TickerPattern(s[i..j])
  }

  /** The same filter on the target price: one line of the text is a price. */
  predicate PriceFilter(s: string)
  {
    exists i, j :: 0 <= i <= j <= |s| && LineAt(s, i, j) && PricePattern(s[i..j])
  }

  /** A text holding no newline is a single line. */
  predicate OneLine(s: string)
  {
    forall k :: 0 <= k < |s| ==> s[k] != '\n'
  }

  /** On a one-line text each filter is the whole-text match of its regex. */
  lemma FilterOnOneLine(s: string)
    requires OneLine(s)
    ensures TickerFilter(s) <==> TickerPattern(s)
    ensures PriceFilter(s) <==> PricePattern(s)
  {
    assert LineAt(s, 0, |s|) && s[0..|s|] == s;
    forall i, j | LineAt(s, i, j) ensures i == 0 && j == |s| {
    }
  }

  /** A text of several lines passes when one line matches: a ticker
      below a greeting. */
  lemma TickerFilterSearchesLines()
    ensures TickerFilter("hi\nthere") && !TickerPattern("hi\nthere")
  {
    var t := "hi\nthere";
    assert LineAt(t, 0, 2) && t[0..2] == "hi";
    assert !RegexLetter(t[2]);
  }

  lemma SmallLetters()
    ensures AsciiLower("5\nabc") == "5\nabc"
  {
    var p := "5\nabc";
    assert forall k :: 0 <= k < |p| ==> !('A' <= p[k] <= 'Z');
  }

  /** A price above a line of letters passes the price filter, and `float`
      refuses the text; lower-casing, as the wizards store it, keeps it. */
  lemma PriceFilterSearchesLines()
    ensures PriceFilter("5\nabc") && !PricePattern("5\nabc")
    ensures ParseFloat("5\nabc").None?
    ensures AsciiLower("5\nabc") == "5\nabc"
  {
    SmallLetters();
    PriceOnFirstLine();
    LettersDoNotConvert();
  }

  lemma PriceOnFirstLine()
    ensures PriceFilter("5\nabc") && !PricePattern("5\nabc")
  {
    var p := "5\nabc";
    assert LineAt(p, 0, 1) && p[0..1] == "5";
    assert IsDigits("5");
    assert Unsigned(p) == p;
    assert !IsDigit(p[1]);
    assert forall k :: 0 <= k < |p| ==> p[k] != '.';
  }

  lemma LettersDoNotConvert()
    ensures ParseFloat("5\nabc").None?
  {
    var p := "5\nabc";
    assert forall j :: 0 <= j < |p| ==> p[j] != '.';
    assert DotIndex(p) == None;
    assert !IsDigit(p[1]);
    assert !IsSpace(p[0]) && !IsSpace(p[|p| - 1]);
    StripUnspaced(p);
  }

  /** The first '.' of a text whose earlier characters are no dots. */
  lemma FirstDot(s: string, k: nat)
    requires k < |s| && s[k] == '.'
    requires forall j :: 0 <= j < k ==> s[j] != '.'
    ensures DotIndex(s) == Some(k)
  {
  }

  /** The unsigned part of a filtered price converts. */
  lemma UnsignedPriceParses(body: string)
    requires PricePattern(body) && Unsigned(body) == body
    ensures ParseUnsigned(body).Some?
  {
    if IsDigits(body) {
      assert DotIndex(body).None? by {
        forall j | 0 <= j < |body| ensures body[j] != '.' {
          assert IsDigit(body[j]);
        }
      }
    } else {
      var k :| 0 < k < |body| && body[k] == '.' && IsDigits(body[..k])
               && IsDigits(body[k + 1..]) && |body| - k - 1 <= 6;
      forall j | 0 <= j < k ensures body[j] != '.' {
        assert IsDigit(body[..k][j]);
      }
      FirstDot(body, k);
    }
  }

  /** The characters a matched price is made of. */
  predicate PriceChar(c: char)
  {
    IsDigit(c) || c == '-' || c == '.'
  }

  lemma DigitsArePriceChars(s: string)
    requires IsDigits(s)
    ensures forall i :: 0 <= i < |s| ==> PriceChar(s[i])
  {
    forall i | 0 <= i < |s| ensures PriceChar(s[i]) {
      assert IsDigit(s[i]);
    }
  }

  /** A line matching the price regex is made of digits, a minus and a
      dot, and ends in a digit. */
  lemma PriceChars(s: string)
    requires PricePattern(s)
    ensures |s| > 0 && IsDigit(s[|s| - 1])
    ensures forall i :: 0 <= i < |s| ==> PriceChar(s[i])
  {
    var body := Unsigned(s);
    if IsDigits(body) {
      DigitsArePriceChars(body);
    } else {
      var k :| 0 < k < |body| && body[k] == '.' && IsDigits(body[..k])
               && IsDigits(body[k + 1..]) && |body| - k - 1 <= 6;
      DecimalPriceChars(body, k);
    }
    forall i | 0 <= i < |s| ensures PriceChar(s[i]) {
      if s[0] == '-' && i > 0 {
        assert s[i] == body[i - 1];
      } else if s[0] != '-' {
        assert s[i] == body[i];
      }
    }
  }

  lemma DecimalPriceChars(body: string, k: int)
    requires 0 < k < |body| && body[k] == '.' && IsDigits(body[..k]) && IsDigits(body[k + 1..])
    ensures IsDigit(body[|body| - 1])
    ensures forall i :: 0 <= i < |body| ==> PriceChar(body[i])
  {
    DigitsArePriceChars(body[..k]);
    DigitsArePriceChars(body[k + 1..]);
    forall i | 0 <= i < |body| ensures PriceChar(body[i]) {
      if i < k {
        assert body[i] == body[..k][i];
      } else if i > k {
        assert body[i] == body[k + 1..][i - k - 1];
      }
    }
    assert body[|body| - 1] == body[k + 1..][|body| - k - 2];
  }

  /** Every line the price regex matches converts with `float`; its value
      is non-negative without a leading minus and non-positive with one, so
      the regex does not keep negative targets out. */
  lemma PricePatternParses(s: string)
    requires PricePattern(s)
    ensures ParseDecimal(s).Some? && ParseFloat(s) == ParseDecimal(s)
    ensures s[0] != '-' ==> ParseDecimal(s).value >= 0.0
    ensures s[0] == '-' ==> ParseDecimal(s).value <= 0.0
  {
    var body := Unsigned(s);
    if s[0] == '-' {
      assert PricePattern(body);
      UnsignedPriceParses(body);
    } else {
      UnsignedPriceParses(s);
    }
    PriceChars(s);
    StripUnspaced(s);
  }

  /** A line matching the price regex holds no letter: lower-casing it
      changes nothing. */
  lemma PricePatternLowerCase(s: string)
    requires PricePattern(s)
    ensures AsciiLower(s) == s
  {
    PriceChars(s);
    assert forall i :: 0 <= i < |s| ==> AsciiLower(s)[i] == s[i];
  }

  /** Lower-casing keeps the line breaks, so it keeps every line in place. */
  lemma LowerCaseKeepsLines(s: string, i: int, j: int)
    requires LineAt(s, i, j)
    ensures LineAt(AsciiLower(s), i, j)
    ensures AsciiLower(s)[i..j] == AsciiLower(s[i..j])
  {
    var l := AsciiLower(s);
    forall k | 0 <= k < |s| ensures l[k] == '\n' <==> s[k] == '\n' {
      assert l[k] == LowerChar(s[k]);
    }
  }

  /** The wizards store a filtered price lower-cased. The line that passed
      the filter is left as it was, so the stored text passes too, and a
      one-line price is stored exactly as typed. */
  lemma PriceFilterLowerCase(s: string)
    requires PriceFilter(s)
    ensures PriceFilter(AsciiLower(s))
    ensures |AsciiLower(s)| > 0
    ensures OneLine(s) ==> AsciiLower(s) == s
  {
    var i, j :| 0 <= i <= j <= |s| && LineAt(s, i, j) && PricePattern(s[i..j]);
    LowerCaseKeepsLines(s, i, j);
    PricePatternLowerCase(s[i..j]);
    assert PricePattern(AsciiLower(s)[i..j]);
    if OneLine(s) {
      FilterOnOneLine(s);
      PricePatternLowerCase(s);
    }
  }

  /** A negative price passes the wizard's filter. */
  lemma NegativePricePasses()
    ensures PricePattern("-5")
    ensures ParseDecimal("-5") == Some(-5.0)
  {
    assert Unsigned("-5") == "5";
    assert IsDigits("5");
    assert DotIndex("5") == None;
    assert DigitsValue("5") == 5 by {
      assert "5"[..0] == "";
    }
  }
}

=== FILE: polling.dfy ===
/** The earlier polling path of the server: find the exchange a ticker
    trades on, fetch its price, and poll until the target is reached or
    the deadline passes, then announce the end and delete the record.

    The HTTP answers, the clock and the sleeping between polls are given as
    data: each poll of the loop sees one entry of a trace. */
module Polling {
  import opened Common
  import opened Quotes
  import Lifecycle

  /** `Exchange`: code, URL suffix and display name. */
  datatype Exchange = Exchange(code: string, suffix: string, name: string)

  const MoscowExchange: Exchange := Exchange("ME", ".ME", "MOSCOW EXCHANGE")
  const DefaultExchange: Exchange := Exchange("", "", "")

  /** What asking for the ticker on the Moscow exchange gives: a body whose
      `quoteSummary` carries a truthy `error` or not, or an HTTP error. */
  datatype MeAnswer = MeAnswer(hasError: bool) | MeHttpError

  /** `find_exchange_by_ticker`: an error in the Moscow answer means the
      ticker trades elsewhere; an HTTP error is logged and nothing is
      returned. */
  function FindExchange(a: MeAnswer): (r: Option<Exchange>)
    ensures r.None? <==> a == MeHttpError
    ensures r.Some? ==> r.value in {MoscowExchange, DefaultExchange}
    ensures r.Some? ==> (r.value == MoscowExchange <==> !a.hasError)
  {
    match a
    case MeHttpError => None
    case MeAnswer(err) => if err then Some(DefaultExchange) else Some(MoscowExchange)
  }

  /** `StockPrice`: a ticker on an exchange with its quoted price. */
  datatype StockPrice = StockPrice(
    ticker: string,
    exchange: Exchange,
    price: real,
    currency: string,
    currencySymbol: string,
    shortName: string)

  /** What `check_price` ends with: a price, nothing (a key of the answer
      was missing, which is logged), or an attribute error escaping because
      no exchange was found. */
  datatype CheckResult = Priced(p: StockPrice) | Missing | NoExchange

  /** `check_price`: without an exchange it looks one up first, then asks
      for the ticker with the exchange's suffix and needs all four price
      keys of the answer. */
  function CheckPrice(ticker: string, given: Option<Exchange>, me: MeAnswer,
                      fetch: string -> Option<Quote>): (r: CheckResult)
    ensures r == NoExchange <==> given.None? && me == MeHttpError
    ensures r.Priced? ==>
            var ex := if given.Some? then given.value else FindExchange(me).value;
            && r.p.ticker == ticker && r.p.exchange == ex
            && fetch(QuoteUrl(ticker + ex.suffix)).Some?
            && fetch(QuoteUrl(ticker + ex.suffix)).value.price == Some(r.p.price)
    ensures given.None? && me.MeAnswer? && r.Priced? ==> (r.p.exchange.suffix == ".ME" <==> !me.hasError)
  {
    var ex := if given.Some? then given else FindExchange(me);
    match ex
    case None => NoExchange
    case Some(e) =>
      match fetch(QuoteUrl(ticker + e.suffix))
      case None => Missing
      case Some(q) =>
        if q.price.Some? && q.currency.Some? && q.currencySymbol.Some? && q.shortName.Some?
        then Priced(StockPrice(ticker, e, q.price.value, q.currency.value, q.currencySymbol.value,
                               q.shortName.value))
        else Missing
  }

  /** Without an exchange, `check_price` asks with the one
      `find_exchange_by_ticker` finds, and fails when it finds none. */
  lemma CheckPriceFindsExchange(ticker: string, me: MeAnswer, fetch: string -> Option<Quote>)
    ensures FindExchange(me).None? ==> CheckPrice(ticker, None, me, fetch) == NoExchange
    ensures FindExchange(me).Some? ==>
            CheckPrice(ticker, None, me, fetch) == CheckPrice(ticker, FindExchange(me), me, fetch)
  {
  }

  /** The price a poll compares, if `check_price` gave one. */
  function PolledPrice(r: CheckResult): Option<real>
  {
    if r.Priced? then Some(r.p.price) else None
  }

  // ---------------------------------------------------------------------------
  // The polling loop

  /** The stored record `price_checker` works from. The value it compares
      against is the record's `price` field, which a record may lack;
      `action` is the stored text. `end` is the deadline the create handler
      passes on, which is `None` when the request sent it as null. */
  datatype Watch = Watch(id: string, ticker: string, target: Option<real>, action: Option<string>,
                         event: Option<string>, end: Option<int>)

  /** One turn of the loop: the clock at the loop test and the polled price. */
  datatype Poll = Poll(now: int, price: Option<real>)

  /** What the checker does besides polling. */
  datatype Effect = Message(text: string) | Delete(id: string)

  /** How the loop ended: the target was hit, the deadline passed, the
      coroutine died (a poll gave no price and the attribute access failed,
      or a missing target was ordered against the price), or the trace ran
      out (the loop was still waiting). */
  datatype Ending = Reached | TimeUp | Crashed | Waiting

  /** The stored action text as an action; any other text acts like none. */
  function ActionOf(a: Option<string>): Option<Action>
  {
    if a.Some? then ParseAction(a.value) else None
  }

  /** The comparison of the loop body: equal to the target, or on the side
      of it the stored action asks for. A missing target equals no price. */
  predicate Hit(w: Watch, p: real)
  {
    match w.target
    case None => false
    case Some(t) => p == t || (w.action == Some("Buy") && p <= t) || (w.action == Some("Sell") && p >= t)
  }

  /** The comparison raises a type error: the target is missing and the
      stored action asks to order it against the price. */
  predicate Raises(w: Watch, p: real)
  {
    w.target.None? && (w.action == Some("Buy") || w.action == Some("Sell"))
  }

  /** The loop's test agrees with the lifecycle's notion of reaching a
      target, and it raises exactly when a Buy or Sell watch has no target. */
  lemma HitIsTargetReached(w: Watch, p: real)
    ensures Hit(w, p) <==> w.target.Some? && Lifecycle.TargetReached(p, w.target.value, ActionOf(w.action))
    ensures Raises(w, p) <==> w.target.None? && ActionOf(w.action).Some?
  {
    if w.action == Some("Buy") {
      assert ActionOf(w.action) == Some(Buy);
    } else if w.action == Some("Sell") {
      assert ActionOf(w.action) == Some(Sell);
    } else if w.action.Some? {
      assert ParseAction(w.action.value) == None;
    }
  }

  /** The target as the messages print it. */
  function ShowTarget(t: Option<real>, show: real -> string): string
  {
    match t
    case None => "None"
    case Some(v) => show(v)
  }

  function ReachedText(w: Watch, show: real -> string): string
  {
    "Target price " + ShowTarget(w.target, show) + " for " + w.ticker + " has been reached!\n"
    + "It is time to " + ShowOptional(w.action) + "\n"
    + "Event: " + ShowOptional(w.event)
  }

  function TimeOverText(w: Watch, show: real -> string): string
  {
    "Notification time is over for id: " + w.id + "!\n"
    + "Ticker: " + w.ticker + "\n"
    + "Target price: " + ShowTarget(w.target, show)
  }

  /** The loop test `now <= end`; comparing the clock with a missing
      deadline raises a type error instead. */
  predicate InTime(w: Watch, now: int)
  {
    w.end.Some? && now <= w.end.value
  }

  /** A poll that lets the loop go on: inside the deadline, with a price
      that neither hits the target nor fails to compare with it. */
  predicate Continues(w: Watch, q: Poll)
  {
    InTime(w, q.now) && q.price.Some? && !Hit(w, q.price.value) && !Raises(w, q.price.value)
  }

  /** `price_checker`: polls while the clock is within the deadline; a hit
      sends the target message and leaves the loop. Whether the target was
      hit or the deadline passed, the time-over message is sent and the
      record deleted. Without a deadline the first loop test raises, before
      any poll. `polls` counts the prices fetched. */
  method PriceChecker(w: Watch, trace: seq<Poll>, show: real -> string)
    returns (polls: nat, ending: Ending, effects: seq<Effect>)
    ensures polls <= |trace|
    ensures forall j :: 0 <= j < polls ==> InTime(w, trace[j].now)
    ensures w.end.None? ==> polls == 0 && ending == Crashed && effects == []
    ensures ending == Waiting <==> w.end.Some? && polls == |trace| && forall j :: 0 <= j < |trace| ==> Continues(w, trace[j])
    ensures ending != Waiting ==> forall j :: 0 <= j < polls - 1 ==> Continues(w, trace[j])
    ensures ending == TimeUp ==> polls < |trace| && w.end.Some? && trace[polls].now > w.end.value
                                 && forall j :: 0 <= j < polls ==> Continues(w, trace[j])
    ensures ending == Reached ==> polls > 0 && trace[polls - 1].price.Some?
                                  && Hit(w, trace[polls - 1].price.value)
    ensures ending == Crashed ==> w.end.None? ||
                                  (polls > 0 && InTime(w, trace[polls - 1].now)
                                   && (trace[polls - 1].price.None? || Raises(w, trace[polls - 1].price.value)))
    ensures w.target.None? ==> ending != Reached
    ensures w.target.None? && (w.action == Some("Buy") || w.action == Some("Sell")) ==>
            polls <= 1 && (polls == 1 ==> ending == Crashed)
    ensures ending == Reached ==>
            effects == [Message(ReachedText(w, show)), Message(TimeOverText(w, show)), Delete(w.id)]
    ensures ending == TimeUp ==> effects == [Message(TimeOverText(w, show)), Delete(w.id)]
    ensures ending == Crashed || ending == Waiting ==> effects == []
  {
    polls := 0;
    effects := [];
    if w.end.None? {
      ending := Crashed;
      return;
    }
    ending := Waiting;
    while polls < |trace| && InTime(w, trace[polls].now)
      invariant polls <= |trace|
      invariant forall j :: 0 <= j < polls ==> Continues(w, trace[j])
      invariant ending == Waiting && effects == []
      invariant w.target.None? && (w.action == Some("Buy") || w.action == Some("Sell")) ==> polls == 0
    {
      var price := trace[polls].price;
      polls := polls + 1;
      if price.None? || Raises(w, price.value) {
        ending := Crashed;
        return;
      }
      if Hit(w, price.value) {
        ending := Reached;
        effects := [Message(ReachedText(w, show))];
        break;
      }
    }
    if ending == Waiting && polls < |trace| {
      ending := TimeUp;
    }
    if ending != Waiting {
      effects := effects + [Message(TimeOverText(w, show)), Delete(w.id)];
    }
  }
}

=== FILE: quotes.dfy ===
/** The quote service as the server sees it: the URL it asks for a symbol's
    price summary, and the parts of the answer the server reads. The HTTP
    call itself is outside the model; its answer is a parameter. */
module Quotes {
  import opened Common

  const QuoteBase: string := "https://query1.finance.yahoo.com/v10/finance/quoteSummary/"
  const QuoteQuery: string := "?modules=price"

  /** The price-summary URL for a quote symbol (a ticker plus an exchange suffix). */
  function QuoteUrl(symbol: string): string
  {
    QuoteBase + symbol + QuoteQuery
  }

  /** The symbol a price-summary URL asks for, if it is one. */
  function SymbolOfUrl(url: string): (r: Option<string>)
    ensures r.Some? ==> QuoteUrl(r.value) == url
  {
    if |url| >= |QuoteBase| + |QuoteQuery|
       && url[..|QuoteBase|] == QuoteBase
       && url[|url| - |QuoteQuery|..] == QuoteQuery
    then
      var symbol := url[|QuoteBase|..|url| - |QuoteQuery|];
      assert QuoteBase + symbol + QuoteQuery == url by {
        assert url == url[..|QuoteBase|] + url[|QuoteBase|..|url| - |QuoteQuery|] + url[|url| - |QuoteQuery|..];
      }
      Some(symbol)
    else None
  }

  /** Every quote URL names its symbol, so distinct symbols give distinct URLs. */
  lemma QuoteUrlRoundTrip(symbol: string)
    ensures SymbolOfUrl(QuoteUrl(symbol)) == Some(symbol)
  {
    var url := QuoteUrl(symbol);
    assert url[..|QuoteBase|] == QuoteBase;
    assert url[|url| - |QuoteQuery|..] == QuoteQuery;
    assert url[|QuoteBase|..|url| - |QuoteQuery|] == symbol;
  }

  /** The `price` section of a quote summary; each key may be missing. */
  datatype Quote = Quote(
    symbol: string,
    price: Option<real>,
    currency: Option<string>,
    currencySymbol: Option<string>,
    shortName: Option<string>)

  /** What one guarded fetch of a URL gives: the timeout fired, the request
      failed (the fetch helper then answers `None`), or a decoded body. */
  datatype Lookup = TimedOut | NoData | Data(quote: Quote)
}

=== FILE: request_params.dfy ===
/** The bot's conversion of a finished wizard conversation into a create
    request (`_prepare_request_params`, identical in bot/api/notification.py
    and bot/services/notification.py) and the status rule of
    `create_notification`. The conversation is a dictionary of field values;
    the clock is a parameter in seconds. */
module RequestParams {
  import opened Common
  import Options
  import ServerModels

  /** A dictionary value: text, a float, an integer, or a rendered deadline
      (the text of a date and time, which ends in a digit). */
  datatype Field = Text(s: string) | Num(x: real) | Whole(n: int) | Stamp(t: int)

  type Params = map<string, Field>

  /** `PrepareRequestError` reports a `KeyError` or `ValueError`; `Uncaught`
      is the attribute error of calling `endswith` on a missing key or on a
      value that is not text, which escapes the handler. */
  datatype PrepareError = PrepareRequestError | Uncaught

  /** Python truthiness of a value. */
  predicate Truthy(f: Field)
  {
    match f
    case Text(s) => s != ""
    case Num(x) => x != 0.0
    case Whole(n) => n != 0
    case Stamp(_) => true
  }

  /** `float(value)`; `None` is the `ValueError` of an unconvertible text. */
  function ToFloat(f: Field): Option<real>
  {
    match f
    case Text(s) => ParseFloat(s)
    case Num(x) => Some(x)
    case Whole(n) => Some(n as real)
    case Stamp(_) => None
  }

  /** Seconds per unit letter of a deadline option: minutes, hours, days. */
  const EndUnits: seq<(char, int)> := [('m', 60), ('h', 3600), ('d', 86400)]

  /** Seconds per unit letter of a delay option: seconds, minutes, hours. */
  const DelayUnits: seq<(char, int)> := [('s', 1), ('m', 60), ('h', 3600)]

  function UnitOf(table: seq<(char, int)>, c: char): (r: Option<int>)
    ensures r.Some? <==> exists i :: 0 <= i < |table| && table[i].0 == c
    ensures r.Some? ==> exists i :: 0 <= i < |table| && table[i] == (c, r.value)
  {
    if |table| == 0 then None
    else if table[0].0 == c then Some(table[0].1)
    else UnitOf(table[1..], c)
  }

  /** The unit letter of a text, if it is one the table knows. */
  function Unit(table: seq<(char, int)>, s: string): Option<int>
  {
    if |s| == 0 then None else UnitOf(table, s[|s| - 1])
  }

  /** Step 1: a truthy `price` is replaced by `targetPrice`, its float value. */
  function ConvertPrice(d: Params): (r: Result<Params, PrepareError>)
    ensures !("price" in d && Truthy(d["price"])) ==> r == Ok(d)
    ensures "price" in d && Truthy(d["price"]) ==>
            (r.Ok? <==> ToFloat(d["price"]).Some?)
            && (r.Err? ==> r.error == PrepareRequestError)
            && (r.Ok? ==> r.value == (d - {"price"})["targetPrice" := Num(ToFloat(d["price"]).value)])
  {
    if "price" in d && Truthy(d["price"]) then
      match ToFloat(d["price"])
      case Some(x) => Ok((d - {"price"})["targetPrice" := Num(x)])
      case None => Err(PrepareRequestError)
    else Ok(d)
  }

  /** Step 2: `end_notification` ending in m, h or d becomes the deadline
      `endNotification`, that many minutes, hours or days from `now`. */
  function ConvertEnd(d: Params, now: int): (r: Result<Params, PrepareError>)
    ensures !("end_notification" in d && d["end_notification"].Text?) ==>
            r == (if "end_notification" in d && d["end_notification"].Stamp? then Ok(d) else Err(Uncaught))
    ensures "end_notification" in d && d["end_notification"].Text? ==>
            var s := d["end_notification"].s;
            && (Unit(EndUnits, s).None? ==> r == Ok(d))
            && (Unit(EndUnits, s).Some? ==>
                  (r.Ok? <==> ParseInt(s[..|s| - 1]).Some?)
                  && (r.Err? ==> r.error == PrepareRequestError)
                  && (r.Ok? ==> r.value == (d - {"end_notification"})["endNotification" :=
                                  Stamp(now + ParseInt(s[..|s| - 1]).value * Unit(EndUnits, s).value)]))
  {
    if "end_notification" !in d then Err(Uncaught)
    else
      match d["end_notification"]
      case Text(s) =>
        var minutes := if EndsWith(s, 'm') then Some(1) else if EndsWith(s, 'h') then Some(60)
                       else if EndsWith(s, 'd') then Some(60 * 24) else None;
        if minutes.None? then Ok(d)
        else
          (match ParseInt(DropLast(s))
           case Some(n) => Ok((d - {"end_notification"})["endNotification" := Stamp(now + n * minutes.value * 60)])
           case None => Err(PrepareRequestError))
      case Stamp(_) => Ok(d)
      case _ => Err(Uncaught)
  }

  /** Step 3: `delay` ending in s, m or h becomes that many seconds,
      minutes or hours, counted in seconds. */
  function ConvertDelay(d: Params): (r: Result<Params, PrepareError>)
    ensures !("delay" in d && d["delay"].Text?) ==>
            r == (if "delay" in d && d["delay"].Stamp? then Ok(d) else Err(Uncaught))
    ensures "delay" in d && d["delay"].Text? ==>
            var s := d["delay"].s;
            && (Unit(DelayUnits, s).None? ==> r == Ok(d))
            && (Unit(DelayUnits, s).Some? ==>
                  (r.Ok? <==> ParseInt(s[..|s| - 1]).Some?)
                  && (r.Err? ==> r.error == PrepareRequestError)
                  && (r.Ok? ==> r.value == d["delay" := Whole(ParseInt(s[..|s| - 1]).value * Unit(DelayUnits, s).value)]))
  {
    if "delay" !in d then Err(Uncaught)
    else
      match d["delay"]
      case Text(s) =>
        if EndsWith(s, 's') || EndsWith(s, 'm') || EndsWith(s, 'h') then
          (match ParseInt(DropLast(s))
           case Some(n) =>
             if EndsWith(s, 's') then Ok(d["delay" := Whole(n)])
             else if EndsWith(s, 'm') then Ok(d["delay" := Whole(n * 60)])
             else Ok(d["delay" := Whole(n * 60 * 60)])
           case None => Err(PrepareRequestError))
        else Ok(d)
      case Stamp(_) => Ok(d)
      case _ => Err(Uncaught)
  }

  /** `_prepare_request_params`: the three steps in order; the first error
      ends the conversion. */
  function Prepare(d: Params, now: int): (r: Result<Params, PrepareError>)
    ensures r.Ok? ==> forall k :: k in d && k !in {"price", "targetPrice", "end_notification", "endNotification", "delay"}
                                  ==> k in r.value && r.value[k] == d[k]
    ensures r.Ok? ==> forall k :: k in r.value && k !in {"targetPrice", "endNotification", "delay"} ==> k in d
    ensures (("end_notification" !in d || !(d["end_notification"].Text? || d["end_notification"].Stamp?))
             && ConvertPrice(d).Ok?) ==> r == Err(Uncaught)
  {
    match ConvertPrice(d)
    case Err(e) => Err(e)
    case Ok(d1) =>
      match ConvertEnd(d1, now)
      case Err(e) => Err(e)
      case Ok(d2) => ConvertDelay(d2)
  }

  /** A conversation the wizards can produce: a deadline option, a delay
      option, and a price the price filter let through (or none). The
      filter looks at one line only, so the price may still not convert. */
  predicate WizardConversation(d: Params)
  {
    && "end_notification" in d && d["end_notification"].Text?
    && d["end_notification"].s in Options.AllEndOptions()
    && "delay" in d && d["delay"].Text? && d["delay"].s in Options.AllDelayOptions()
    && ("price" in d ==> d["price"].Text? && Options.PriceFilter(d["price"].s))
  }

  lemma OneDigit(s: string)
    requires |s| == 1 && IsDigit(s[0])
    ensures ParseInt(s) == Some(DigitValue(s[0]))
  {
    assert IsDigits(s);
    assert s[..0] == [];
    assert DigitsValue(s) == DigitsValue(s[..0]) * 10 + DigitValue(s[0]);
  }

  lemma TwoDigits(s: string)
    requires |s| == 2 && IsDigit(s[0]) && IsDigit(s[1])
    ensures ParseInt(s) == Some(10 * DigitValue(s[0]) + DigitValue(s[1]))
  {
    assert IsDigits(s);
    var head := s[..1];
    assert head[..0] == [] && head[0] == s[0];
    assert DigitsValue(head) == DigitValue(s[0]);
  }

  /** The seconds of each deadline option. */
  lemma EndOptionSeconds(o: string)
    requires o in Options.AllEndOptions()
    ensures Unit(EndUnits, o).Some? && ParseInt(o[..|o| - 1]).Some?
    ensures 300 <= ParseInt(o[..|o| - 1]).value * Unit(EndUnits, o).value <= 7 * 86400
  {
    assert o in ["5m", "10m", "30m", "1h", "3h", "6h", "12h", "1d", "3d", "5d", "7d"];
    if o in ["5m", "10m", "30m"] {
      EndMinutes(o);
    } else if o in ["1h", "3h", "6h", "12h"] {
      EndHours(o);
    } else {
      EndDays(o);
    }
  }

  lemma EndMinutes(o: string)
    requires o in ["5m", "10m", "30m"]
    ensures Unit(EndUnits, o).Some? && ParseInt(o[..|o| - 1]).Some?
    ensures 300 <= ParseInt(o[..|o| - 1]).value * Unit(EndUnits, o).value <= 7 * 86400
  {
    var p := o[..|o| - 1];
    if o == "5m" {
      assert p == "5";
      OneDigit(p);
    } else if o == "10m" {
      assert p == "10";
      TwoDigits(p);
    } else if o == "30m" {
      assert p == "30";
      TwoDigits(p);
    }
  }

  lemma EndHours(o: string)
    requires o in ["1h", "3h", "6h", "12h"]
    ensures Unit(EndUnits, o).Some? && ParseInt(o[..|o| - 1]).Some?
    ensures 300 <= ParseInt(o[..|o| - 1]).value * Unit(EndUnits, o).value <= 7 * 86400
  {
    var p := o[..|o| - 1];
    if o == "1h" {
      assert p == "1";
      OneDigit(p);
    } else if o == "3h" {
      assert p == "3";
      OneDigit(p);
    } else if o == "6h" {
      assert p == "6";
      OneDigit(p);
    } else if o == "12h" {
      assert p == "12";
      TwoDigits(p);
    }
  }

  lemma EndDays(o: string)
    requires o in ["1d", "3d", "5d", "7d"]
    ensures Unit(EndUnits, o).Some? && ParseInt(o[..|o| - 1]).Some?
    ensures 300 <= ParseInt(o[..|o| - 1]).value * Unit(EndUnits, o).value <= 7 * 86400
  {
    var p := o[..|o| - 1];
    if o == "1d" {
      assert p == "1";
      OneDigit(p);
    } else if o == "3d" {
      assert p == "3";
      OneDigit(p);
    } else if o == "5d" {
      assert p == "5";
      OneDigit(p);
    } else if o == "7d" {
      assert p == "7";
      OneDigit(p);
    }
  }

  /** The seconds of each delay option. */
  lemma DelayOptionSeconds(o: string)
    requires o in Options.AllDelayOptions()
    ensures Unit(DelayUnits, o).Some? && ParseInt(o[..|o| - 1]).Some?
    ensures 10 <= ParseInt(o[..|o| - 1]).value * Unit(DelayUnits, o).value <= 21600
  {
    assert o in ["10s", "30s", "1m", "5m", "15m", "30m", "1h", "3h", "6h"];
    if o in ["10s", "30s"] {
      DelaySeconds(o);
    } else if o in ["1m", "5m", "15m", "30m"] {
      DelayMinutes(o);
    } else {
      DelayHours(o);
    }
  }

  lemma DelaySeconds(o: string)
    requires o in ["10s", "30s"]
    ensures Unit(DelayUnits, o).Some? && ParseInt(o[..|o| - 1]).Some?
    ensures 10 <= ParseInt(o[..|o| - 1]).value * Unit(DelayUnits, o).value <= 21600
  {
    var p := o[..|o| - 1];
    if o == "10s" {
      assert p == "10";
      TwoDigits(p);
    } else if o == "30s" {
      assert p == "30";
      TwoDigits(p);
    }
  }

  lemma DelayMinutes(o: string)
    requires o in ["1m", "5m", "15m", "30m"]
    ensures Unit(DelayUnits, o).Some? && ParseInt(o[..|o| - 1]).Some?
    ensures 10 <= ParseInt(o[..|o| - 1]).value * Unit(DelayUnits, o).value <= 21600
  {
    var p := o[..|o| - 1];
    if o == "1m" {
      assert p == "1";
      OneDigit(p);
    } else if o == "5m" {
      assert p == "5";
      OneDigit(p);
    } else if o == "15m" {
      assert p == "15";
      TwoDigits(p);
    } else if o == "30m" {
      assert p == "30";
      TwoDigits(p);
    }
  }

  lemma DelayHours(o: string)
    requires o in ["1h", "3h", "6h"]
    ensures Unit(DelayUnits, o).Some? && ParseInt(o[..|o| - 1]).Some?
    ensures 10 <= ParseInt(o[..|o| - 1]).value * Unit(DelayUnits, o).value <= 21600
  {
    var p := o[..|o| - 1];
    if o == "1h" {
      assert p == "1";
      OneDigit(p);
    } else if o == "3h" {
      assert p == "3";
      OneDigit(p);
    } else if o == "6h" {
      assert p == "6";
      OneDigit(p);
    }
  }

  /** A filtered price is never empty, so the conversion always reads it. */
  lemma FilteredPriceTruthy(p: string)
    requires Options.PriceFilter(p)
    ensures Truthy(Text(p))
  {
    var i, j :| 0 <= i <= j <= |p| && Options.LineAt(p, i, j) && Options.PricePattern(p[i..j]);
    Options.PriceChars(p[i..j]);
  }

  /** Past the price step, a deadline option and a delay option always
      convert: the deadline to five minutes to a week ahead, the delay to
      ten seconds to six hours. */
  lemma OptionsConvert(d1: Params, now: int)
    requires "end_notification" in d1 && d1["end_notification"].Text?
    requires d1["end_notification"].s in Options.AllEndOptions()
    requires "delay" in d1 && d1["delay"].Text? && d1["delay"].s in Options.AllDelayOptions()
    ensures ConvertEnd(d1, now).Ok? && ConvertDelay(ConvertEnd(d1, now).value).Ok?
    ensures var d3 := ConvertDelay(ConvertEnd(d1, now).value).value;
            && "endNotification" in d3 && d3["endNotification"].Stamp?
            && now + 300 <= d3["endNotification"].t <= now + 7 * 86400
            && "delay" in d3 && d3["delay"].Whole? && 10 <= d3["delay"].n <= 21600
  {
    EndOptionSeconds(d1["end_notification"].s);
    var d2 := ConvertEnd(d1, now).value;
    assert d2["delay"] == d1["delay"];
    DelayOptionSeconds(d1["delay"].s);
  }

  /** The conversion of a wizard's conversation fails only on a price that
      `float` refuses, as a `PrepareRequestError`; a one-line price always
      converts. Once converted, the deadline lies five minutes to a week
      ahead, and the delay between ten seconds and six hours, inside the
      server's delay bound. */
  lemma WizardConversationPrepares(d: Params, now: int)
    requires WizardConversation(d)
    ensures Prepare(d, now).Ok? <==> "price" !in d || ParseFloat(d["price"].s).Some?
    ensures Prepare(d, now).Err? ==> Prepare(d, now).error == PrepareRequestError
    ensures "price" !in d || Options.OneLine(d["price"].s) ==> Prepare(d, now).Ok?
    ensures Prepare(d, now).Ok? ==>
            && "endNotification" in Prepare(d, now).value
            && Prepare(d, now).value["endNotification"].Stamp?
            && now + 300 <= Prepare(d, now).value["endNotification"].t <= now + 7 * 86400
    ensures Prepare(d, now).Ok? ==>
            && "delay" in Prepare(d, now).value && Prepare(d, now).value["delay"].Whole?
            && 10 <= Prepare(d, now).value["delay"].n <= 21600
            && ServerModels.DelayOk(Prepare(d, now).value["delay"].n)
  {
    if "price" in d {
      var p := d["price"].s;
      FilteredPriceTruthy(p);
      if Options.OneLine(p) {
        Options.FilterOnOneLine(p);
        Options.PricePatternParses(p);
      }
    }
    if ConvertPrice(d).Ok? {
      var d1 := ConvertPrice(d).value;
      assert d1["end_notification"] == d["end_notification"] && d1["delay"] == d["delay"];
      OptionsConvert(d1, now);
      assert Prepare(d, now) == ConvertDelay(ConvertEnd(d1, now).value);
    }
  }

  // ---------------------------------------------------------------------------
  // Posting the request

  /** What the server answered, or an HTTP-level failure. */
  datatype Reply = Reply(status: int, body: Params) | TransportError

  datatype CreateError = Prepared(e: PrepareError) | MakeRequestError(status: int)

  const Created: int := 201

  /** `create_notification`: convert, then post; a transport failure is
      logged and gives nothing, a status other than 201 raises, and 201
      returns the decoded body. */
  function CreateNotification(d: Params, now: int, post: Params -> Reply): (r: Result<Option<Params>, CreateError>)
    ensures Prepare(d, now).Err? ==> r == Err(Prepared(Prepare(d, now).error))
    ensures Prepare(d, now).Ok? ==>
            var reply := post(Prepare(d, now).value);
            && (r == Ok(None) <==> reply == TransportError)
            && (reply.Reply? ==> (r.Ok? <==> reply.status == Created))
            && (reply.Reply? && reply.status == Created ==> r == Ok(Some(reply.body)))
            && (reply.Reply? && reply.status != Created ==> r == Err(MakeRequestError(reply.status)))
  {
    match Prepare(d, now)
    case Err(e) => Err(Prepared(e))
    case Ok(params) =>
      match post(params)
      case TransportError => Ok(None)
      case Reply(status, body) =>
        if status != Created then Err(MakeRequestError(status)) else Ok(Some(body))
  }

  /** Creating a wizard's conversation fails in the conversion exactly when
      `float` refuses its price, and otherwise only when the server answers
      a status other than 201; with a one-line price the server's status is
      the only failure left. */
  lemma WizardCreateFailures(d: Params, now: int, post: Params -> Reply)
    requires WizardConversation(d)
    ensures var r := CreateNotification(d, now, post);
            r.Err? && r.error.Prepared? <==> "price" in d && ParseFloat(d["price"].s).None?
    ensures var r := CreateNotification(d, now, post);
            r.Err? && r.error.Prepared? ==> r.error == Prepared(PrepareRequestError)
    ensures var r := CreateNotification(d, now, post);
            "price" !in d || Options.OneLine(d["price"].s) ==>
              && Prepare(d, now).Ok?
              && (r.Err? <==> post(Prepare(d, now).value).Reply? && post(Prepare(d, now).value).status != Created)
              && (r.Err? ==> r.error.MakeRequestError?)
  {
    WizardConversationPrepares(d, now);
  }
}

=== FILE: server_models.dfy ===
/** The server's data classes: the `Stock` record and the request models
    whose field constraints the web layer enforces before anything is stored
    (`StockPriceNotificationCreate`, `...Read`, `...Delete`). */
module ServerModels {
  import opened Common

  // ---------------------------------------------------------------------------
  // Stock

  /** What the quote service last reported for a ticker; every field but the
      ticker may still be unknown. */
  datatype Stock = Stock(
    ticker: string,
    shortName: Option<string>,
    price: Option<real>,
    currency: Option<string>,
    currencySymbol: Option<string>)

  /** Python truthiness of an optional price: present and non-zero. */
  predicate PriceTruthy(p: Option<real>)
  {
    p.Some? && p.value != 0.0
  }

  /** Python truthiness of an optional text: present and non-empty. */
  predicate TextTruthy(t: Option<string>)
  {
    t.Some? && t.value != ""
  }

  const UndefinedPrefix: string := "Price and exchange is not defined for "

  /** `Stock.__repr__`; `show` renders a float as Python prints it. */
  function StockRepr(s: Stock, show: real -> string): string
  {
    if PriceTruthy(s.price) && TextTruthy(s.currencySymbol)
    then s.ticker + ": " + show(s.price.value) + " " + s.currencySymbol.value
    else UndefinedPrefix + s.ticker
  }

  /** The representation quotes the price only when both the price and the
      currency symbol are truthy; a zero or missing price, or a missing or
      empty symbol, gives the "not defined" text. For any ticker the request
      model admits, the two texts cannot be confused. */
  lemma StockReprForms(s: Stock, show: real -> string)
    requires |s.ticker| <= 5
    ensures StockRepr(s, show) == UndefinedPrefix + s.ticker
            <==> !(PriceTruthy(s.price) && TextTruthy(s.currencySymbol))
    ensures PriceTruthy(s.price) && TextTruthy(s.currencySymbol) ==>
            StockRepr(s, show)[..|s.ticker| + 2] == s.ticker + ": "
  {
    var r := StockRepr(s, show);
    if PriceTruthy(s.price) && TextTruthy(s.currencySymbol) {
      assert r[|s.ticker|] == ':';
      assert UndefinedPrefix[|s.ticker|] != ':';
      assert (UndefinedPrefix + s.ticker)[|s.ticker|] == UndefinedPrefix[|s.ticker|];
    }
  }

  // ---------------------------------------------------------------------------
  // Request models

  const MinTickerLength: nat := 1
  const MaxTickerLength: nat := 5
  const MaxEventLength: nat := 100
  /** `delay` must be greater than this (`gt=9`). */
  const DelayExclusiveMin: int := 9
  /** `delay` must be at most this (`le=86400`, one day). */
  const DelayMax: int := 86400
  const DefaultDelay: int := 60
  const MinChatIdLength: nat := 5
  const MaxChatIdLength: nat := 12
  const MaxIdLength: nat := 50
  /** The create model's chat id default. In the source it is the integer
      411442889, and the model library does not validate defaults, so a
      record built from it carries that integer; it is held here as its
      decimal text. The bot's models default to the string instead. */
  const DefaultChatId: string := "411442889"

  predicate TickerOk(t: string)
  {
    MinTickerLength <= |t| <= MaxTickerLength
  }

  predicate TargetPriceOk(p: real)
  {
    p > 0.0
  }

  predicate EventOk(e: Option<string>)
  {
    e.None? || 1 <= |e.value| <= MaxEventLength
  }

  predicate DelayOk(d: int)
  {
    DelayExclusiveMin < d <= DelayMax
  }

  predicate ChatIdOk(c: string)
  {
    MinChatIdLength <= |c| <= MaxChatIdLength
  }

  predicate IdOk(id: string)
  {
    1 <= |id| <= MaxIdLength
  }

  /** The fields a validation error can name. */
  datatype Field = TickerField | TargetPriceField | ActionField | EventField
                 | DelayField | ChatIdField | IdField

  /** A validated `StockPriceNotificationCreate`; `endNotification` is in
      seconds, and `None` when it was sent as null. */
  datatype CreateRequest = CreateRequest(
    ticker: string,
    targetPrice: real,
    action: Option<Action>,
    event: Option<string>,
    endNotification: Option<int>,
    delay: int,
    chatId: string)

  predicate ValidCreate(r: CreateRequest)
  {
    TickerOk(r.ticker) && TargetPriceOk(r.targetPrice) && EventOk(r.event)
    && DelayOk(r.delay) && ChatIdOk(r.chatId)
  }

  /** A submitted field with a default: left out, sent as null, or given. */
  datatype Given<T> = Absent | Nil | Present(v: T)

  /** The given value, or the default when the field was left out. */
  function GivenOr<T>(g: Given<T>, default: T): T
    requires !g.Nil?
  {
    match g
    case Present(v) => v
    case Absent => default
  }

  /** A create request as submitted. For the required fields, and for the
      optional `action` and `event`, a null means the same as a missing
      value, so `None` stands for both. The fields with a non-null default
      tell the two apart: a null deadline is kept, while a null delay or
      chat id is refused. */
  datatype RawCreate = RawCreate(
    ticker: Option<string>,
    targetPrice: Option<real>,
    action: Option<string>,
    event: Option<string>,
    endNotification: Given<int>,
    delay: Given<int>,
    chatId: Given<string>)

  /** Whether the submitted value of field `f` is refused: a required field
      is missing, a field that does not allow null is null, or a given value
      breaks its constraint. Defaults are not checked, as the model library
      does not validate them. */
  predicate Rejects(raw: RawCreate, f: Field)
  {
    match f
    case TickerField => raw.ticker.None? || !TickerOk(raw.ticker.value)
    case TargetPriceField => raw.targetPrice.None? || !TargetPriceOk(raw.targetPrice.value)
    case ActionField => raw.action.Some? && ParseAction(raw.action.value).None?
    case EventField => !EventOk(raw.event)
    case DelayField => raw.delay.Nil? || (raw.delay.Present? && !DelayOk(raw.delay.v))
    case ChatIdField => raw.chatId.Nil? || (raw.chatId.Present? && !ChatIdOk(raw.chatId.v))
    case IdField => false
  }

  /** The fields of a create request. */
  const CreateFields: set<Field> :=
    {TickerField, TargetPriceField, ActionField, EventField, DelayField, ChatIdField}

  /** The errors reported for a create request, one per refused field. */
  function CreateErrors(raw: RawCreate): set<Field>
  {
    set f | f in CreateFields && Rejects(raw, f)
  }

  /** The reported errors are exactly the refused fields: no field outside
      the request's own is ever refused. */
  lemma CreateErrorsExact(raw: RawCreate)
    ensures forall f :: f in CreateErrors(raw) <==> Rejects(raw, f)
  {
  }

  /** Building `StockPriceNotificationCreate` from submitted fields.
      `defaultEnd` is the deadline default, fixed when the module is loaded. */
  function ValidateCreate(raw: RawCreate, defaultEnd: int): (r: Result<CreateRequest, set<Field>>)
    ensures r.Err? <==> exists f :: Rejects(raw, f)
    ensures r.Err? ==> forall f :: f in r.error <==> Rejects(raw, f)
    ensures r.Ok? ==> ValidCreate(r.value)
    ensures r.Ok? ==> raw.ticker == Some(r.value.ticker) && raw.targetPrice == Some(r.value.targetPrice)
                      && r.value.event == raw.event
    ensures raw.delay.Nil? || raw.chatId.Nil? ==> r.Err?
    ensures r.Ok? ==> (raw.delay.Absent? ==> r.value.delay == DefaultDelay)
                      && (raw.delay.Present? ==> r.value.delay == raw.delay.v)
                      && (raw.chatId.Absent? ==> r.value.chatId == DefaultChatId)
                      && (raw.chatId.Present? ==> r.value.chatId == raw.chatId.v)
    ensures r.Ok? ==> (raw.endNotification.Absent? ==> r.value.endNotification == Some(defaultEnd))
                      && (raw.endNotification.Nil? ==> r.value.endNotification == None)
                      && (raw.endNotification.Present? ==> r.value.endNotification == Some(raw.endNotification.v))
    ensures r.Ok? ==> (r.value.action.Some? <==> raw.action.Some?)
                      && (raw.action.Some? ==> ActionName(r.value.action.value) == raw.action.value)
  {
    var errs := CreateErrors(raw);
    CreateErrorsExact(raw);
    if errs != {} then
      assert exists f :: f in errs;
      Err(errs)
    else
      assert forall f :: f in CreateFields ==> f !in errs;
      Ok(CreateRequest(
        raw.ticker.value,
        raw.targetPrice.value,
        if raw.action.Some? then ParseAction(raw.action.value) else None,
        raw.event,
        match raw.endNotification
        case Nil => None
        case Absent => Some(defaultEnd)
        case Present(t) => Some(t),
        GivenOr(raw.delay, DefaultDelay),
        GivenOr(raw.chatId, DefaultChatId)))
  }

  /** Sending a delay or chat id as null is not leaving it out: a request
      the model accepts with that field left out is refused, on that field
      alone, once the field is null. */
  lemma ExplicitNullRefused(raw: RawCreate, defaultEnd: int)
    requires ValidateCreate(raw, defaultEnd).Ok?
    ensures raw.delay.Absent? ==> ValidateCreate(raw.(delay := Nil), defaultEnd) == Err({DelayField})
    ensures raw.chatId.Absent? ==> ValidateCreate(raw.(chatId := Nil), defaultEnd) == Err({ChatIdField})
  {
    if raw.delay.Absent? {
      var nulled := raw.(delay := Nil);
      assert Rejects(nulled, DelayField);
      assert forall f :: Rejects(nulled, f) <==> f == DelayField;
      var r := ValidateCreate(nulled, defaultEnd);
      assert r.error == {DelayField};
    }
    if raw.chatId.Absent? {
      var nulled := raw.(chatId := Nil);
      assert Rejects(nulled, ChatIdField);
      assert forall f :: Rejects(nulled, f) <==> f == ChatIdField;
      var r := ValidateCreate(nulled, defaultEnd);
      assert r.error == {ChatIdField};
    }
  }

  /** A validated `StockPriceNotificationRead`: a create request plus its id. */
  datatype ReadRequest = ReadRequest(id: string, request: CreateRequest)

  /** `StockPriceNotificationRead` extends the create model with an `id`
      of 1 to 50 characters; errors of both are reported together. */
  function ValidateRead(raw: RawCreate, id: Option<string>, defaultEnd: int): (r: Result<ReadRequest, set<Field>>)
    ensures r.Ok? <==> ValidateCreate(raw, defaultEnd).Ok? && id.Some? && IdOk(id.value)
    ensures r.Ok? ==> Some(r.value.id) == id && Ok(r.value.request) == ValidateCreate(raw, defaultEnd)
    ensures r.Err? ==> (IdField in r.error <==> id.None? || !IdOk(id.value))
    ensures r.Err? ==> forall f :: f != IdField ==> (f in r.error <==> Rejects(raw, f))
  {
    var idErrs := if id.None? || !IdOk(id.value) then {IdField} else {};
    match ValidateCreate(raw, defaultEnd)
    case Ok(req) =>
      if idErrs == {} then Ok(ReadRequest(id.value, req)) else Err(idErrs)
    case Err(errs) => Err(errs + idErrs)
  }

  /** `StockPriceNotificationDelete`: only an `id` of 1 to 50 characters. */
  function ValidateDelete(id: Option<string>): (r: Result<string, set<Field>>)
    ensures r.Ok? <==> id.Some? && 1 <= |id.value| <= 50
    ensures r.Ok? ==> id == Some(r.value)
    ensures r.Err? ==> r.error == {IdField}
  {
    if id.Some? && IdOk(id.value) then Ok(id.value) else Err({IdField})
  }
}
